=== FILE: README.md ===
# Yandex Practicum C++ exercises: a verified model of their core

This project models the logic of the C++ course exercises in Dafny and proves the
behaviour their code promises. The model covers:

- **Search server** (`search_server.dfy`, module `SearchServer`): the inverted
  index from words to per-document term frequencies, the document store, and
  the list of ids in insertion order. Its operations are AddDocument,
  RemoveDocument, GetWordFrequencies and MatchDocument, together with word
  validation, the average rating, and both variants of the query-word and
  query parsers: the throwing one, which here returns a `Result`, and the one
  that returns `bool`.
- **Tokenizer** (`string_processing.dfy`): SplitIntoWords and
  MakeUniqueNonEmptyStrings.
- **Request queue** (`request_queue.dfy`, module `RequestStatistics`): a window
  of the last 1440 response sizes and the count of empty responses.
- **Duplicate removal** (`remove_duplicates.dfy`, module `DuplicateRemoval`): a
  scan in insertion order that compares word sets, followed by the removals.
- **Paginator** (`paginator.dfy`, module `Pagination`): it cuts a sequence into
  full pages and drops a trailing partial page, as the code does.
- **SimpleVector** (`simple_vector.dfy`, module `Vectors`) and **StackVector**
  (`stack_vector.dfy`, module `Stacks`): classes over arrays with size and
  capacity, instantiated at `int`.
- **JSON subset** (`json.dfy`, `json_printer.dfy`, `ordered_strings.dfy`):
  - The loaders are methods over a character stream. They are proved against
    functions on the unread input.
  - The stringifier is a method proved against a `Printed` function.
  - Text printed from a tree of unsigned integers, arrays and quote-free
    dictionaries reads back as the same tree.
  - A dictionary is its entries in increasing key order, as a `std::map`
    iterates them.
- **Transport catalogue** (`transport_catalogue.dfy`, module `Transport`):
  - splitting a command at its first space;
  - classifying `Bus`/`Stop` for database and output commands;
  - the closed-route test;
  - a class with the catalogue's containers and its append/connect/clear
    operations.
- **Texture and shapes** (`texture.dfy`, `shapes.dfy`): bounds-checked pixel
  lookup with a `'.'` default, and a nested loop that paints a clipped
  rectangle into a character image (`array2<char>`).

Errors the C++ code throws become `Result`/`Outcome` values (`wrappers.dfy`).
Undefined behaviour becomes a precondition, an error value or the intended
result; each case is listed under "Left out".

MatchDocument's header and `.cpp` disagree, and the model follows the header:
search_server.h:34-35 declares a vector of `std::string`, while
search_server.cpp:68-105 returns `string_view`s into the set
`query.plus_words` of a local `Query`, which dangle once the function returns.
The model returns copies of the words.

Where `transport_catalogue.h` and `transport_catalogue.cpp` disagree, the model
follows the `.cpp`:

- The header's `OutputCommands` has only `PrintBus = 100000`, while the `.cpp`
  also produces `PrintStop`.
- The header declares `stops_to_buses_` as a map to sets, while the `.cpp`
  appends to it as to a vector.
- The header's `route` struct is used as a vector of stop indices (`Route`).

## Model

| member | source | states |
|---|---|---|
| StringProcessing.SplitIntoWords | string_processing.cpp:7-32 | the result is exactly `Words(text)`, the maximal runs of non-space characters in order |
| StringProcessing.WordsNonEmpty | string_processing.cpp:15-29 | every returned word is non-empty |
| StringProcessing.WordsHaveNoSpace | string_processing.cpp:13-24 | no returned word contains a space |
| StringProcessing.WordsConcat | string_processing.cpp:11-31 | concatenating the words gives the input with every space removed, in order |
| StringProcessing.WordsOfBlank | string_processing.cpp:7-32 | an empty or all-space text yields no words |
| StringProcessing.WordsOfSingle | string_processing.cpp:7-32 | a non-empty text without spaces yields itself as the only word |
| StringProcessing.MakeUniqueNonEmptyStrings | string_processing.h:9-22 | the set of exactly the non-empty input strings; never contains the empty string; empty input gives the empty set |
| SearchServer.NonStop | search_server.cpp:121-136 | a word is kept iff it is a token and not a stop word |
| SearchServer.SplitIntoWordsNoStop | search_server.cpp:121-136 | fails with InvalidWord iff some token has a control character; otherwise the tokens without the stop words |
| SearchServer.AverageRating | search_server.cpp:138-150 | 0 for no ratings, otherwise the sum divided by the count truncated toward zero (bounds on both signs of the sum) |
| SearchServer.ComputeAverageRating | search_server.cpp:138-150 | the accumulating loop computes AverageRating |
| SearchServer.AverageRatingExamples | main.cpp:65-79 | {1,2,3} gives 2, {2,3,4} gives 3, {-3,-4} gives -3 (truncation, not floor) |
| SearchServer.ParseQueryWord | search_server.cpp:152-171 | rejects exactly the empty token, "-", tokens starting "--" and tokens with control characters; otherwise strips one leading '-' into isMinus and tags isStop |
| SearchServer.ParseQueryWordChecked | search_server.cpp:230-252 | the bool variant accepts exactly the tokens ParseQueryWord accepts, with the same word, and the default word otherwise |
| SearchServer.FirstMalformed | search_server.cpp:258-264 | the index of the first rejected token: all before it are accepted, the one at it is not |
| SearchServer.FirstMalformedAt | search_server.cpp:258-264 | the first rejected token's index is unique |
| SearchServer.PlusWordsMembers | search_server.cpp:173-192 | a word is a plus word iff it is an accepted token without '-' that is not a stop word |
| SearchServer.MinusWordsMembers | search_server.cpp:173-192 | a word is a minus word iff "-" + word is an accepted token and the word is not a stop word |
| SearchServer.QueryOfStep | search_server.cpp:176-190 | adding one accepted token's word keeps the query equal to the plus and minus sets of the tokens read, each sorted |
| SearchServer.ParseQuery | search_server.cpp:173-192 | fails with InvalidQuery iff some token is rejected; otherwise the plus and minus sets of all tokens, sorted |
| SearchServer.ParseQueryChecked | search_server.cpp:254-278 | true iff every token is accepted; on false the result holds the words of the tokens before the first rejected one |
| SearchServer.PlusAndMinusMayOverlap | search_server.cpp:173-192 | "cat -cat" puts "cat" in both sets and is not rejected |
| SearchServer.IndexOf | search_server.cpp:218 | std::find: an index of the id |
| SearchServer.IndexOfFirst | search_server.cpp:218 | no earlier position holds the id |
| SearchServer.EraseFirst | search_server.cpp:218 | erasing the found id shortens the list by one |
| SearchServer.EraseFirstRemovesOne | search_server.cpp:218 | erasing removes exactly one occurrence of the id (multiset) |
| SearchServer.IdsCount | search_server.cpp:53-56 | when the id list holds each store key once, the store's size equals the list's length |
| SearchServer.IdsValidAppend | search_server.cpp:37-38 | appending a new id and storing its data keeps the list equal to the store's keys, each once |
| SearchServer.IdsValidErase | search_server.cpp:218-219 | erasing an id from both list and store keeps that correspondence |
| SearchServer.AccumulatedQuotient | search_server.cpp:32-36 | adding 1/count n times gives n/count |
| SearchServer.AddedPostingsFromLoop | search_server.cpp:32-36 | the posting loop ends with the index AddedPostings describes |
| SearchServer.AddedPostingsMeaning | search_server.cpp:30-36 | each added word gets frequency occurrences/word count for the document; nothing else gains a posting for it; other documents' frequencies are unchanged |
| SearchServer.AddedPostingsValid | search_server.cpp:30-36 | adding a document keeps every posting for a stored document, on a valid non-stop word, with a positive frequency |
| SearchServer.NewWordsAreIndexable | search_server.cpp:121-136 | the words kept from an accepted text are non-empty, valid and not stop words |
| SearchServer.PurgedFrequencies | search_server.cpp:221-227 | after purging, the document has no frequencies, other documents' are unchanged, and every word key remains |
| SearchServer.PurgedValid | search_server.cpp:221-227 | purging a document keeps the index invariant for the remaining documents |
| SearchServer.SearchServer.constructor | search_server.h:15-18 | a server with the given stop words and empty index, store and id list |
| SearchServer.SearchServer.GetDocumentCount | search_server.cpp:53-56 | the number of stored documents, which equals the length of the id list |
| SearchServer.SearchServer.DocumentIds | search_server.cpp:58-66 | begin/end range: each stored id exactly once, nothing else |
| SearchServer.SearchServer.AddDocument | search_server.cpp:23-39 | InvalidDocumentId for a negative or known id, InvalidWord for a control character, with nothing changed; otherwise stores the data, appends the id and adds the postings |
| SearchServer.SearchServer.AddPostings | search_server.cpp:32-36 | the loop adds 1/word count per occurrence, giving AddedPostings |
| SearchServer.SearchServer.GetWordFrequencies | search_server.cpp:199-214 | the document's frequency for every word that has one |
| SearchServer.SearchServer.RemoveDocument | search_server.cpp:216-228 | erases the id from the list, the store and every posting, keeping the invariant |
| SearchServer.SearchServer.MatchDocument | search_server.cpp:68-105 | InvalidQuery for a rejected query; OutOfRange for an unknown document; an empty list if a minus word is posted for it; otherwise its posted plus words in sorted order, with its status |
| RequestStatistics.Window | request_queue.cpp:48-56 | the last min(n, 1440) recorded sizes, in order |
| RequestStatistics.WindowStep | request_queue.cpp:50-55 | recording one size appends it and drops the front only when the window would exceed 1440 |
| RequestStatistics.CountZeros | request_queue.cpp:39-44 | the number of zero entries |
| RequestStatistics.FullWindowDropsOldest | request_queue.cpp:50-55 | after 1440 empty responses and one non-empty one, 1439 empty ones remain in the window |
| RequestStatistics.RequestQueue.constructor | request_queue.cpp:8-9 | an empty queue over the given search functions; the status search is the predicate search filtering by status, and the plain search is the status search for Actual (search_server.cpp:41-51) |
| RequestStatistics.RequestQueue.UpdateRequests | request_queue.cpp:48-56 | appends at the back, drops the front only above 1440, and the window never exceeds 1440 |
| RequestStatistics.RequestQueue.GetNoResultRequests | request_queue.cpp:39-44 | the number of recorded empty responses, reading only |
| RequestStatistics.RequestQueue.AddFindRequestWithPredicate | request_queue.cpp:11-19 | returns the server's response unchanged and records its size; records nothing when the search fails |
| RequestStatistics.RequestQueue.AddFindRequestWithStatus | request_queue.cpp:21-28 | returns the server's response unchanged and records its size; records nothing when the search fails |
| RequestStatistics.RequestQueue.AddFindRequest | request_queue.cpp:30-37 | returns the server's response unchanged and records its size; records nothing when the search fails |
| DuplicateRemoval.SignatureMatchesWordSet | remove_duplicates.cpp:18-31 | two zeroed frequency maps are equal iff the documents' non-stop word sets are equal |
| DuplicateRemoval.ScanStep | remove_duplicates.cpp:16-41 | visiting the next document appends it to the duplicates iff its word set was seen, and marks its word set as seen |
| DuplicateRemoval.DuplicatesAreVisited | remove_duplicates.cpp:16-41 | the ids to delete are distinct ids of the server |
| DuplicateRemoval.DuplicateIff | remove_duplicates.cpp:33-41 | a document is marked iff an earlier document in insertion order has the same word set |
| DuplicateRemoval.SignatureSurvives | remove_duplicates.cpp:39-41 | every word set keeps a document after the removals, and a document with no earlier document of the same word set is itself kept |
| DuplicateRemoval.SurvivorsDistinct | remove_duplicates.cpp:33-47 | the remaining documents have pairwise distinct word sets |
| DuplicateRemoval.DuplicatesCount | remove_duplicates.cpp:33-41 | the number removed is the old count minus the number of distinct word sets |
| DuplicateRemoval.WithoutMembers | remove_duplicates.cpp:44-47 | an id remains iff it was present and not deleted |
| DuplicateRemoval.RemovalStep | remove_duplicates.cpp:44-47 | each removal takes one more deleted id out of the list, the store and the index |
| DuplicateRemoval.ScanDuplicates | remove_duplicates.cpp:11-42 | the scan loop collects exactly Duplicates of the ids in insertion order |
| DuplicateRemoval.RemoveDuplicates | remove_duplicates.cpp:9-48 | after the scan, the marked ids are removed from list, store and index, keeping the server's invariant |
| Pagination.PagedShape | paginator.h:28-39 | the pages followed by the unflushed rest give back the input; the rest is shorter than a page; every page is full |
| Pagination.PagedLength | paginator.h:28-39 | pages × page size + rest length = input length |
| Pagination.PagesFlatten | paginator.h:28-39 | concatenated pages are the first pages × page size items, in order |
| Pagination.PageCount | paginator.h:33-39 | floor(n / page size) pages, none for page size 0 |
| Pagination.PageContents | paginator.h:28-39 | page p is the items p·k up to (p+1)·k |
| Pagination.NoFullPage | paginator.h:30-33 | page size 0 or fewer items than a page gives no pages |
| Pagination.Paginator.constructor | paginator.h:22-40 | the counting loop builds the pages Paged describes |
| Pagination.Paginate | paginator.h:42-46 | equals the paginator over the whole container |
| Vectors.Inserted | simple_vector.h:78-94 | value at pos, earlier elements kept, later ones shifted right by one |
| Vectors.Erased | simple_vector.h:136-137 | the element at pos removed, the rest in order |
| Vectors.BubbledToEnd | simple_vector.h:137-146 | the erased element moved to the last position, the others in order |
| Vectors.EraseUndoesInsert | simple_vector.h:82-146 | erasing at pos after inserting at pos gives back the contents |
| Vectors.BubblePermutes | simple_vector.h:140-143 | the adjacent swaps only permute the elements |
| Vectors.EraseKeepsErasedElement | simple_vector.h:137-146 | erasing the first of [1,2,3] leaves [2,3,1], not two elements |
| Vectors.CopyLoopWrites | simple_vector.h:103-114 | as written, n loop steps write every slot below n, and slot n as well when the insertion index is below n |
| Vectors.ReallocCopyOverruns | simple_vector.h:97-114 | for a full vector of size s > 0 the copy loop as written writes slot s + 1, which lies inside the doubled buffer iff s >= 2 |
| Vectors.GrownCapacity | simple_vector.h:78-97 | double the capacity, or 1 from 0 |
| Vectors.SimpleVector.constructor | simple_vector.h:23 | empty vector of capacity 0 |
| Vectors.SimpleVector.Filled | simple_vector.h:25-40 | size and capacity n, every element the value |
| Vectors.SimpleVector.FromSeq | simple_vector.h:42-56 | contents equal to the list, size and capacity its length |
| Vectors.SimpleVector.GetSize | simple_vector.h:155-160 | the number of elements, at most the buffer length |
| Vectors.SimpleVector.GetCapacity | simple_vector.h:162-167 | the buffer length, at least the number of elements |
| Vectors.SimpleVector.IsEmpty | simple_vector.h:169-173 | true iff there are no elements |
| Vectors.SimpleVector.Get | simple_vector.h:175-187 | below the size, the element at the index |
| Vectors.SimpleVector.Set | simple_vector.h:175-180 | writes exactly the slot at the index |
| Vectors.SimpleVector.At | simple_vector.h:189-213 | OutOfRange iff the index is not below the size, otherwise the element |
| Vectors.SimpleVector.Insert | simple_vector.h:78-125 | contents become Inserted; returns pos; capacity kept with room, grown and reallocated when full |
| Vectors.SimpleVector.ShiftIn | simple_vector.h:85-93 | the in-place branch's swaps yield Inserted |
| Vectors.SimpleVector.CopyAround | simple_vector.h:95-119 | the copying branch yields Inserted in the new buffer |
| Vectors.SimpleVector.PushBack | simple_vector.h:72-76 | contents gain the item at the back; capacity as for Insert at the end |
| Vectors.SimpleVector.PopBack | simple_vector.h:127-134 | drops the last element when there is one, no-op when empty, buffer and capacity unchanged |
| Vectors.SimpleVector.Erase | simple_vector.h:136-146 | as written: contents become BubbledToEnd, size unchanged, returns pos |
| Vectors.SimpleVector.EraseAndShrink | simple_vector.h:136-146 | as intended: contents become Erased, capacity unchanged |
| Vectors.SimpleVector.Swap | simple_vector.h:148-153 | exchanges buffer, size and capacity |
| Vectors.SimpleVector.Assign | simple_vector.h:58-70 | self-assignment changes nothing; otherwise a fresh copy of the other's contents, capacity its size |
| Vectors.SimpleVector.Resize | simple_vector.h:221-243 | shrinking keeps the prefix and the buffer; growing keeps the contents, fills zeros and sets capacity to the new size |
| Vectors.SimpleVector.Clear | simple_vector.h:215-219 | no elements, capacity and buffer unchanged |
| Vectors.Zeros | simple_vector.h:228 | n default (zero) elements |
| Vectors.Equal | simple_vector.h:295-298 | true iff same length and same elements |
| Vectors.NotEqual | simple_vector.h:300-303 | true iff not Equal |
| Vectors.LessIrreflexive | simple_vector.h:305-308 | no vector is less than itself |
| Vectors.LessTrichotomy | simple_vector.h:305-308 | exactly one of <, ==, > holds |
| Vectors.LessTransitive | simple_vector.h:305-308 | lexicographic < is transitive |
| Vectors.LessEqAsWrittenAlwaysHolds | simple_vector.h:310-313 | as written, <= holds for every pair, e.g. [2] <= [1] |
| Vectors.LessEqIsNotGreater | simple_vector.h:310-318 | as intended, <= is exactly not > |
| Vectors.Greater | simple_vector.h:315-318 | true iff neither < nor == |
| Vectors.GreaterEq | simple_vector.h:320-323 | true iff not < |
| Stacks.StackVector.constructor | stack_vector.h:104 | capacity N and the requested size |
| Stacks.StackVector.Size | stack_vector.h:140-143 | the number of occupied slots, at most N |
| Stacks.StackVector.Capacity | stack_vector.h:145-148 | always the array length N |
| Stacks.StackVector.Get | stack_vector.h:112-120 | any slot below N; below the size, the element |
| Stacks.StackVector.Set | stack_vector.h:112-115 | writes exactly that slot, size unchanged |
| Stacks.StackVector.PushBack | stack_vector.h:150-158 | Overflow iff full, then nothing changes; otherwise writes slot size and increments it |
| Stacks.StackVector.PopBack | stack_vector.h:160-168 | Underflow iff empty; otherwise returns the top and removes it |
| Stacks.Create | stack_vector.h:104-110 | InvalidArgument iff the size exceeds N; otherwise a stack of that size |
| Stacks.PushThenPop | stack_vector.h:150-168 | push then pop returns the pushed value and restores the contents |
| OrderedStrings.LessIrreflexive | json.h:13 | std::string's < is irreflexive |
| OrderedStrings.LessTransitive | json.h:13 | std::string's < is transitive |
| OrderedStrings.LessTotal | json.h:13 | distinct strings are ordered one way or the other |
| OrderedStrings.Insert | search_server.cpp:183-187 | set insertion into a sorted sequence: stays sorted, gains exactly the element, unchanged if present |
| OrderedStrings.SortedUnique | json.h:13 | two sorted sequences with the same members are equal |
| Json.IsNull | json.cpp:94-96 | true iff the node is null |
| Json.IsInt | json.cpp:97-99 | true iff the node is an int |
| Json.IsBool | json.cpp:100-102 | true iff the node is a bool |
| Json.IsDouble | json.cpp:103-105 | true iff the node is an int or a double |
| Json.IsPureDouble | json.cpp:106-108 | true iff the node is a double |
| Json.IsString | json.cpp:109-111 | true iff the node is a string |
| Json.IsArray | json.cpp:112-114 | true iff the node is an array |
| Json.IsMap | json.cpp:115-117 | true iff the node is a dictionary |
| Json.DictInsert | json.cpp:49 | map::insert: a new key is added in order; a repeated key keeps the first value |
| Json.DictInsertLast | json.cpp:49 | inserting a key greater than all others appends it |
| Json.SkipSpaces | json.cpp:14 | operator>> skips leading white space |
| Json.SkipSpacesSuffix | json.cpp:14 | only spaces are skipped, and what is left is a suffix |
| Json.ReadChar | json.cpp:14 | none at the end of the input, otherwise the first character after white space and what follows |
| Json.DigitRun | json.cpp:26-29 | the maximal run of leading digits |
| Json.ParseInt | json.cpp:24-31 | a non-negative integer; consumes something only when the text starts with a digit |
| Json.ParseIntWithoutDigit | json.cpp:24-31 | with no digit, 0 and nothing consumed |
| Json.SingleDigit | json.cpp:24-31 | one digit followed by a non-digit reads as its value |
| Json.UntilQuote | json.cpp:35 | the position of the first quote, or the end |
| Json.UntilQuoteAt | json.cpp:35 | that position is unique |
| Json.ParseStringSplit | json.cpp:33-37 | the text up to the first quote, which is consumed; the whole rest when there is none; no escapes |
| Json.ParseStringOf | json.cpp:33-37 | a quote-free line followed by a quote reads back as that line |
| Json.ArrayOpens | json.cpp:59-60 | '[' dispatches to the array reader |
| Json.DictOpens | json.cpp:61-62 | '{' dispatches to the dictionary reader |
| Json.IntRead | json.cpp:65-67 | any other character is put back and an integer read |
| Json.UnsupportedReadsAsZero | json.cpp:65-67 | a letter such as 't' reads as 0 and consumes nothing |
| Json.UnsupportedLiteralDiverges | json.cpp:14-19 | "[true]" never finishes |
| Json.ArrayCloses | json.cpp:14 | ']' ends the array with the items read |
| Json.ArrayEnds | json.cpp:14 | the end of the input ends the array |
| Json.ArrayItemAfterComma | json.cpp:15-18 | after ',' the next node is appended |
| Json.ArrayItem | json.cpp:15-18 | any other character is put back and the node appended, unless it consumed nothing |
| Json.EmptyArray | json.cpp:11-22 | "[ ]" reads as the empty array |
| Json.DictCloses | json.cpp:42 | '}' ends the dictionary |
| Json.DictEntry | json.cpp:43-49 | a key string, one separator character, then a node, inserted with map::insert |
| Json.Stream.Peek | json.cpp:26 | the next character without consuming it, none at the end |
| Json.Stream.Get | json.cpp:28 | consumes and returns the next character |
| Json.Stream.PutBack | json.cpp:16 | un-reads the last character |
| Json.Stream.SkipWhiteSpace | json.cpp:14 | advances past white space |
| Json.Stream.Extract | json.cpp:14 | operator>> on a char: skip white space and consume one character, if any |
| Json.LoadInt | json.cpp:24-31 | consumes exactly what ParseInt describes and returns its value |
| Json.LoadString | json.cpp:33-37 | consumes exactly what ParseString describes |
| Json.LoadNode | json.cpp:55-69 | agrees with ParseNode on the result and on the unread rest |
| Json.LoadArray | json.cpp:11-22 | agrees with ParseArray |
| Json.LoadDict | json.cpp:39-53 | agrees with ParseDict |
| Json.Load | json.cpp:174-176 | the root node the reader describes |
| JsonPrinter.IntToString | json.cpp:240-242 | to_string of an int: a leading '-' exactly for negative values, and the digits after it read back as the magnitude |
| JsonPrinter.NatToStringValue | json.cpp:240-242 | the printed digits read back as the number |
| JsonPrinter.JoinSnoc | json.cpp:213-216 | joining one more part adds ", " before it unless it is the first |
| JsonPrinter.PrintedExamples | json.cpp:203-248 | null, true/false, raw strings, "[  ]" and "{  }" |
| JsonPrinter.Stringify | json.cpp:203-248 | the visitor's text is Printed |
| JsonPrinter.StringifyArray | json.cpp:206-221 | "[ " + items joined by ", " + " ]" |
| JsonPrinter.StringifyDict | json.cpp:222-236 | "{ " + "\"k\": v" in key order joined by ", " + " }" |
| JsonPrinter.Print | json.cpp:178-180 | writes Printed of the root |
| JsonPrinter.ReadBack | json.cpp:11-69 | a loadable tree's text followed by a non-digit reads back as the tree, leaving the rest |
| JsonPrinter.ArrayReadBack | json.cpp:206-221 | a printed array of loadable items reads back as itself |
| JsonPrinter.DictReadBack | json.cpp:222-236 | a printed dictionary of loadable values and quote-free keys reads back as itself |
| JsonPrinter.LoadPrinted | json.cpp:174-180 | Load of Print of a loadable tree gives the tree back |
| Transport.SpaceIndex | transport_catalogue.cpp:136-144 | the position of the first space, or the length |
| Transport.Divide | transport_catalogue.cpp:131-147 | two parts shorter together than the input, or two empty parts |
| Transport.DivideSplits | transport_catalogue.cpp:131-147 | a space-free code, a space and the meta give back the input; without a space both parts are empty |
| Transport.DivideJoined | transport_catalogue.cpp:131-147 | code + ' ' + meta splits back into code and meta |
| Transport.DivideCommandByCodeAndValue | transport_catalogue.cpp:131-147 | the scanning loop computes Divide |
| Transport.GetDBCommandCodeAndQuery | transport_catalogue.cpp:59-83 | EmptyCommandMetadata for empty input; a result is its keyword, a space and the metadata unchanged |
| Transport.GetOutputCommandCodeAndQuery | transport_catalogue.cpp:85-109 | EmptyCommandMetadata for empty input; a result is its keyword, a space and the metadata unchanged |
| Transport.DBCommandRoundTrip | transport_catalogue.cpp:69-82 | "Bus"/"Stop" + ' ' + meta gives AddBus/AddStop and meta |
| Transport.OutputCommandRoundTrip | transport_catalogue.cpp:95-108 | "Bus"/"Stop" + ' ' + meta gives PrintBus/PrintStop and meta |
| Transport.CommandRejected | transport_catalogue.cpp:69-108 | InvalidCommandMetadata iff the keyword is neither "Bus" nor "Stop"; input without a space is always rejected |
| Transport.ClosedRoutes | transport_catalogue.cpp:54-57 | a route returning to its first stop is closed, one stop is closed, and closedness survives reversal |
| Transport.TransportCatalogue.constructor | transport_catalogue.h:62-94 | empty containers, last stop id 1 |
| Transport.TransportCatalogue.BusWithId | transport_catalogue.h:94 | a registered id leads to a bus with that id |
| Transport.TransportCatalogue.AddStop | transport_catalogue.cpp:149-152 | appends the stop, nothing else changes |
| Transport.TransportCatalogue.AddBus | transport_catalogue.cpp:154-158 | appends the bus and maps its id to the new last index; other ids still lead to their buses |
| Transport.TransportCatalogue.AddRoute | transport_catalogue.cpp:160-163 | appends the route, nothing else changes |
| Transport.TransportCatalogue.ConnectBusAndStop | transport_catalogue.cpp:165-169 | appends to both lists, creating a missing list empty first |
| Transport.TransportCatalogue.ConnectStopAndRoute | transport_catalogue.cpp:171-175 | OutOfRange for an unknown route; an unknown stop fails after the route was extended |
| Transport.TransportCatalogue.Clear | transport_catalogue.cpp:210-220 | all eight containers empty; the last stop id is kept |
| Textures.Texture.GetSize | texture.h:15-18 | the first row's width or 0, and the number of rows |
| Textures.Texture.GetPixelColor | texture.h:20-41 | a colour other than '.' only inside the image, and then the image's character |
| Textures.PixelInSize | texture.h:20-41 | inside the reported size the image's colour, elsewhere '.' |
| Textures.EmptyTextureBlank | texture.h:25-38 | an empty texture has size 0×0 and is '.' everywhere |
| Shapes.Shape.constructor | shapes.h:22-23 | the given type at the origin, size 0×0, no texture |
| Shapes.Shape.SetPosition | shapes.h:25-28 | replaces the position only |
| Shapes.Shape.SetSize | shapes.h:30-33 | replaces the size only |
| Shapes.Shape.SetTexture | shapes.h:35-38 | replaces the texture only |
| Shapes.Shape.Draw | shapes.h:45-60 | with the intended test, every covered cell inside the image gets the texture colour at its offset, every other cell keeps its colour, whatever the shape type |
| Shapes.GuardAsWritten | shapes.h:51 | the test as written reports a read past the last row exactly when the row test passes for a loop row the image lacks; it lets a write through only where row i exists and is wide enough |
| Shapes.GuardAsWrittenOverruns | shapes.h:51 | on rows "..", "." a shape at (1,1) passes the guard as written although the target cell does not exist |
| Shapes.GuardAsWrittenReadsPastLastRow | shapes.h:47-51 | on the rectangular one-row image "." a shape at (0,-1) reaches loop row 1, and the test reads `image[1]`, which does not exist |
| Shapes.DrawStaysInRowsIff | shapes.h:47-51 | the shape starts at a non-negative row, or the image is empty, or the shape is no taller than the image or than the gap above it, iff no loop row reads past the last row |
| Shapes.GuardsAgreeOnRectangles | shapes.h:51 | on an image with equally wide rows the guard as written and the intended one agree wherever the one as written does not read past the last row, which cannot happen from a non-negative row |

## Left out

- I/O and the console: the `cout` line in remove_duplicates.cpp is not modelled; streams are a fixed text with a cursor; Print returns the text it would write.
- TF-IDF ranking and top-K selection: the predicate template of FindTopDocuments and FindAllDocuments are declared without a body (search_server.h:23-24, 78-79). The status and no-argument overloads of FindTopDocuments (search_server.cpp:41-51) only delegate to it. The request queue takes the three searches as given functions, tied together as those overloads tie them.
- ComputeWordInverseDocumentFreq (search_server.cpp:194-197): it computes a `double` through `log`, which the model has no counterpart for.
- SearchServer.SearchServer.AddDocument: term frequencies are exact reals, not doubles.
- SearchServer.ComputeAverageRating: the sum is an unbounded integer; overflow of the C++ `int` accumulator is not modelled.
- Json.LoadInt: the value is an unbounded integer; overflow of the C++ `int` is not modelled.
- Json.ParseNode: at the end of the input the reader reports UnexpectedEnd, where the C++ code uses an uninitialised character.
- Json.ParseDict: when the input ends after a ',' or after a key, the reader reports UnexpectedEnd, where the C++ code (json.cpp:43-48) goes on reading from a failed stream.
- Json.ParseArray: an item that consumes nothing loops for ever in the C++ code; the model reports Diverges instead.
- JsonPrinter.LoadPrinted: the round trip holds only for non-negative integers, arrays and dictionaries with quote-free keys. Null, booleans and strings print as bare words the reader does not know. Double printing (`to_string(double)`, json.cpp:243-245) is left out.
- SearchServer.SearchServer.GetWordFrequencies: returns a fresh map, not a reference to a function-static one.
- SearchServer.SearchServer.RemoveDocument: requires the id to be present; erasing `end()` for an absent id is undefined.
- SearchServer.SearchServer.MatchDocument: returns copies of the words, as search_server.h:34-35 declares, not the views of search_server.cpp:91-104, which point into a local set and dangle after the return.
- Vectors.SimpleVector.Insert: the reallocating branch reads one element past the old end, and it writes slot `size + 1` of the new buffer, which lies past the end when the old size is 1 (Vectors.ReallocCopyOverruns). The model states the documented result, with the copy loop run over the old elements only, as in Vectors.SimpleVector.CopyAround.
- Vectors.SimpleVector.Resize: the `delete` of an array is not modelled.
- Vectors.SimpleVector.Erase: requires a non-empty vector and pos below its size, where the C++ loop would run off the buffer.
- The iterators of SimpleVector and StackVector (begin/end) are not modelled. Contents are sequences over the array.
- SimpleVector and StackVector are instantiated at `int`; StackVector's template size N is the `capacity` field.
- Textures.Texture.GetPixelColor: requires equally wide rows, because the C++ code checks x only against the first row.
- Shapes.Shape.Draw: the image is an `array2<char>`, so its rows are equally wide. A ragged image, where the guard as written can overrun, is covered by the Shapes.GuardAsWritten lemmas instead. The texture must be set and the size non-negative.
- Shapes.Shape.Draw: uses the intended test. When the shape starts above the image and is taller than both the image and the gap above it (the negation of Shapes.DrawStaysInRows), the C++ test reads `image[i]` past the last row, which is undefined; the model paints the covered cells there instead. Shapes.DrawStaysInRowsIff and Shapes.GuardsAgreeOnRectangles tie the two tests together on every other input.
- Stacks.StackVector.constructor: fills the slots with 0, where the C++ array `items_` is default-initialised and its unoccupied slots hold indeterminate values.
- Transport.IsClosedRoute requires a non-empty route (the C++ code reads `at(size() - 1)`).
- remove_stop, remove_bus and remove_route: remove_stop edits a copy of each bus's stop list, and the other two have empty bodies.
- GetMetadataQueryByCode and its four helpers, MakeBusMetaFrom, MakeStopMetaFrom, BuildBusFrom, BuildStopFrom, apply_db_command and apply_output_command: they return empty or default values.
- geo.h and common.h are not part of this model. Coordinates are a pair of reals; Point and Size are pairs of integers.

## Findings

| source | as written | input that shows it | evidently intended | confidence | as-written member | corrected member |
|---|---|---|---|---|---|---|
| simple_vector.h:136-146 | Erase bubbles the element to the end but never decrements the size | erase position 0 of [1, 2, 3]: contents [2, 3, 1] | the element is removed: [2, 3] | high (not executed) | Vectors.SimpleVector.Erase, Vectors.EraseKeepsErasedElement | Vectors.SimpleVector.EraseAndShrink, Vectors.EraseUndoesInsert |
| simple_vector.h:310-313 | operator<= returns `lhs < rhs \|\| lhs == lhs` | [2] <= [1] is true | `lhs < rhs \|\| lhs == rhs` | high (not executed) | Vectors.LessEqAsWritten, Vectors.LessEqAsWrittenAlwaysHolds | Vectors.LessEq, Vectors.LessEqIsNotGreater |
| shapes.h:51 | the column test uses the width of row i, not of the target row y + i | rows "..", "." with the shape at (1, 1): row 1 column 1 is written | test against `image[y + i].size()` | high (not executed) | Shapes.GuardAsWritten, Shapes.GuardAsWrittenOverruns | Shapes.Shape.Draw, Shapes.GuardsAgreeOnRectangles |
| shapes.h:51 | the column test reads `image[i]` for loop row i, which can lie past the last row when the shape starts above the image, even on equally wide rows | the one-row image "." with a shape at (0, -1) of height 2: loop row 1 targets row 0 and reads `image[1]` | test against `image[y + i].size()` | high (not executed) | Shapes.GuardAsWritten, Shapes.GuardAsWrittenReadsPastLastRow, Shapes.DrawStaysInRowsIff | Shapes.Shape.Draw, Shapes.GuardsAgreeOnRectangles |
| simple_vector.h:103-114 | the copy loop runs up to the new size and writes slot `i + moved`, so its last step writes slot size + 1 | PushBack onto a vector of size 1 and capacity 1: the new buffer has 2 slots and slot 2 is written | copy the old elements only, then place the value | high (not executed) | Vectors.CopyLoopWrites, Vectors.ReallocCopyOverruns | Vectors.SimpleVector.CopyAround, Vectors.SimpleVector.Insert |

=== FILE: json.dfy ===
/** The JSON subset reader of json.cpp: a recursive-descent loader over a
    character stream. It knows arrays, objects, strings delimited by `"`
    without escapes (RFC 8259 section 7 allows escapes) and unsigned decimal
    integers (section 6 also allows a sign, fractions and exponents).

    The loaders are specified by functions on the unread rest of the input
    (`ParseNode` and its helpers) and implemented as methods on a `Stream`
    whose cursor they advance, as the `istream` operations do. */
module Json {
  import opened Wrappers
  import OrderedStrings

  /** Node::Value (json.h:24), with the alternatives in the same order. A
      Dict is the sequence of its entries in increasing key order, as a
      `std::map` iterates them. */
  datatype Node =
    | Null
    | Array(items: seq<Node>)
    | Dict(entries: seq<Entry>)
    | Bool(b: bool)
    | Int(i: int)
    | PureDouble(d: real)
    | String(s: string)

  datatype Entry = Entry(key: string, value: Node)

  /** NodeType (json.h:76-84). */
  datatype NodeType = NullPtr | ArrayType | DictType | BoolType | IntType | DoubleType | StringType

  /** How the reader fails. The source has no error of its own here: at the
      end of the input it reads an uninitialised character, and an array
      element it cannot read makes it loop for ever. */
  datatype JsonError = UnexpectedEnd | Diverges

  /** NodeTypeChecker (json.cpp:182-202). */
  function TypeOf(n: Node): NodeType
  {
    match n
    case Null => NullPtr
    case Array(_) => ArrayType
    case Dict(_) => DictType
    case Bool(_) => BoolType
    case Int(_) => IntType
    case PureDouble(_) => DoubleType
    case String(_) => StringType
  }

  /** The Is* predicates (json.cpp:94-118): each holds exactly for its own
      alternative, except that IsDouble also holds for integers. */
  function IsNull(n: Node): (b: bool)
    ensures b <==> n.Null?
  {
    TypeOf(n) == NullPtr
  }

  function IsInt(n: Node): (b: bool)
    ensures b <==> n.Int?
  {
    TypeOf(n) == IntType
  }

  function IsBool(n: Node): (b: bool)
    ensures b <==> n.Bool?
  {
    TypeOf(n) == BoolType
  }

  function IsPureDouble(n: Node): (b: bool)
    ensures b <==> n.PureDouble?
  {
    TypeOf(n) == DoubleType
  }

  function IsDouble(n: Node): (b: bool)
    ensures b <==> n.Int? || n.PureDouble?
  {
    IsInt(n) || IsPureDouble(n)
  }

  function IsString(n: Node): (b: bool)
    ensures b <==> n.String?
  {
    TypeOf(n) == StringType
  }

  function IsArray(n: Node): (b: bool)
    ensures b <==> n.Array?
  {
    TypeOf(n) == ArrayType
  }

  function IsMap(n: Node): (b: bool)
    ensures b <==> n.Dict?
  {
    TypeOf(n) == DictType
  }

  // ---------------------------------------------------------------------
  // Dictionaries

  function Keys(entries: seq<Entry>): (keys: seq<string>)
    ensures |keys| == |entries|
    ensures forall i :: 0 <= i < |entries| ==> keys[i] == entries[i].key
  {
    if entries == [] then [] else [entries[0].key] + Keys(entries[1..])
  }

  /** The representation invariant of a Dict: keys strictly increasing. */
  predicate SortedKeys(entries: seq<Entry>)
  {
    OrderedStrings.Sorted(Keys(entries))
  }

  /** `std::map::insert`: a new key goes to its place in key order; a key
      already present keeps its first value. */
  function DictInsert(entries: seq<Entry>, key: string, value: Node): (r: seq<Entry>)
    requires SortedKeys(entries)
    ensures Keys(r) == OrderedStrings.Insert(Keys(entries), key)
    ensures SortedKeys(r)
    ensures key in Keys(entries) ==> r == entries
    ensures key !in Keys(entries) ==> Entry(key, value) in r
    ensures forall e :: e in r ==> e in entries || e == Entry(key, value)
    ensures forall e :: e in entries ==> e in r
  {
    if entries == [] then [Entry(key, value)]
    else if key == entries[0].key then entries
    else if OrderedStrings.Less(key, entries[0].key) then
      OrderedStrings.LessIrreflexive(key);
      [Entry(key, value)] + entries
    else
      var head := entries[0];
      var rest := entries[1..];
      KeysFront(head, rest);
      assert entries == [head] + rest;
      var tail := DictInsert(rest, key, value);
      KeysFront(head, tail);
      assert key in Keys(entries) ==> key in Keys(rest);
      [head] + tail
  }

  lemma KeysFront(e: Entry, entries: seq<Entry>)
    ensures Keys([e] + entries) == [e.key] + Keys(entries)
  {
    assert ([e] + entries)[1..] == entries;
  }

  lemma KeysAppend(entries: seq<Entry>, e: Entry)
    ensures Keys(entries + [e]) == Keys(entries) + [e.key]
  {
  }

  lemma SortedKeysPrefix(a: seq<Entry>, b: seq<Entry>)
    requires SortedKeys(a + b)
    ensures SortedKeys(a)
  {
    assert Keys(a) == Keys(a + b)[..|a|];
  }

  /** A key in front of a sorted dictionary's entries is below the last. */
  lemma SortedKeysFront(head: Entry, rest: seq<Entry>, e: Entry)
    requires SortedKeys([head] + (rest + [e]))
    ensures SortedKeys(rest + [e])
    ensures e.key != head.key && !OrderedStrings.Less(e.key, head.key)
  {
    var keys := Keys([head] + (rest + [e]));
    KeysFront(head, rest + [e]);
    assert Keys(rest + [e]) == keys[1..];
    assert OrderedStrings.Less(head.key, e.key) by {
      assert keys[0] == head.key && keys[|rest| + 1] == e.key;
    }
    OrderedStrings.LessIrreflexive(e.key);
    if OrderedStrings.Less(e.key, head.key) {
      OrderedStrings.LessTransitive(e.key, head.key, e.key);
    }
  }

  /** Inserting a key greater than every present key appends it; this is
      how a printed dictionary is read back. */
  lemma {:induction false} DictInsertLast(entries: seq<Entry>, key: string, value: Node)
    requires SortedKeys(entries + [Entry(key, value)])
    ensures SortedKeys(entries)
    ensures DictInsert(entries, key, value) == entries + [Entry(key, value)]
  {
    var e := Entry(key, value);
    SortedKeysPrefix(entries, [e]);
    if entries != [] {
      var head := entries[0];
      var rest := entries[1..];
      assert entries + [e] == [head] + (rest + [e]);
      SortedKeysFront(head, rest, e);
      DictInsertLast(rest, key, value);
      assert DictInsert(entries, key, value) == [head] + DictInsert(rest, key, value);
    }
  }

  // ---------------------------------------------------------------------
  // The reader, as functions of the unread input

  /** The characters `std::isspace` accepts in the C locale. */
  predicate IsSpace(c: char)
  {
    c == ' ' || c == '\t' || c == '\n' || c == '\r' || c == 11 as char || c == 12 as char
  }

  predicate IsDigit(c: char)
  {
    '0' <= c <= '9'
  }

  /** What is left once leading white space is skipped. */
  function SkipSpaces(s: string): (r: string)
    ensures |r| <= |s|
    ensures r == [] || !IsSpace(r[0])
  {
    if s != [] && IsSpace(s[0]) then SkipSpaces(s[1..]) else s
  }

  /** What SkipSpaces drops is white space, and what it keeps is a suffix. */
  lemma {:induction false} SkipSpacesSuffix(s: string)
    ensures var r := SkipSpaces(s);
      && r == s[|s| - |r|..]
      && forall i :: 0 <= i < |s| - |r| ==> IsSpace(s[i])
  {
    if s != [] && IsSpace(s[0]) {
      SkipSpacesSuffix(s[1..]);
    }
  }

  /** `input >> c`: skip white space, then take one character; nothing is
      taken at the end of the input. */
  function ReadChar(s: string): (r: Option<(char, string)>)
    ensures r.None? <==> SkipSpaces(s) == []
    ensures r.Some? ==> SkipSpaces(s) == [r.value.0] + r.value.1 && |r.value.1| < |s|
  {
    var t := SkipSpaces(s);
    if t == [] then None else Some((t[0], t[1..]))
  }

  /** The length of the run of decimal digits at the front of `s`. */
  function DigitRun(s: string): (k: nat)
    ensures k <= |s|
    ensures forall i :: 0 <= i < k ==> IsDigit(s[i])
    ensures k < |s| ==> !IsDigit(s[k])
  {
    if s != [] && IsDigit(s[0]) then 1 + DigitRun(s[1..]) else 0
  }

  predicate AllDigits(s: string)
  {
    forall i :: 0 <= i < |s| ==> IsDigit(s[i])
  }

  /** The base-10 value of a digit string, most significant digit first. */
  function DecimalValue(digits: string): nat
    requires AllDigits(digits)
  {
    if digits == [] then 0
    else DecimalValue(digits[..|digits| - 1]) * 10 + (digits[|digits| - 1] as int - '0' as int)
  }

  /** LoadInt (json.cpp:24-31): the value of the maximal run of digits, and
      what follows it. */
  function ParseInt(s: string): (r: (Node, string))
    ensures r.0.Int? && r.0.i >= 0 && |r.1| <= |s|
    ensures |r.1| < |s| ==> IsDigit(s[0])
  {
    var k := DigitRun(s);
    (Int(DecimalValue(s[..k])), s[k..])
  }

  /** Without a leading digit LoadInt yields 0 and consumes nothing. */
  lemma ParseIntWithoutDigit(s: string)
    requires s == [] || !IsDigit(s[0])
    ensures ParseInt(s) == (Int(0), s)
  {
  }

  predicate QuoteFree(s: string)
  {
    forall i :: 0 <= i < |s| ==> s[i] != '"'
  }

  /** The position of the first `"`, or the length when there is none. */
  function UntilQuote(s: string): (k: nat)
    ensures k <= |s| && QuoteFree(s[..k])
    ensures k < |s| ==> s[k] == '"'
  {
    if s == [] || s[0] == '"' then 0 else 1 + UntilQuote(s[1..])
  }

  lemma {:induction false} UntilQuoteAt(s: string, k: nat)
    requires k <= |s| && QuoteFree(s[..k])
    requires k < |s| ==> s[k] == '"'
    ensures UntilQuote(s) == k
  {
    if k > 0 {
      assert s[0] == s[..k][0];
      assert s[1..][..k - 1] == s[..k][1..];
      UntilQuoteAt(s[1..], k - 1);
    }
  }

  /** LoadString (json.cpp:33-37), `getline` up to `"`: the characters
      before the next quote, and what follows that quote. */
  function ParseString(s: string): (r: (string, string))
    ensures |r.1| <= |s|
  {
    var k := UntilQuote(s);
    if k < |s| then (s[..k], s[k + 1..]) else (s, [])
  }

  /** The line holds no quote; either a quote follows it or the line is
      the whole input. */
  lemma ParseStringSplit(s: string)
    ensures var (line, rest) := ParseString(s);
      && QuoteFree(line)
      && (s == line + ['"'] + rest || (s == line && rest == []))
  {
    var k := UntilQuote(s);
    if k < |s| {
      assert s == s[..k] + ['"'] + s[k + 1..];
    }
  }

  /** The quote ends the string; nothing is unescaped. */
  lemma ParseStringOf(line: string, rest: string)
    requires QuoteFree(line)
    ensures ParseString(line + ['"'] + rest) == (line, rest)
  {
    var s := line + ['"'] + rest;
    assert s[|line|] == '"';
    assert s[..|line|] == line;
    assert s[|line| + 1..] == rest;
  }

  /** LoadNode (json.cpp:55-69): dispatch on the first character after white
      space; any other character is put back and read as an integer. */
  function ParseNode(s: string): (r: Result<(Node, string), JsonError>)
    ensures r.Ok? ==> |r.value.1| <= |s|
    decreases |s|, 0
  {
    match ReadChar(s)
    case None => Err(UnexpectedEnd)
    case Some((c, rest)) =>
      if c == '[' then ParseArray(rest, [])
      else if c == '{' then ParseDict(rest, [])
      else if c == '"' then
        var (line, after) := ParseString(rest);
        Ok((String(line), after))
      else
        var (n, after) := ParseInt(SkipSpaces(s));
        Ok((n, after))
  }

  /** LoadArray (json.cpp:11-22) with `acc` read so far: items until `]`
      or the end of the input. An item that consumes nothing after a
      character other than `,` is read again and again: the loop never ends. */
  function ParseArray(s: string, acc: seq<Node>): (r: Result<(Node, string), JsonError>)
    ensures r.Ok? ==> |r.value.1| <= |s|
    decreases |s|, 1
  {
    match ReadChar(s)
    case None => Ok((Array(acc), []))
    case Some((c, rest)) =>
      if c == ']' then Ok((Array(acc), rest))
      else
        var from := if c == ',' then rest else SkipSpaces(s);
        match ParseNode(from)
        case Err(e) => Err(e)
        case Ok((n, after)) =>
          if c != ',' && |after| == |from| then Err(Diverges)
          else ParseArray(after, acc + [n])
  }

  /** LoadDict (json.cpp:39-53) with `acc` read so far: entries until `}` or
      the end of the input. The character before a key is taken to be its
      opening quote, and the one after it the separator, whatever they are. */
  function ParseDict(s: string, acc: seq<Entry>): (r: Result<(Node, string), JsonError>)
    requires SortedKeys(acc)
    ensures r.Ok? ==> |r.value.1| <= |s|
    decreases |s|, 1
  {
    match ReadChar(s)
    case None => Ok((Dict(acc), []))
    case Some((c, rest)) =>
      if c == '}' then Ok((Dict(acc), rest))
      else
        var opening := if c == ',' then ReadChar(rest) else Some((c, rest));
        match opening
        case None => Err(UnexpectedEnd)
        case Some((_, keyText)) =>
          var (key, afterKey) := ParseString(keyText);
          match ReadChar(afterKey)
          case None => Err(UnexpectedEnd)
          case Some((_, valueText)) =>
            match ParseNode(valueText)
            case Err(e) => Err(e)
            case Ok((value, after)) => ParseDict(after, DictInsert(acc, key, value))
  }

  // One step of the reader, as lemmas that later proofs chain.

  lemma ReadFront(s: string)
    requires s != [] && !IsSpace(s[0])
    ensures SkipSpaces(s) == s
    ensures ReadChar(s) == Some((s[0], s[1..]))
  {
  }

  lemma ReadPastSpace(s: string)
    requires s != [] && IsSpace(s[0])
    ensures SkipSpaces(s) == SkipSpaces(s[1..])
    ensures ReadChar(s) == ReadChar(s[1..])
  {
  }

  lemma ArrayOpens(s: string, rest: string)
    requires ReadChar(s) == Some(('[', rest))
    ensures ParseNode(s) == ParseArray(rest, [])
  {
  }

  lemma DictOpens(s: string, rest: string)
    requires ReadChar(s) == Some(('{', rest))
    ensures ParseNode(s) == ParseDict(rest, [])
  {
  }

  lemma IntRead(s: string)
    requires s != [] && !IsSpace(s[0])
    requires s[0] != '[' && s[0] != '{' && s[0] != '"'
    ensures ParseNode(s) == Ok(ParseInt(s))
  {
    ReadFront(s);
  }

  lemma ArrayCloses(s: string, acc: seq<Node>, rest: string)
    requires ReadChar(s) == Some((']', rest))
    ensures ParseArray(s, acc) == Ok((Array(acc), rest))
  {
  }

  lemma ArrayEnds(s: string, acc: seq<Node>)
    requires ReadChar(s) == None
    ensures ParseArray(s, acc) == Ok((Array(acc), []))
  {
  }

  /** An item after a comma is read from just after the comma. */
  lemma ArrayItemAfterComma(s: string, acc: seq<Node>, rest: string, n: Node, after: string)
    requires ReadChar(s) == Some((',', rest))
    requires ParseNode(rest) == Ok((n, after))
    ensures |after| < |s|
    ensures ParseArray(s, acc) == ParseArray(after, acc + [n])
  {
  }

  /** Any other character is put back and the item read from it. */
  lemma ArrayItem(s: string, acc: seq<Node>, c: char, rest: string, n: Node, after: string)
    requires ReadChar(s) == Some((c, rest)) && c != ',' && c != ']'
    requires ParseNode(SkipSpaces(s)) == Ok((n, after))
    ensures |after| < |SkipSpaces(s)| ==> ParseArray(s, acc) == ParseArray(after, acc + [n])
    ensures |after| == |SkipSpaces(s)| ==> ParseArray(s, acc) == Err(Diverges)
  {
  }

  lemma DictCloses(s: string, acc: seq<Entry>, rest: string)
    requires SortedKeys(acc)
    requires ReadChar(s) == Some(('}', rest))
    ensures ParseDict(s, acc) == Ok((Dict(acc), rest))
  {
  }

  /** One entry: the opening quote (after a comma, if there is one), the key,
      the separator and the value, which then goes into the dictionary. */
  lemma DictEntry(s: string, acc: seq<Entry>, c: char, rest: string,
                  opening: Option<(char, string)>, keyText: string, key: string, value: Node, after: string)
    requires SortedKeys(acc)
    requires ReadChar(s) == Some((c, rest)) && c != '}'
    requires opening == (if c == ',' then ReadChar(rest) else Some((c, rest)))
    requires opening.Some? && opening.value.1 == keyText
    requires ParseString(keyText).0 == key
    requires ReadChar(ParseString(keyText).1).Some?
    requires ParseNode(ReadChar(ParseString(keyText).1).value.1) == Ok((value, after))
    ensures ParseDict(s, acc) == ParseDict(after, DictInsert(acc, key, value))
  {
  }

  /** A character that starts no supported value reads as 0 and is left
      unread. */
  lemma {:induction false} UnsupportedReadsAsZero(s: string)
    requires s != [] && !IsSpace(s[0]) && !IsDigit(s[0])
    requires s[0] != '[' && s[0] != '{' && s[0] != '"'
    ensures ParseNode(s) == Ok((Int(0), s))
  {
    IntRead(s);
    assert DigitRun(s) == 0;
  }

  lemma {:induction false} SingleDigit(d: char, rest: string)
    requires IsDigit(d) && (rest == [] || !IsDigit(rest[0]))
    ensures ParseNode([d] + rest) == Ok((Int(d as int - '0' as int), rest))
  {
    var s := [d] + rest;
    IntRead(s);
    assert DigitRun(s) == 1;
    assert s[..1] == [d] && s[1..] == rest;
    assert [d][..0] == [];
    assert DecimalValue([d]) == DecimalValue([]) * 10 + (d as int - '0' as int);
  }

  /** Reading an array is only as endless as its items: one that cannot be
      read, such as the literal `true`, makes the reader loop. */
  lemma UnsupportedLiteralDiverges()
    ensures ParseNode("[true]") == Err(Diverges)
  {
    ReadFront("[true]");
    ArrayOpens("[true]", "true]");
    ReadFront("true]");
    UnsupportedReadsAsZero("true]");
    ArrayItem("true]", [], 't', "rue]", Int(0), "true]");
  }

  lemma EmptyArray()
    ensures ParseNode("[ ]") == Ok((Array([]), []))
  {
    ReadFront("[ ]");
    ArrayOpens("[ ]", " ]");
    ReadPastSpace(" ]");
    ReadFront("]");
    ArrayCloses(" ]", [], []);
  }

  // ---------------------------------------------------------------------
  // The reader, as methods over a stream

  /** An `istream` over a fixed text: the cursor `pos` is all that changes. */
  class Stream {
    const text: string
    var pos: nat

    ghost predicate Valid()
      reads this
    {
      pos <= |text|
    }

    /** The characters not yet read. */
    function Rest(): (r: string)
      reads this
      requires Valid()
      ensures |r| == |text| - pos
    {
      text[pos..]
    }

    constructor (text: string)
      ensures Valid() && this.text == text && pos == 0
    {
      this.text := text;
      pos := 0;
    }

    /** `peek`: the next character without consuming it. */
    method Peek() returns (c: Option<char>)
      requires Valid()
      ensures c.None? <==> Rest() == []
      ensures c.Some? ==> c.value == Rest()[0]
    {
      if pos < |text| {
        c := Some(text[pos]);
      } else {
        c := None;
      }
    }

    /** `get`: consume the next character. */
    method Get() returns (c: char)
      requires Valid() && pos < |text|
      modifies this
      ensures Valid() && pos == old(pos) + 1
      ensures c == old(Rest())[0] && Rest() == old(Rest())[1..]
    {
      c := text[pos];
      pos := pos + 1;
    }

    /** `putback`: return the character just read. */
    method PutBack()
      requires Valid() && pos > 0
      modifies this
      ensures Valid() && pos == old(pos) - 1
      ensures Rest() == [text[pos]] + old(Rest())
    {
      pos := pos - 1;
    }

    /** The white-space skipping of the `>>` sentry. */
    method SkipWhiteSpace()
      requires Valid()
      modifies this
      ensures Valid() && old(pos) <= pos
      ensures Rest() == SkipSpaces(old(Rest()))
    {
      ghost var start := Rest();
      while pos < |text| && IsSpace(text[pos])
        invariant old(pos) <= pos <= |text|
        invariant SkipSpaces(start) == SkipSpaces(Rest())
        decreases |text| - pos
      {
        assert Rest()[1..] == text[pos + 1..];
        pos := pos + 1;
      }
    }

    /** `operator>>(char&)`: skip white space, then take one character. */
    method Extract() returns (c: Option<char>)
      requires Valid()
      modifies this
      ensures Valid() && old(pos) <= pos
      ensures c.None? <==> ReadChar(old(Rest())).None?
      ensures c.None? ==> Rest() == []
      ensures c.Some? ==> ReadChar(old(Rest())) == Some((c.value, Rest()))
      ensures c.Some? ==> old(pos) < pos && text[pos - 1] == c.value
    {
      SkipWhiteSpace();
      if pos == |text| {
        return None;
      }
      c := Some(text[pos]);
      assert Rest() == [text[pos]] + text[pos + 1..];
      pos := pos + 1;
    }
  }

  /** Whether a loader's result `r` and the stream's rest agree with the
      specification's result. */
  predicate Agrees(r: Result<Node, JsonError>, spec: Result<(Node, string), JsonError>, rest: string)
  {
    match spec
    case Ok((n, after)) => r == Ok(n) && rest == after
    case Err(e) => r == Err(e)
  }

  /** LoadInt (json.cpp:24-31). */
  method LoadInt(input: Stream) returns (n: Node)
    requires input.Valid()
    modifies input
    ensures input.Valid()
    ensures (n, input.Rest()) == ParseInt(old(input.Rest()))
  {
    ghost var start := input.Rest();
    var result: nat := 0;
    var next := input.Peek();
    while next.Some? && IsDigit(next.value)
      invariant input.Valid() && old(input.pos) <= input.pos
      invariant start == input.text[old(input.pos)..]
      invariant next.None? <==> input.Rest() == []
      invariant next.Some? ==> next.value == input.Rest()[0]
      invariant AllDigits(start[..input.pos - old(input.pos)])
      invariant result == DecimalValue(start[..input.pos - old(input.pos)])
      decreases |input.text| - input.pos
    {
      ghost var done := start[..input.pos - old(input.pos)];
      var ch := input.Get();
      assert start[..input.pos - old(input.pos)] == done + [ch];
      assert (done + [ch])[..|done|] == done;
      result := result * 10;
      result := result + (ch as int - '0' as int);
      next := input.Peek();
    }
    var k := input.pos - old(input.pos);
    assert start[k..] == input.Rest();
    assert DigitRun(start) == k;
    n := Int(result);
  }

  /** LoadString (json.cpp:33-37). */
  method LoadString(input: Stream) returns (line: string)
    requires input.Valid()
    modifies input
    ensures input.Valid() && old(input.pos) <= input.pos
    ensures (line, input.Rest()) == ParseString(old(input.Rest()))
  {
    ghost var start := input.Rest();
    line := [];
    var next := input.Peek();
    while next.Some? && next.value != '"'
      invariant input.Valid() && old(input.pos) <= input.pos
      invariant start == input.text[old(input.pos)..]
      invariant next.None? <==> input.Rest() == []
      invariant next.Some? ==> next.value == input.Rest()[0]
      invariant line == start[..input.pos - old(input.pos)]
      invariant QuoteFree(line)
      decreases |input.text| - input.pos
    {
      var ch := input.Get();
      line := line + [ch];
      next := input.Peek();
    }
    UntilQuoteAt(start, |line|);
    if next.Some? {
      assert start[|line|] == '"';
      var _ := input.Get();
      assert input.Rest() == start[|line| + 1..];
    } else {
      assert start[..|line|] == start;
    }
  }

  /** LoadNode (json.cpp:55-69). */
  method LoadNode(input: Stream) returns (r: Result<Node, JsonError>)
    requires input.Valid()
    modifies input
    ensures input.Valid() && old(input.pos) <= input.pos
    ensures Agrees(r, ParseNode(old(input.Rest())), input.Rest())
    decreases |input.text| - input.pos, 0
  {
    ghost var s := input.Rest();
    var c := input.Extract();
    if c.None? {
      return Err(UnexpectedEnd);
    }
    if c.value == '[' {
      r := LoadArray(input);
    } else if c.value == '{' {
      r := LoadDict(input);
    } else if c.value == '"' {
      var line := LoadString(input);
      r := Ok(String(line));
    } else {
      input.PutBack();
      assert input.Rest() == SkipSpaces(s);
      var n := LoadInt(input);
      r := Ok(n);
    }
  }

  /** LoadArray (json.cpp:11-22). Where the source would loop for ever the
      method reports Diverges instead. */
  method LoadArray(input: Stream) returns (r: Result<Node, JsonError>)
    requires input.Valid()
    modifies input
    ensures input.Valid() && old(input.pos) <= input.pos
    ensures Agrees(r, ParseArray(old(input.Rest()), []), input.Rest())
    decreases |input.text| - input.pos, 1
  {
    var result: seq<Node> := [];
    while true
      invariant input.Valid() && old(input.pos) <= input.pos
      invariant ParseArray(input.Rest(), result) == ParseArray(old(input.Rest()), [])
      decreases |input.text| - input.pos
    {
      ghost var s := input.Rest();
      var c := input.Extract();
      if c.None? || c.value == ']' {
        return Ok(Array(result));
      }
      if c.value != ',' {
        input.PutBack();
        assert input.Rest() == SkipSpaces(s);
      }
      var start := input.pos;
      var node := LoadNode(input);
      if node.Err? {
        return Err(node.error);
      }
      if c.value != ',' && input.pos == start {
        return Err(Diverges);
      }
      result := result + [node.value];
    }
  }

  /** LoadDict (json.cpp:39-53). */
  method LoadDict(input: Stream) returns (r: Result<Node, JsonError>)
    requires input.Valid()
    modifies input
    ensures input.Valid() && old(input.pos) <= input.pos
    ensures Agrees(r, ParseDict(old(input.Rest()), []), input.Rest())
    decreases |input.text| - input.pos, 1
  {
    var result: seq<Entry> := [];
    while true
      invariant input.Valid() && old(input.pos) <= input.pos
      invariant SortedKeys(result)
      invariant ParseDict(input.Rest(), result) == ParseDict(old(input.Rest()), [])
      decreases |input.text| - input.pos
    {
      var c := input.Extract();
      if c.None? || c.value == '}' {
        return Ok(Dict(result));
      }
      if c.value == ',' {
        c := input.Extract();
        if c.None? {
          return Err(UnexpectedEnd);
        }
      }
      var key := LoadString(input);
      var separator := input.Extract();
      if separator.None? {
        return Err(UnexpectedEnd);
      }
      var value := LoadNode(input);
      if value.Err? {
        return Err(value.error);
      }
      result := DictInsert(result, key, value.value);
    }
  }

  /** Load (json.cpp:174-176): the document's root is one node read from the
      front of the input; what follows it is not looked at. */
  method Load(input: Stream) returns (root: Result<Node, JsonError>)
    requires input.Valid()
    modifies input
    ensures input.Valid()
    ensures Agrees(root, ParseNode(old(input.Rest())), input.Rest())
  {
    root := LoadNode(input);
  }
}

=== FILE: json_printer.dfy ===
/** NodeStringifier and Print (json.cpp:178-180, 203-248): the text a node
    prints as, and the proof that the reader of json.cpp reads that text
    back for every tree it can represent. */
module JsonPrinter {
  import opened Wrappers
  import opened Json

  /** The nodes this model prints: no `double` anywhere, since
      `to_string(double)` is not modelled. */
  predicate NoDoubles(n: Node)
  {
    match n
    case PureDouble(_) => false
    case Array(items) => forall k :: 0 <= k < |items| ==> NoDoubles(items[k])
    case Dict(entries) => forall k :: 0 <= k < |entries| ==> NoDoubles(entries[k].value)
    case _ => true
  }

  predicate ItemsPrintable(items: seq<Node>)
  {
    forall k :: 0 <= k < |items| ==> NoDoubles(items[k])
  }

  predicate EntriesPrintable(entries: seq<Entry>)
  {
    forall k :: 0 <= k < |entries| ==> NoDoubles(entries[k].value)
  }

  function DigitChar(d: nat): (c: char)
    requires d < 10
    ensures IsDigit(c) && c as int - '0' as int == d
  {
    ('0' as int + d) as char
  }

  /** The decimal digits of a natural number, most significant first. */
  function NatToString(n: nat): (s: string)
    ensures s != [] && AllDigits(s)
  {
    if n < 10 then [DigitChar(n)] else NatToString(n / 10) + [DigitChar(n % 10)]
  }

  /** `to_string(int)`: a minus sign exactly for negative values, followed by
      digits whose value is the magnitude. */
  function IntToString(i: int): (s: string)
    ensures s != [] && (s[0] == '-' <==> i < 0)
    ensures i < 0 ==> AllDigits(s[1..]) && DecimalValue(s[1..]) == -i
    ensures i >= 0 ==> AllDigits(s) && DecimalValue(s) == i
  {
    NatToStringValue(if i < 0 then -i else i);
    if i < 0 then "-" + NatToString(-i) else NatToString(i)
  }

  /** The digits of `n` have the value `n`: LoadInt undoes to_string. */
  lemma {:induction false} NatToStringValue(n: nat)
    ensures DecimalValue(NatToString(n)) == n
  {
    var s := NatToString(n);
    if n < 10 {
      assert s[..|s| - 1] == [];
    } else {
      NatToStringValue(n / 10);
      assert s[..|s| - 1] == NatToString(n / 10);
    }
  }

  /** Texts separated by ", ", as both container loops write them: the
      separator goes before every part but the first. */
  function Join(parts: seq<string>): string
  {
    if parts == [] then ""
    else parts[0] + (if |parts| == 1 then "" else ", " + Join(parts[1..]))
  }

  /** Each loop iteration appends one part behind the separator. */
  lemma {:induction false} JoinSnoc(parts: seq<string>, i: nat)
    requires i < |parts|
    ensures Join(parts[..i + 1]) == Join(parts[..i]) + (if i == 0 then "" else ", ") + parts[i]
  {
    if i == 0 {
      assert parts[..1] == [parts[0]];
    } else {
      var tail := parts[1..];
      JoinSnoc(tail, i - 1);
      assert parts[..i + 1][1..] == tail[..i];
      assert tail[i - 1] == parts[i];
      if i == 1 {
        assert parts[..1] == [parts[0]];
        assert tail[..0] == [];
      } else {
        assert parts[..i][1..] == tail[..i - 1];
      }
    }
  }

  /** The text of a node (json.cpp:203-248). */
  function Printed(n: Node): string
    requires NoDoubles(n)
  {
    match n
    case Null => "null"
    case Array(items) => "[ " + PrintedItems(items) + " ]"
    case Dict(entries) => "{ " + PrintedEntries(entries) + " }"
    case Bool(b) => if b then "true" else "false"
    case Int(i) => IntToString(i)
    case String(s) => s
    case PureDouble(_) => assert false; ""
  }

  /** The texts of the items, in order. */
  function ItemTexts(items: seq<Node>): (texts: seq<string>)
    requires ItemsPrintable(items)
    ensures |texts| == |items|
    ensures forall k :: 0 <= k < |items| ==> texts[k] == Printed(items[k])
    decreases items, 0
  {
    seq(|items|, k requires 0 <= k < |items| && ItemsPrintable(items) => Printed(items[k]))
  }

  /** The items joined by ", " (json.cpp:213-216). */
  function PrintedItems(items: seq<Node>): string
    requires ItemsPrintable(items)
    decreases items, 1
  {
    Join(ItemTexts(items))
  }

  /** One entry: the key in quotes, a colon, the value (json.cpp:231). */
  function PrintedEntry(e: Entry): string
    requires NoDoubles(e.value)
  {
    "\"" + e.key + "\": " + Printed(e.value)
  }

  /** The texts of the entries, in key order. */
  function EntryTexts(entries: seq<Entry>): (texts: seq<string>)
    requires EntriesPrintable(entries)
    ensures |texts| == |entries|
    ensures forall k :: 0 <= k < |entries| ==> texts[k] == PrintedEntry(entries[k])
    decreases entries, 0
  {
    seq(|entries|, k requires 0 <= k < |entries| && EntriesPrintable(entries) => PrintedEntry(entries[k]))
  }

  /** The entries joined by ", " (json.cpp:227-232). */
  function PrintedEntries(entries: seq<Entry>): string
    requires EntriesPrintable(entries)
    decreases entries, 1
  {
    Join(EntryTexts(entries))
  }

  /** The scalar texts, and the spacing of empty containers. */
  lemma PrintedExamples()
    ensures Printed(Null) == "null"
    ensures Printed(Bool(true)) == "true" && Printed(Bool(false)) == "false"
    ensures Printed(String("a b")) == "a b"
    ensures Printed(Array([])) == "[  ]"
    ensures Printed(Dict([])) == "{  }"
  {
    assert ItemTexts([]) == [];
    assert EntryTexts([]) == [];
  }

  /** NodeStringifier applied to a node (json.cpp:203-248). */
  method Stringify(n: Node) returns (s: string)
    requires NoDoubles(n)
    ensures s == Printed(n)
    decreases n
  {
    match n
    case Null => s := "null";
    case Array(items) => s := StringifyArray(items);
    case Dict(entries) => s := StringifyDict(entries);
    case Bool(b) => s := if b then "true" else "false";
    case Int(i) => s := IntToString(i);
    case String(str) => s := str;
    case PureDouble(_) => assert false;
  }

  /** The array overload (json.cpp:206-221). */
  method StringifyArray(items: seq<Node>) returns (rslt: string)
    requires ItemsPrintable(items)
    ensures NoDoubles(Array(items)) && rslt == Printed(Array(items))
    decreases items
  {
    ghost var texts := ItemTexts(items);
    rslt := "[ ";
    var i := 0;
    while i != |items|
      invariant 0 <= i <= |items|
      invariant rslt == "[ " + Join(texts[..i])
    {
      JoinSnoc(texts, i);
      if i != 0 {
        rslt := rslt + ", ";
      }
      var item := Stringify(items[i]);
      rslt := rslt + item;
      i := i + 1;
    }
    assert texts[..i] == texts;
    rslt := rslt + " ]";
  }

  /** The dictionary overload (json.cpp:222-236). */
  method StringifyDict(entries: seq<Entry>) returns (rslt: string)
    requires EntriesPrintable(entries)
    ensures NoDoubles(Dict(entries)) && rslt == Printed(Dict(entries))
    decreases entries
  {
    ghost var texts := EntryTexts(entries);
    rslt := "{ ";
    var i := 0;
    while i != |entries|
      invariant 0 <= i <= |entries|
      invariant rslt == "{ " + Join(texts[..i])
    {
      JoinSnoc(texts, i);
      if i != 0 {
        rslt := rslt + ", ";
      }
      var value := Stringify(entries[i].value);
      rslt := rslt + ("\"" + entries[i].key + "\": " + value);
      i := i + 1;
    }
    assert texts[..i] == texts;
    rslt := rslt + " }";
  }

  /** Print (json.cpp:178-180): the root's text, which the source writes to
      the output stream. */
  method Print(root: Node) returns (output: string)
    requires NoDoubles(root)
    ensures output == Printed(root)
  {
    output := Stringify(root);
  }

  // ---------------------------------------------------------------------
  // Reading printed text back

  /** The trees whose text the reader takes back: non-negative integers,
      arrays, and dictionaries whose keys hold no quote. Null, booleans and
      strings print as bare words, which the reader does not know. */
  predicate Loadable(n: Node)
  {
    match n
    case Int(i) => i >= 0
    case Array(items) => forall k :: 0 <= k < |items| ==> Loadable(items[k])
    case Dict(entries) =>
      && SortedKeys(entries)
      && forall k :: 0 <= k < |entries| ==> QuoteFree(entries[k].key) && Loadable(entries[k].value)
    case _ => false
  }

  lemma {:induction false} LoadableHasNoDoubles(n: Node)
    requires Loadable(n)
    ensures NoDoubles(n)
    decreases n
  {
    match n
    case Int(_) =>
    case Array(items) =>
      forall k | 0 <= k < |items| ensures NoDoubles(items[k]) {
        LoadableHasNoDoubles(items[k]);
      }
    case Dict(entries) =>
      forall k | 0 <= k < |entries| ensures NoDoubles(entries[k].value) {
        LoadableHasNoDoubles(entries[k].value);
      }
  }

  /** A loadable node's text opens with a digit, `[` or `{`. */
  lemma PrintedOpening(n: Node)
    requires Loadable(n)
    ensures NoDoubles(n)
    ensures Printed(n) != []
    ensures IsDigit(Printed(n)[0]) || Printed(n)[0] == '[' || Printed(n)[0] == '{'
  {
    LoadableHasNoDoubles(n);
  }

  lemma {:induction false} DigitRunOf(digits: string, rest: string)
    requires AllDigits(digits) && (rest == [] || !IsDigit(rest[0]))
    ensures DigitRun(digits + rest) == |digits|
  {
    if digits != [] {
      assert (digits + rest)[1..] == digits[1..] + rest;
      DigitRunOf(digits[1..], rest);
    }
  }

  /** A comma in front of the text is read first. */
  lemma CommaFront(t: string, t1: string)
    requires t == [','] + t1
    ensures ReadChar(t) == Some((',', t1))
  {
    ReadFront(t);
    assert t[1..] == t1;
  }

  lemma NodeSkipsSpace(t: string, v: string)
    requires t == [' '] + v
    ensures ParseNode(t) == ParseNode(v)
  {
    ReadPastSpace(t);
    assert t[1..] == v;
  }

  /** A closing character after one or two spaces. */
  lemma CloseAfterSpaces(t: string, c: char, rest: string)
    requires !IsSpace(c)
    requires t == [' '] + ([c] + rest) || t == [' '] + ([' '] + ([c] + rest))
    ensures ReadChar(t) == Some((c, rest))
  {
    var r := [c] + rest;
    assert ReadChar(r) == Some((c, rest)) by {
      ReadFront(r);
      assert r[1..] == rest;
    }
    var r1 := [' '] + r;
    assert ReadChar(r1) == ReadChar(r) by {
      ReadPastSpace(r1);
      assert r1[1..] == r;
    }
    if t != r1 {
      assert ReadChar(t) == ReadChar(r1) by {
        ReadPastSpace(t);
        assert t[1..] == r1;
      }
    }
  }

  /** The first item, after the space that follows `[`. */
  lemma FirstItem(t: string, u: string, acc: seq<Node>, x: Node, after: string)
    requires t == [' '] + u
    requires u != [] && !IsSpace(u[0]) && u[0] != ',' && u[0] != ']'
    requires ParseNode(u) == Ok((x, after)) && |after| < |u|
    ensures ParseArray(t, acc) == ParseArray(after, acc + [x])
  {
    ReadPastSpace(t);
    assert t[1..] == u;
    ReadFront(u);
    ArrayItem(t, acc, u[0], u[1..], x, after);
  }

  /** A later item, after `, `. */
  lemma NextItem(t: string, u: string, acc: seq<Node>, x: Node, after: string)
    requires t == [','] + ([' '] + u)
    requires ParseNode(u) == Ok((x, after))
    ensures ParseArray(t, acc) == ParseArray(after, acc + [x])
  {
    var t1 := [' '] + u;
    CommaFront(t, t1);
    NodeSkipsSpace(t1, u);
    ArrayItemAfterComma(t, acc, t1, x, after);
  }

  /** The text of an entry after its opening quote. */
  function KeyText(key: string, v: string): string
  {
    key + (['"'] + ([':'] + ([' '] + v)))
  }

  lemma KeyRead(key: string, v: string)
    requires QuoteFree(key)
    ensures ParseString(KeyText(key, v)) == (key, [':'] + ([' '] + v))
  {
    var afterKey := [':'] + ([' '] + v);
    assert KeyText(key, v) == key + ['"'] + afterKey;
    ParseStringOf(key, afterKey);
  }

  lemma ColonRead(v: string)
    ensures ReadChar([':'] + ([' '] + v)) == Some((':', [' '] + v))
  {
    var afterKey := [':'] + ([' '] + v);
    ReadFront(afterKey);
    assert afterKey[1..] == [' '] + v;
  }

  /** The key, its closing quote, the colon and the value of an entry. */
  lemma EntryBody(key: string, v: string, value: Node, after: string)
    requires QuoteFree(key) && ParseNode(v) == Ok((value, after))
    ensures ParseString(KeyText(key, v)).0 == key
    ensures ReadChar(ParseString(KeyText(key, v)).1).Some?
    ensures ParseNode(ReadChar(ParseString(KeyText(key, v)).1).value.1) == Ok((value, after))
  {
    KeyRead(key, v);
    ColonRead(v);
    NodeSkipsSpace([' '] + v, v);
  }

  /** The opening quote of an entry, after a space. */
  lemma EntryOpening(t: string, keyText: string)
    requires t == [' '] + (['"'] + keyText)
    ensures ReadChar(t) == Some(('"', keyText))
  {
    var t1 := ['"'] + keyText;
    assert ReadChar(t) == ReadChar(t1) by {
      ReadPastSpace(t);
      assert t[1..] == t1;
    }
    assert ReadChar(t1) == Some(('"', keyText)) by {
      ReadFront(t1);
      assert t1[1..] == keyText;
    }
  }

  /** The first entry, after the space that follows `{`. */
  lemma FirstEntry(t: string, key: string, v: string, acc: seq<Entry>, value: Node, after: string)
    requires t == [' '] + (['"'] + KeyText(key, v))
    requires SortedKeys(acc) && QuoteFree(key)
    requires ParseNode(v) == Ok((value, after))
    ensures ParseDict(t, acc) == ParseDict(after, DictInsert(acc, key, value))
  {
    var keyText := KeyText(key, v);
    EntryOpening(t, keyText);
    EntryBody(key, v, value, after);
    DictEntry(t, acc, '"', keyText, Some(('"', keyText)), keyText, key, value, after);
  }

  /** A later entry, after `, `. */
  lemma NextEntry(t: string, key: string, v: string, acc: seq<Entry>, value: Node, after: string)
    requires t == [','] + ([' '] + (['"'] + KeyText(key, v)))
    requires SortedKeys(acc) && QuoteFree(key)
    requires ParseNode(v) == Ok((value, after))
    ensures ParseDict(t, acc) == ParseDict(after, DictInsert(acc, key, value))
  {
    var keyText := KeyText(key, v);
    var t1 := [' '] + (['"'] + keyText);
    CommaFront(t, t1);
    EntryOpening(t1, keyText);
    EntryBody(key, v, value, after);
    DictEntry(t, acc, ',', t1, Some(('"', keyText)), keyText, key, value, after);
  }

  // The printed texts, rewritten one character at a time.

  /** A space and the closing bracket `c`, then `rest`. */
  function Closing(c: char, rest: string): string
  {
    [' '] + ([c] + rest)
  }

  /** What follows the first item of a printed array. */
  function ArrayTail(items: seq<Node>, rest: string): (t: string)
    requires ItemsPrintable(items)
    ensures t != [] && (t[0] == ' ' || t[0] == ',')
  {
    if items == [] then Closing(']', rest)
    else [','] + ([' '] + (PrintedItems(items) + Closing(']', rest)))
  }

  /** What follows the first entry of a printed dictionary. */
  function DictTail(entries: seq<Entry>, rest: string): (t: string)
    requires EntriesPrintable(entries)
    ensures t != [] && (t[0] == ' ' || t[0] == ',')
  {
    if entries == [] then Closing('}', rest)
    else [','] + ([' '] + (PrintedEntries(entries) + Closing('}', rest)))
  }

  lemma ContainerText(o: char, x: string, c: char, rest: string)
    ensures [o, ' '] + x + [' ', c] + rest == [o] + ([' '] + (x + Closing(c, rest)))
  {
  }

  lemma JoinFirst(parts: seq<string>, w: string)
    requires parts != []
    ensures |parts| == 1 ==> Join(parts) + w == parts[0] + w
    ensures |parts| > 1 ==> Join(parts) + w == parts[0] + ([','] + ([' '] + (Join(parts[1..]) + w)))
  {
    if |parts| > 1 {
      var j := Join(parts[1..]);
      assert Join(parts) == parts[0] + (", " + j);
      CommaSpace(parts[0], j, w);
    }
  }

  lemma CommaSpace(a: string, j: string, w: string)
    ensures a + (", " + j) + w == a + ([','] + ([' '] + (j + w)))
  {
  }

  lemma PrintedItemsFirst(items: seq<Node>, rest: string)
    requires items != [] && ItemsPrintable(items)
    ensures ItemsPrintable(items[1..])
    ensures PrintedItems(items) + Closing(']', rest) == Printed(items[0]) + ArrayTail(items[1..], rest)
  {
    var tail := items[1..];
    assert ItemsPrintable(tail) by {
      forall k | 0 <= k < |tail| ensures NoDoubles(tail[k]) {
        assert tail[k] == items[k + 1];
      }
    }
    var texts := ItemTexts(items);
    assert texts[1..] == ItemTexts(tail);
    JoinFirst(texts, Closing(']', rest));
  }

  lemma EntryText(e: Entry, w: string)
    requires NoDoubles(e.value)
    ensures PrintedEntry(e) + w == ['"'] + KeyText(e.key, Printed(e.value) + w)
  {
  }

  lemma PrintedEntriesFirst(entries: seq<Entry>, rest: string)
    requires entries != [] && EntriesPrintable(entries)
    ensures EntriesPrintable(entries[1..])
    ensures PrintedEntries(entries) + Closing('}', rest) ==
      ['"'] + KeyText(entries[0].key, Printed(entries[0].value) + DictTail(entries[1..], rest))
  {
    var tail := entries[1..];
    assert EntriesPrintable(tail) by {
      forall k | 0 <= k < |tail| ensures NoDoubles(tail[k].value) {
        assert tail[k] == entries[k + 1];
      }
    }
    var texts := EntryTexts(entries);
    assert texts[1..] == EntryTexts(tail);
    JoinFirst(texts, Closing('}', rest));
    EntryText(entries[0], DictTail(tail, rest));
  }

  /** The text of a container after its opening bracket. */
  lemma ArrayOpensPrinted(items: seq<Node>, rest: string)
    requires ItemsPrintable(items)
    ensures NoDoubles(Array(items))
    ensures ParseNode(Printed(Array(items)) + rest) ==
      ParseArray([' '] + (PrintedItems(items) + Closing(']', rest)), [])
  {
    var s := Printed(Array(items)) + rest;
    var t := [' '] + (PrintedItems(items) + Closing(']', rest));
    ContainerText('[', PrintedItems(items), ']', rest);
    CharFront(s, '[', t);
    ArrayOpens(s, t);
  }

  lemma DictOpensPrinted(entries: seq<Entry>, rest: string)
    requires EntriesPrintable(entries)
    ensures NoDoubles(Dict(entries))
    ensures ParseNode(Printed(Dict(entries)) + rest) ==
      ParseDict([' '] + (PrintedEntries(entries) + Closing('}', rest)), [])
  {
    var s := Printed(Dict(entries)) + rest;
    var t := [' '] + (PrintedEntries(entries) + Closing('}', rest));
    ContainerText('{', PrintedEntries(entries), '}', rest);
    CharFront(s, '{', t);
    DictOpens(s, t);
  }

  lemma CharFront(s: string, c: char, t: string)
    requires s == [c] + t && !IsSpace(c)
    ensures ReadChar(s) == Some((c, t))
  {
    ReadFront(s);
    assert s[1..] == t;
  }

  /** An integer's digits are read back as the integer. */
  lemma IntReadBack(i: nat, rest: string)
    requires rest == [] || !IsDigit(rest[0])
    ensures ParseNode(Printed(Int(i)) + rest) == Ok((Int(i), rest))
  {
    var digits := NatToString(i);
    var s := digits + rest;
    IntRead(s);
    DigitRunOf(digits, rest);
    assert s[..|digits|] == digits && s[|digits|..] == rest;
    NatToStringValue(i);
  }

  /** The round trip: the reader takes the printed text of a loadable node
      back to that node, and stops exactly after it, provided the text that
      follows does not continue a number. */
  lemma {:induction false} ReadBack(n: Node, rest: string)
    requires Loadable(n)
    requires rest == [] || !IsDigit(rest[0])
    ensures NoDoubles(n)
    ensures ParseNode(Printed(n) + rest) == Ok((n, rest))
    decreases n, 1
  {
    LoadableHasNoDoubles(n);
    match n
    case Int(i) => IntReadBack(i, rest);
    case Array(items) => ArrayReadBack(items, rest);
    case Dict(entries) => DictReadBack(entries, rest);
  }

  lemma {:induction false} ArrayReadBack(items: seq<Node>, rest: string)
    requires forall k :: 0 <= k < |items| ==> Loadable(items[k])
    requires rest == [] || !IsDigit(rest[0])
    ensures NoDoubles(Array(items))
    ensures ParseNode(Printed(Array(items)) + rest) == Ok((Array(items), rest))
    decreases items, 3
  {
    LoadableHasNoDoubles(Array(items));
    ArrayOpensPrinted(items, rest);
    ArrayBodyReadBack(items, rest);
  }

  /** What follows `[`: the items, then ` ]`. */
  lemma {:induction false} ArrayBodyReadBack(items: seq<Node>, rest: string)
    requires forall k :: 0 <= k < |items| ==> Loadable(items[k])
    requires rest == [] || !IsDigit(rest[0])
    ensures ItemsPrintable(items)
    ensures ParseArray([' '] + (PrintedItems(items) + Closing(']', rest)), []) == Ok((Array(items), rest))
    decreases items, 2
  {
    if items == [] {
      var t := [' '] + (PrintedItems(items) + Closing(']', rest));
      assert ItemTexts(items) == [];
      CloseAfterSpaces(t, ']', rest);
      ArrayCloses(t, [], rest);
    } else {
      var x, later := items[0], items[1..];
      assert [x] + later == items;
      ArrayFirstItem(items, rest);
      ItemsTailLoadable(items);
      ItemsReadBack(later, [x], rest);
    }
  }

  lemma ItemsTailLoadable(items: seq<Node>)
    requires items != [] && forall k :: 0 <= k < |items| ==> Loadable(items[k])
    ensures forall k :: 0 <= k < |items| - 1 ==> Loadable(items[1..][k])
  {
    forall k | 0 <= k < |items| - 1 ensures Loadable(items[1..][k]) {
      assert items[1..][k] == items[k + 1];
    }
  }

  lemma EntriesTailLoadable(entries: seq<Entry>)
    requires entries != [] && forall k :: 0 <= k < |entries| ==> QuoteFree(entries[k].key) && Loadable(entries[k].value)
    ensures forall k :: 0 <= k < |entries| - 1 ==> QuoteFree(entries[1..][k].key) && Loadable(entries[1..][k].value)
  {
    forall k | 0 <= k < |entries| - 1 ensures QuoteFree(entries[1..][k].key) && Loadable(entries[1..][k].value) {
      assert entries[1..][k] == entries[k + 1];
    }
  }

  /** The first item of a printed array, behind `[ `. */
  lemma {:induction false} ArrayFirstItem(items: seq<Node>, rest: string)
    requires items != [] && forall k :: 0 <= k < |items| ==> Loadable(items[k])
    requires rest == [] || !IsDigit(rest[0])
    ensures ItemsPrintable(items) && ItemsPrintable(items[1..])
    ensures ParseArray([' '] + (PrintedItems(items) + Closing(']', rest)), []) ==
      ParseArray(ArrayTail(items[1..], rest), [items[0]])
    decreases items, 1
  {
    LoadableHasNoDoubles(Array(items));
    var x := items[0];
    var tail := ArrayTail(items[1..], rest);
    var u := Printed(x) + tail;
    var t := [' '] + (PrintedItems(items) + Closing(']', rest));
    PrintedItemsFirst(items, rest);
    assert u != [] && !IsSpace(u[0]) && u[0] != ',' && u[0] != ']' && |tail| < |u| by {
      ItemStart(x, tail);
    }
    assert ParseNode(u) == Ok((x, tail)) by {
      ReadBack(x, tail);
    }
    FirstItem(t, u, [], x, tail);
    assert [] + [x] == [x];
  }

  /** The text of a loadable node, followed by anything, starts with a
      character that opens a value. */
  lemma ItemStart(x: Node, tail: string)
    requires Loadable(x)
    ensures NoDoubles(x)
    ensures var u := Printed(x) + tail;
      u != [] && !IsSpace(u[0]) && u[0] != ',' && u[0] != ']' && |tail| < |u|
  {
    PrintedOpening(x);
    assert (Printed(x) + tail)[0] == Printed(x)[0];
  }

  lemma {:induction false} DictReadBack(entries: seq<Entry>, rest: string)
    requires SortedKeys(entries)
    requires forall k :: 0 <= k < |entries| ==> QuoteFree(entries[k].key) && Loadable(entries[k].value)
    requires rest == [] || !IsDigit(rest[0])
    ensures NoDoubles(Dict(entries))
    ensures ParseNode(Printed(Dict(entries)) + rest) == Ok((Dict(entries), rest))
    decreases entries, 3
  {
    LoadableHasNoDoubles(Dict(entries));
    DictOpensPrinted(entries, rest);
    DictBodyReadBack(entries, rest);
  }

  /** What follows `{`: the entries, then ` }`. */
  lemma {:induction false} DictBodyReadBack(entries: seq<Entry>, rest: string)
    requires SortedKeys(entries)
    requires forall k :: 0 <= k < |entries| ==> QuoteFree(entries[k].key) && Loadable(entries[k].value)
    requires rest == [] || !IsDigit(rest[0])
    ensures EntriesPrintable(entries)
    ensures ParseDict([' '] + (PrintedEntries(entries) + Closing('}', rest)), []) == Ok((Dict(entries), rest))
    decreases entries, 2
  {
    if entries == [] {
      var t := [' '] + (PrintedEntries(entries) + Closing('}', rest));
      assert EntryTexts(entries) == [];
      CloseAfterSpaces(t, '}', rest);
      DictCloses(t, [], rest);
    } else {
      var e, later := entries[0], entries[1..];
      assert [e] + later == entries;
      DictFirstEntry(entries, rest);
      EntriesTailLoadable(entries);
      EntriesReadBack(later, [e], rest);
    }
  }

  /** The first entry of a printed dictionary, behind `{ `. */
  lemma {:induction false} DictFirstEntry(entries: seq<Entry>, rest: string)
    requires entries != [] && SortedKeys(entries)
    requires forall k :: 0 <= k < |entries| ==> QuoteFree(entries[k].key) && Loadable(entries[k].value)
    requires rest == [] || !IsDigit(rest[0])
    ensures EntriesPrintable(entries) && EntriesPrintable(entries[1..]) && SortedKeys([entries[0]])
    ensures ParseDict([' '] + (PrintedEntries(entries) + Closing('}', rest)), []) ==
      ParseDict(DictTail(entries[1..], rest), [entries[0]])
    decreases entries, 1
  {
    forall k | 0 <= k < |entries| ensures NoDoubles(entries[k].value) {
      LoadableHasNoDoubles(entries[k].value);
    }
    var e := entries[0];
    var tail := DictTail(entries[1..], rest);
    assert SortedKeys([e]);
    PrintedEntriesFirst(entries, rest);
    ReadBack(e.value, tail);
    FirstEntry([' '] + (PrintedEntries(entries) + Closing('}', rest)), e.key, Printed(e.value) + tail, [], e.value, tail);
    assert DictInsert([], e.key, e.value) == [e];
  }

  /** The items after the first, each behind `, `, then ` ]`. */
  lemma {:induction false} ItemsReadBack(items: seq<Node>, acc: seq<Node>, rest: string)
    requires forall k :: 0 <= k < |items| ==> Loadable(items[k])
    requires rest == [] || !IsDigit(rest[0])
    ensures ItemsPrintable(items)
    ensures ParseArray(ArrayTail(items, rest), acc) == Ok((Array(acc + items), rest))
    decreases items, 2
  {
    ItemsLoadablePrintable(items);
    if items == [] {
      ItemsClose(acc, rest);
      assert acc + items == acc;
    } else {
      ItemsCons(items, acc, rest);
    }
  }

  /** A further item, then the items after it. */
  lemma {:induction false} ItemsCons(items: seq<Node>, acc: seq<Node>, rest: string)
    requires items != [] && ItemsPrintable(items)
    requires forall k :: 0 <= k < |items| ==> Loadable(items[k])
    requires rest == [] || !IsDigit(rest[0])
    ensures ParseArray(ArrayTail(items, rest), acc) == Ok((Array(acc + items), rest))
    decreases items, 1
  {
    var x, later := items[0], items[1..];
    assert (acc + [x]) + later == acc + items by {
      assert [x] + later == items;
    }
    ItemStep(items, acc, rest);
    ItemsTailLoadable(items);
    ItemsReadBack(later, acc + [x], rest);
  }

  lemma ItemsLoadablePrintable(items: seq<Node>)
    requires forall k :: 0 <= k < |items| ==> Loadable(items[k])
    ensures ItemsPrintable(items)
  {
    forall k | 0 <= k < |items| ensures NoDoubles(items[k]) {
      LoadableHasNoDoubles(items[k]);
    }
  }

  /** ` ]` ends the array read so far. */
  lemma ItemsClose(acc: seq<Node>, rest: string)
    requires rest == [] || !IsDigit(rest[0])
    ensures ParseArray(ArrayTail([], rest), acc) == Ok((Array(acc), rest))
  {
    var t := ArrayTail([], rest);
    CloseAfterSpaces(t, ']', rest);
    ArrayCloses(t, acc, rest);
  }

  /** Reading one more item, behind `, `. */
  lemma ItemStep(items: seq<Node>, acc: seq<Node>, rest: string)
    requires items != [] && ItemsPrintable(items) && Loadable(items[0])
    requires rest == [] || !IsDigit(rest[0])
    ensures ItemsPrintable(items[1..])
    ensures ParseArray(ArrayTail(items, rest), acc) == ParseArray(ArrayTail(items[1..], rest), acc + [items[0]])
    decreases items, 0
  {
    var x := items[0];
    PrintedItemsFirst(items, rest);
    var tail := ArrayTail(items[1..], rest);
    ReadBack(x, tail);
    NextItem(ArrayTail(items, rest), Printed(x) + tail, acc, x, tail);
  }

  /** The entries after the first, each behind `, `, then ` }`. */
  lemma {:induction false} EntriesReadBack(entries: seq<Entry>, acc: seq<Entry>, rest: string)
    requires SortedKeys(acc + entries)
    requires forall k :: 0 <= k < |entries| ==> QuoteFree(entries[k].key) && Loadable(entries[k].value)
    requires rest == [] || !IsDigit(rest[0])
    ensures SortedKeys(acc) && EntriesPrintable(entries)
    ensures ParseDict(DictTail(entries, rest), acc) == Ok((Dict(acc + entries), rest))
    decreases entries, 1
  {
    forall k | 0 <= k < |entries| ensures NoDoubles(entries[k].value) {
      LoadableHasNoDoubles(entries[k].value);
    }
    SortedKeysPrefix(acc, entries);
    var t := DictTail(entries, rest);
    if entries == [] {
      assert ParseDict(t, acc) == Ok((Dict(acc + entries), rest)) by {
        CloseAfterSpaces(t, '}', rest);
        DictCloses(t, acc, rest);
        assert acc + entries == acc;
      }
    } else {
      var e := entries[0];
      assert acc + entries == (acc + [e]) + entries[1..];
      SortedKeysPrefix(acc + [e], entries[1..]);
      EntryStep(entries, acc, rest);
      EntriesTailLoadable(entries);
      EntriesReadBack(entries[1..], acc + [e], rest);
    }
  }

  /** Reading one more entry, behind `, `, into a dictionary whose keys all
      come before it. */
  lemma EntryStep(entries: seq<Entry>, acc: seq<Entry>, rest: string)
    requires entries != [] && EntriesPrintable(entries)
    requires SortedKeys(acc) && SortedKeys(acc + [entries[0]])
    requires QuoteFree(entries[0].key) && Loadable(entries[0].value)
    requires rest == [] || !IsDigit(rest[0])
    ensures EntriesPrintable(entries[1..])
    ensures ParseDict(DictTail(entries, rest), acc) == ParseDict(DictTail(entries[1..], rest), acc + [entries[0]])
    decreases entries, 0
  {
    var e := entries[0];
    PrintedEntriesFirst(entries, rest);
    SortedKeysPrefix(acc, [e]);
    var tail := DictTail(entries[1..], rest);
    ReadBack(e.value, tail);
    NextEntry(DictTail(entries, rest), e.key, Printed(e.value) + tail, acc, e.value, tail);
    DictInsertLast(acc, e.key, e.value);
  }

  /** Load after Print gives the tree back. */
  lemma LoadPrinted(n: Node)
    requires Loadable(n)
    ensures NoDoubles(n)
    ensures ParseNode(Printed(n)) == Ok((n, []))
  {
    ReadBack(n, []);
    assert Printed(n) + [] == Printed(n);
  }
}

=== FILE: ordered_strings.dfy ===
/** `std::set<std::string>` as the search server uses it: a strictly
    increasing sequence under the lexicographic order of `std::string`, so
    that iterating the set visits its words in sorted order. */
module OrderedStrings {

  /** Lexicographic "less than" on strings: the first differing character
      decides, and a proper prefix is smaller. */
  predicate Less(a: string, b: string)
  {
    if a == [] then b != []
    else if b == [] then false
    else if a[0] != b[0] then a[0] < b[0]
    else Less(a[1..], b[1..])
  }

  lemma {:induction false} LessIrreflexive(a: string)
    ensures !Less(a, a)
  {
    if a != [] {
      LessIrreflexive(a[1..]);
    }
  }

  lemma {:induction false} LessTransitive(a: string, b: string, c: string)
    requires Less(a, b) && Less(b, c)
    ensures Less(a, c)
  {
    if a != [] && b != [] && c != [] && a[0] == b[0] && b[0] == c[0] {
      LessTransitive(a[1..], b[1..], c[1..]);
    }
  }

  lemma {:induction false} LessTotal(a: string, b: string)
    requires a != b
    ensures Less(a, b) || Less(b, a)
  {
    if a != [] && b != [] && a[0] == b[0] {
      assert a == [a[0]] + a[1..] && b == [b[0]] + b[1..];
      LessTotal(a[1..], b[1..]);
    }
  }

  /** The representation invariant of a set: strictly increasing. */
  predicate Sorted(s: seq<string>)
  {
    forall i, j :: 0 <= i < j < |s| ==> Less(s[i], s[j])
  }

  /** `std::set::insert`: adds `x` at its place, or leaves the set unchanged
      when `x` is already there. */
  function Insert(s: seq<string>, x: string): (r: seq<string>)
    requires Sorted(s)
    ensures Sorted(r)
    ensures forall y :: y in r <==> y in s || y == x
    ensures x in s ==> r == s
  {
    if s == [] then [x]
    else if x == s[0] then s
    else if Less(x, s[0]) then
      InsertFront(s, x)
    else
      LessTotal(x, s[0]);
      SortedTail(s);
      var t := Insert(s[1..], x);
      assert x in s ==> s == [s[0]] + t by {
        if x in s {
          assert x in s[1..];
          assert s == [s[0]] + s[1..];
        }
      }
      assert forall j :: 0 <= j < |t| ==> Less(s[0], t[j]) by {
        forall j | 0 <= j < |t| ensures Less(s[0], t[j]) {
          if t[j] != x {
            assert t[j] in s[1..];
            var k :| 0 <= k < |s| - 1 && s[1..][k] == t[j];
            assert s[k + 1] == t[j];
          }
        }
      }
      SortedCons(s[0], t);
      [s[0]] + t
  }

  lemma SortedTail(s: seq<string>)
    requires Sorted(s) && s != []
    ensures Sorted(s[1..])
  {
    forall i, j | 0 <= i < j < |s| - 1 ensures Less(s[1..][i], s[1..][j]) {
      assert s[1..][i] == s[i + 1] && s[1..][j] == s[j + 1];
    }
  }

  lemma SortedCons(h: string, t: seq<string>)
    requires Sorted(t) && forall j :: 0 <= j < |t| ==> Less(h, t[j])
    ensures Sorted([h] + t)
  {
    var r := [h] + t;
    forall i, j | 0 <= i < j < |r| ensures Less(r[i], r[j]) {
      assert r[j] == t[j - 1];
      if i > 0 {
        assert r[i] == t[i - 1];
      }
    }
  }

  function InsertFront(s: seq<string>, x: string): (r: seq<string>)
    requires Sorted(s) && s != [] && Less(x, s[0])
    ensures Sorted(r) && r == [x] + s
    ensures forall y :: y in r <==> y in s || y == x
    ensures x !in s
  {
    forall j | 0 <= j < |s| ensures Less(x, s[j]) {
      if j > 0 {
        LessTransitive(x, s[0], s[j]);
      }
    }
    LessIrreflexive(x);
    [x] + s
  }

  /** In a sorted sequence every element after the first is greater than it. */
  lemma FirstIsLeast(s: seq<string>, y: string)
    requires Sorted(s) && y in s && s != [] && y != s[0]
    ensures Less(s[0], y)
  {
    var k :| 0 <= k < |s| && s[k] == y;
  }

  lemma HeadIn(s: seq<string>)
    ensures s != [] ==> s[0] in s
  {
  }

  /** A sorted sequence is determined by its elements. */
  lemma {:induction false} SortedUnique(a: seq<string>, b: seq<string>)
    requires Sorted(a) && Sorted(b)
    requires forall y :: y in a <==> y in b
    ensures a == b
    decreases |a|
  {
    if a != [] && b != [] {
      if a[0] != b[0] {
        FirstIsLeast(a, b[0]);
        FirstIsLeast(b, a[0]);
        LessTransitive(a[0], b[0], a[0]);
        LessIrreflexive(a[0]);
      } else {
        forall y ensures y in a[1..] <==> y in b[1..] {
          LessIrreflexive(a[0]);
          if y in a[1..] {
            var k :| 0 <= k < |a| - 1 && a[1..][k] == y;
            assert a[k + 1] == y && Less(a[0], a[k + 1]);
            assert y in a && y in b;
            var m :| 0 <= m < |b| && b[m] == y;
            assert m != 0;
            assert b[1..][m - 1] == y;
          }
          if y in b[1..] {
            var k :| 0 <= k < |b| - 1 && b[1..][k] == y;
            assert b[k + 1] == y && Less(b[0], b[k + 1]);
            assert y in b && y in a;
            var m :| 0 <= m < |a| && a[m] == y;
            assert m != 0;
            assert a[1..][m - 1] == y;
          }
        }
        SortedUnique(a[1..], b[1..]);
        assert a == [a[0]] + a[1..] && b == [b[0]] + b[1..];
      }
    } else if a != [] {
      HeadIn(a);
      assert false;
    } else if b != [] {
      HeadIn(b);
      assert false;
    }
  }
}

=== FILE: paginator.dfy ===
/** Paginator (paginator.h): cuts a sequence into consecutive pages of
    `pageSize` items. A trailing page that never fills up is dropped, and a
    page size of zero produces no page at all. */
module Pagination {

  /** What the constructor's loop holds after consuming `s`: the full pages
      pushed so far and the buffer `v` of the page being filled. A page size
      of zero is never reached by the counter, so nothing is ever pushed. */
  function Paged<T>(s: seq<T>, pageSize: nat): (state: (seq<seq<T>>, seq<T>))
  {
    if s == [] then ([], [])
    else
      var (pages, v) := Paged(s[..|s| - 1], pageSize);
      var v' := v + [s[|s| - 1]];
      if |v'| == pageSize then (pages + [v'], []) else (pages, v')
  }

  /** The pages one after another. */
  function Flatten<T>(pages: seq<seq<T>>): (s: seq<T>)
  {
    if pages == [] then [] else Flatten(pages[..|pages| - 1]) + pages[|pages| - 1]
  }

  /** Quotient and remainder are determined by the division identity. */
  lemma DivisionUnique(n: nat, k: nat, q: nat, r: nat)
    requires k > 0 && n == q * k + r && r < k
    ensures n / k == q && n % k == r
  {
    var q', r' := n / k, n % k;
    assert n == q' * k + r';
    if q' > q {
      MulStep(q, q', k);
      assert false;
    } else if q' < q {
      MulStep(q', q, k);
      assert false;
    }
  }

  lemma {:induction false} MulStep(a: nat, b: nat, k: nat)
    requires a < b
    ensures a * k + k <= b * k
    decreases b - a
  {
    assert b * k == (b - 1) * k + k;
    if a < b - 1 {
      MulStep(a, b - 1, k);
    }
  }

  /** What the scan means: every pushed page is the next `pageSize` items,
      the buffer holds the items after the last full page, and it is always
      shorter than a page. */
  lemma {:induction false} PagedShape<T>(s: seq<T>, pageSize: nat)
    ensures var (pages, v) := Paged(s, pageSize);
      && Flatten(pages) + v == s
      && (pageSize > 0 ==> |v| < pageSize)
      && (pageSize == 0 ==> pages == [])
      && (forall p :: 0 <= p < |pages| ==> |pages[p]| == pageSize)
  {
    if s != [] {
      var s0 := s[..|s| - 1];
      var x := s[|s| - 1];
      PagedShape(s0, pageSize);
      var (pages, v) := Paged(s0, pageSize);
      var v' := v + [x];
      assert Paged(s, pageSize) == if |v'| == pageSize then (pages + [v'], []) else (pages, v');
      assert Flatten(pages) + v' == s by {
        assert s == s0 + [x];
        assert Flatten(pages) + v' == (Flatten(pages) + v) + [x];
      }
      if |v'| == pageSize {
        var pages' := pages + [v'];
        assert pages'[..|pages'| - 1] == pages;
        assert Flatten(pages') + [] == Flatten(pages) + v';
      }
    }
  }

  /** The full pages and the buffer account for every item. */
  lemma PagedLength<T>(s: seq<T>, pageSize: nat)
    ensures |Paged(s, pageSize).0| * pageSize + |Paged(s, pageSize).1| == |s|
  {
    PagedShape(s, pageSize);
    FlattenLength(Paged(s, pageSize).0, pageSize);
  }

  /** The pages taken one after another are the prefix of the input. */
  lemma {:induction false} PagesFlatten<T>(s: seq<T>, pageSize: nat)
    ensures |Paged(s, pageSize).0| * pageSize <= |s|
    ensures var pages := Paged(s, pageSize).0;
      Flatten(pages) == s[..|pages| * pageSize]
  {
    PagedLength(s, pageSize);
    PagedShape(s, pageSize);
    var (pages, v) := Paged(s, pageSize);
    FlattenLength(pages, pageSize);
    assert s[..|pages| * pageSize] == Flatten(pages);
  }

  /** The number of pages is the number of whole pages in the input. */
  lemma PageCount<T>(s: seq<T>, pageSize: nat)
    ensures |Paged(s, pageSize).0| == if pageSize == 0 then 0 else |s| / pageSize
  {
    PagedShape(s, pageSize);
    PagedLength(s, pageSize);
    var (pages, v) := Paged(s, pageSize);
    if pageSize > 0 {
      DivisionUnique(|s|, pageSize, |pages|, |v|);
    }
  }

  /** Page `p` is items p * pageSize up to (p + 1) * pageSize. */
  lemma {:induction false} PageContents<T>(s: seq<T>, pageSize: nat, p: nat)
    requires p < |Paged(s, pageSize).0|
    ensures |Paged(s, pageSize).0[p]| == pageSize
    ensures (p + 1) * pageSize <= |s|
    ensures Paged(s, pageSize).0[p] == s[p * pageSize..(p + 1) * pageSize]
  {
    PagedShape(s, pageSize);
    var pages := Paged(s, pageSize).0;
    FlattenPage(pages, pageSize, p);
    PagesFlatten(s, pageSize);
    assert (p + 1) * pageSize <= |pages| * pageSize;
  }

  lemma {:induction false} FlattenPage<T>(pages: seq<seq<T>>, pageSize: nat, p: nat)
    requires p < |pages|
    requires forall i :: 0 <= i < |pages| ==> |pages[i]| == pageSize
    ensures |Flatten(pages)| == |pages| * pageSize
    ensures (p + 1) * pageSize <= |pages| * pageSize
    ensures Flatten(pages)[p * pageSize..(p + 1) * pageSize] == pages[p]
  {
    var init := pages[..|pages| - 1];
    var last := pages[|pages| - 1];
    var front := Flatten(init);
    assert Flatten(pages) == front + last;
    MulSucc(|init|, pageSize);
    MulSucc(p, pageSize);
    FlattenLength(init, pageSize);
    if p < |init| {
      FlattenPage(init, pageSize, p);
      SliceOfFront(front, last, p * pageSize, (p + 1) * pageSize);
    } else {
      assert p == |init|;
      assert (front + last)[|front|..] == last;
    }
  }

  lemma MulSucc(a: nat, k: nat)
    ensures (a + 1) * k == a * k + k
  {
  }

  /** A slice inside the first part of a concatenation. */
  lemma SliceOfFront<T>(a: seq<T>, b: seq<T>, i: nat, j: nat)
    requires i <= j <= |a|
    ensures (a + b)[i..j] == a[i..j]
  {
  }

  lemma {:induction false} FlattenLength<T>(pages: seq<seq<T>>, pageSize: nat)
    requires forall i :: 0 <= i < |pages| ==> |pages[i]| == pageSize
    ensures |Flatten(pages)| == |pages| * pageSize
  {
    if pages != [] {
      FlattenLength(pages[..|pages| - 1], pageSize);
      assert |pages| * pageSize == (|pages| - 1) * pageSize + pageSize;
    }
  }

  /** A page size larger than the input, or zero, yields no page. */
  lemma NoFullPage<T>(s: seq<T>, pageSize: nat)
    requires pageSize == 0 || |s| < pageSize
    ensures Paged(s, pageSize).0 == []
  {
    PageCount(s, pageSize);
  }

  class Paginator<T> {
    const pageSize: nat
    /** The pages, in order: the vector of vectors the C++ class is. */
    var pages: seq<seq<T>>

    /** Paginator::Paginator (paginator.h:22-40). */
    constructor (items: seq<T>, pageSize: nat)
      ensures this.pageSize == pageSize
      ensures pages == Paged(items, pageSize).0
    {
      this.pageSize := pageSize;
      var i: nat := 0;
      var v: seq<T> := [];
      var result: seq<seq<T>> := [];
      var idx := 0;
      while idx < |items|
        invariant 0 <= idx <= |items|
        invariant (result, v) == Paged(items[..idx], pageSize)
        invariant i == |v|
      {
        assert items[..idx + 1][..idx] == items[..idx];
        i := i + 1;
        v := v + [items[idx]];
        if i == pageSize {
          result := result + [v];
          v := [];
          i := 0;
        }
        idx := idx + 1;
      }
      assert items[..idx] == items;
      pages := result;
    }
  }

  /** Paginate (paginator.h:42-46). */
  method Paginate<T>(c: seq<T>, pageSize: nat) returns (p: Paginator<T>)
    ensures fresh(p)
    ensures p.pageSize == pageSize && p.pages == Paged(c, pageSize).0
  {
    p := new Paginator(c, pageSize);
  }
}

=== FILE: remove_duplicates.dfy ===
/** RemoveDuplicates (remove_duplicates.cpp): visits the documents in
    insertion order, compares each one's set of indexed words (its
    frequencies with stop words erased and every value zeroed) with those
    seen so far, and removes, after the scan, every document whose word set
    an earlier document already had. */
module DuplicateRemoval {
  import opened SearchServer

  /** The map the scan compares (remove_duplicates.cpp:18-31): the document's
      frequencies without stop words, every value set to 0. */
  function Signature(index: Index, stopWords: set<string>, id: int): map<string, real>
  {
    map w | w in WordFrequencies(index, id) && w !in stopWords :: 0.0
  }

  /** The document's set of indexed, non-stop words. */
  function WordSet(index: Index, stopWords: set<string>, id: int): set<string>
  {
    WordFrequencies(index, id).Keys - stopWords
  }

  /** Zeroing the frequencies leaves exactly the word set to compare: two
      documents have equal signatures iff they have equal word sets. */
  lemma SignatureMatchesWordSet(index: Index, stopWords: set<string>, a: int, b: int)
    ensures Signature(index, stopWords, a) == Signature(index, stopWords, b) <==>
            WordSet(index, stopWords, a) == WordSet(index, stopWords, b)
  {
    var sa, sb := Signature(index, stopWords, a), Signature(index, stopWords, b);
    assert sa.Keys == WordSet(index, stopWords, a);
    assert sb.Keys == WordSet(index, stopWords, b);
    if sa.Keys == sb.Keys {
      assert forall w :: w in sa ==> sa[w] == sb[w];
    }
  }

  /** The signatures of the documents visited so far. */
  function Seen(ids: seq<int>, index: Index, stopWords: set<string>): set<map<string, real>>
  {
    set i | i in ids :: Signature(index, stopWords, i)
  }

  /** The ids the scan puts into `ids_to_delete`, in visiting order. */
  function Duplicates(ids: seq<int>, index: Index, stopWords: set<string>): seq<int>
  {
    if ids == [] then []
    else
      var init, last := ids[..|ids| - 1], ids[|ids| - 1];
      Duplicates(init, index, stopWords) +
        (if Signature(index, stopWords, last) in Seen(init, index, stopWords) then [last] else [])
  }

  function Elements(s: seq<int>): set<int>
  {
    set x | x in s
  }

  lemma ElementsSnoc(s: seq<int>, x: int)
    ensures Elements(s + [x]) == Elements(s) + {x}
  {
    assert forall y :: y in s + [x] <==> y in s || y == x;
  }

  /** `s` without the elements of `d`, the rest in order. */
  function Without(s: seq<int>, d: set<int>): seq<int>
  {
    if s == [] then [] else (if s[0] in d then [] else [s[0]]) + Without(s[1..], d)
  }

  lemma {:induction false} WithoutMembers(s: seq<int>, d: set<int>)
    ensures forall x :: x in Without(s, d) <==> x in s && x !in d
  {
    if s != [] {
      WithoutMembers(s[1..], d);
      assert forall x :: x in s <==> x == s[0] || x in s[1..] by {
        assert s == [s[0]] + s[1..];
      }
    }
  }

  /** The index with every posting of the documents in `d` deleted. */
  function PurgedAll(index: Index, d: set<int>): Index
  {
    map w | w in index :: index[w] - d
  }

  lemma SeenSnoc(init: seq<int>, last: int, index: Index, stopWords: set<string>)
    ensures Seen(init + [last], index, stopWords) == Seen(init, index, stopWords) + {Signature(index, stopWords, last)}
  {
    assert forall x :: x in init + [last] <==> x in init || x == last;
  }

  /** One step of the scan: the k-th id is added to the duplicates iff its
      signature was seen, and its signature is then seen. */
  lemma ScanStep(ids: seq<int>, k: nat, index: Index, stopWords: set<string>)
    requires k < |ids|
    ensures Duplicates(ids[..k + 1], index, stopWords) ==
      Duplicates(ids[..k], index, stopWords) +
        (if Signature(index, stopWords, ids[k]) in Seen(ids[..k], index, stopWords) then [ids[k]] else [])
    ensures Seen(ids[..k + 1], index, stopWords) == Seen(ids[..k], index, stopWords) + {Signature(index, stopWords, ids[k])}
  {
    assert ids[..k + 1] == ids[..k] + [ids[k]];
    assert ids[..k + 1][..k] == ids[..k];
    SeenSnoc(ids[..k], ids[k], index, stopWords);
  }

  /** The duplicates are taken from the visited ids, each once. */
  lemma {:induction false} DuplicatesAreVisited(ids: seq<int>, index: Index, stopWords: set<string>)
    requires NoDuplicates(ids)
    ensures forall x :: x in Duplicates(ids, index, stopWords) ==> x in ids
    ensures NoDuplicates(Duplicates(ids, index, stopWords))
  {
    if ids != [] {
      var init, last := ids[..|ids| - 1], ids[|ids| - 1];
      assert ids == init + [last];
      DuplicatesAreVisited(init, index, stopWords);
      var d := Duplicates(init, index, stopWords);
      assert last !in init;
      assert last !in d;
      assert forall x :: x in init ==> x in ids;
    }
  }

  /** Some document visited before the i-th has the same signature. */
  ghost predicate EarlierTwin(ids: seq<int>, index: Index, stopWords: set<string>, i: nat)
    requires i < |ids|
  {
    exists j :: 0 <= j < i && Signature(index, stopWords, ids[j]) == Signature(index, stopWords, ids[i])
  }

  /** Whether an earlier twin exists depends only on the ids up to the i-th. */
  lemma TwinPrefix(ids: seq<int>, index: Index, stopWords: set<string>, n: nat, i: nat)
    requires i < n <= |ids|
    ensures EarlierTwin(ids, index, stopWords, i) <==> EarlierTwin(ids[..n], index, stopWords, i)
  {
    assert forall j :: 0 <= j <= i ==> ids[..n][j] == ids[j];
  }

  /** A signature was seen iff some visited id has it. */
  lemma SeenAt(init: seq<int>, index: Index, stopWords: set<string>, sig: map<string, real>)
    ensures sig in Seen(init, index, stopWords) <==>
            exists j :: 0 <= j < |init| && Signature(index, stopWords, init[j]) == sig
  {
    if sig in Seen(init, index, stopWords) {
      var x :| x in init && Signature(index, stopWords, x) == sig;
      var j :| 0 <= j < |init| && init[j] == x;
      assert Signature(index, stopWords, init[j]) == sig;
    }
  }

  /** The last id visited is a duplicate iff its signature was seen. */
  lemma LastIff(init: seq<int>, last: int, index: Index, stopWords: set<string>)
    requires NoDuplicates(init + [last])
    ensures last in Duplicates(init + [last], index, stopWords) <==> Signature(index, stopWords, last) in Seen(init, index, stopWords)
  {
    var ids := init + [last];
    assert ids[..|ids| - 1] == init && ids[|ids| - 1] == last;
    assert NoDuplicates(init) by {
      assert forall j :: 0 <= j < |init| ==> init[j] == ids[j];
    }
    DuplicatesAreVisited(init, index, stopWords);
    assert last !in init by {
      assert forall j :: 0 <= j < |init| ==> init[j] == ids[j];
    }
  }

  /** An earlier id is a duplicate of the whole list iff it is one of the
      list without its last id. */
  lemma InitIff(init: seq<int>, last: int, index: Index, stopWords: set<string>, x: int)
    requires x != last
    ensures x in Duplicates(init + [last], index, stopWords) <==> x in Duplicates(init, index, stopWords)
  {
    var ids := init + [last];
    assert ids[..|ids| - 1] == init && ids[|ids| - 1] == last;
  }

  /** A visited document is removed iff an earlier-visited document has the
      same signature (remove_duplicates.cpp:33-41). */
  lemma {:induction false} DuplicateIff(ids: seq<int>, index: Index, stopWords: set<string>, i: nat)
    requires NoDuplicates(ids) && i < |ids|
    ensures ids[i] in Duplicates(ids, index, stopWords) <==> EarlierTwin(ids, index, stopWords, i)
  {
    var n := |ids| - 1;
    var init, last := ids[..n], ids[n];
    assert ids == init + [last];
    if i == n {
      LastIff(init, last, index, stopWords);
      SeenAt(init, index, stopWords, Signature(index, stopWords, last));
      assert EarlierTwin(ids, index, stopWords, i) <==>
             exists j :: 0 <= j < |init| && Signature(index, stopWords, init[j]) == Signature(index, stopWords, last) by {
        assert forall j :: 0 <= j < |init| ==> init[j] == ids[j];
      }
    } else {
      assert init[i] == ids[i];
      assert ids[i] != last;
      assert NoDuplicates(init) by {
        assert forall j :: 0 <= j < |init| ==> init[j] == ids[j];
      }
      InitIff(init, last, index, stopWords, ids[i]);
      DuplicateIff(init, index, stopWords, i);
      TwinPrefix(ids, index, stopWords, n, i);
    }
  }

  /** The first document of each word set is kept: every visited document has
      a survivor with the same signature, and a document without an earlier
      twin survives itself. */
  lemma {:induction false} SignatureSurvives(ids: seq<int>, index: Index, stopWords: set<string>, i: nat)
    requires NoDuplicates(ids) && i < |ids|
    ensures exists y :: y in Without(ids, Elements(Duplicates(ids, index, stopWords))) &&
                        Signature(index, stopWords, y) == Signature(index, stopWords, ids[i])
    ensures !EarlierTwin(ids, index, stopWords, i) ==>
      ids[i] in Without(ids, Elements(Duplicates(ids, index, stopWords)))
    decreases i
  {
    DuplicateIff(ids, index, stopWords, i);
    if ids[i] in Duplicates(ids, index, stopWords) {
      var j :| 0 <= j < i && Signature(index, stopWords, ids[j]) == Signature(index, stopWords, ids[i]);
      SignatureSurvives(ids, index, stopWords, j);
    } else {
      WithoutMembers(ids, Elements(Duplicates(ids, index, stopWords)));
      assert ids[i] in Without(ids, Elements(Duplicates(ids, index, stopWords)));
    }
  }

  /** The documents left have pairwise distinct signatures, hence pairwise
      distinct word sets (remove_duplicates.cpp:33-47). */
  lemma SurvivorsDistinct(ids: seq<int>, index: Index, stopWords: set<string>, a: int, b: int)
    requires NoDuplicates(ids)
    requires a in Without(ids, Elements(Duplicates(ids, index, stopWords)))
    requires b in Without(ids, Elements(Duplicates(ids, index, stopWords)))
    requires a != b
    ensures Signature(index, stopWords, a) != Signature(index, stopWords, b)
    ensures WordSet(index, stopWords, a) != WordSet(index, stopWords, b)
  {
    WithoutMembers(ids, Elements(Duplicates(ids, index, stopWords)));
    var i :| 0 <= i < |ids| && ids[i] == a;
    var j :| 0 <= j < |ids| && ids[j] == b;
    DuplicateIff(ids, index, stopWords, i);
    DuplicateIff(ids, index, stopWords, j);
    SignatureMatchesWordSet(index, stopWords, a, b);
  }

  /** The number removed is the number visited minus the number of distinct
      signatures. */
  lemma {:induction false} DuplicatesCount(ids: seq<int>, index: Index, stopWords: set<string>)
    ensures |Duplicates(ids, index, stopWords)| == |ids| - |Seen(ids, index, stopWords)|
  {
    if ids != [] {
      var init, last := ids[..|ids| - 1], ids[|ids| - 1];
      assert ids == init + [last];
      DuplicatesCount(init, index, stopWords);
      SeenSnoc(init, last, index, stopWords);
    } else {
      assert Seen(ids, index, stopWords) == {};
    }
  }

  /** Removing one more surviving id from the filtered id list is erasing it. */
  lemma {:induction false} WithoutErase(s: seq<int>, d: set<int>, x: int)
    requires NoDuplicates(s) && x in s && x !in d
    ensures x in Without(s, d)
    ensures EraseFirst(Without(s, d), x) == Without(s, d + {x})
  {
    WithoutMembers(s, d);
    var t := s[1..];
    assert s == [s[0]] + t;
    assert NoDuplicates(t) by {
      assert forall i :: 0 <= i < |t| ==> t[i] == s[i + 1];
    }
    if s[0] == x {
      assert x !in t by {
        assert forall i :: 0 <= i < |t| ==> t[i] == s[i + 1];
      }
      WithoutAbsent(t, d, x);
      var w := Without(t, d);
      assert Without(s, d) == [x] + w;
      EraseFirstCons(x, w, x);
    } else {
      assert x in t;
      WithoutErase(t, d, x);
      if s[0] !in d {
        var w := Without(t, d);
        WithoutMembers(t, d);
        assert Without(s, d) == [s[0]] + w;
        assert ([s[0]] + w)[0] == s[0] && ([s[0]] + w)[1..] == w;
        EraseFirstCons(s[0], w, x);
        assert Without(s, d + {x}) == [s[0]] + Without(t, d + {x});
      } else {
        assert Without(s, d) == [] + Without(t, d) == Without(t, d);
        assert Without(s, d + {x}) == [] + Without(t, d + {x}) == Without(t, d + {x});
      }
    }
  }

  lemma {:induction false} WithoutAbsent(s: seq<int>, d: set<int>, x: int)
    requires x !in s
    ensures Without(s, d + {x}) == Without(s, d)
  {
    if s != [] {
      assert s[0] != x;
      WithoutAbsent(s[1..], d, x);
    }
  }

  /** The scan of RemoveDuplicates (remove_duplicates.cpp:11-42): visits the
      ids in insertion order and collects those whose signature was seen
      before. */
  method ScanDuplicates(server: SearchServer) returns (idsToDelete: seq<int>)
    requires server.Valid()
    ensures idsToDelete == Duplicates(server.documentIds, server.wordToDocumentFreqs, server.stopWords)
  {
    var seen: set<map<string, real>> := {};
    idsToDelete := [];
    var ids := server.DocumentIds();
    ghost var index := server.wordToDocumentFreqs;
    var k := 0;
    while k < |ids|
      invariant 0 <= k <= |ids|
      invariant seen == Seen(ids[..k], index, server.stopWords)
      invariant idsToDelete == Duplicates(ids[..k], index, server.stopWords)
    {
      var documentId := ids[k];
      var wordFreqs := server.GetWordFrequencies(documentId);
      wordFreqs := map w | w in wordFreqs && w !in server.stopWords :: wordFreqs[w];
      wordFreqs := map w | w in wordFreqs :: 0.0;
      assert wordFreqs == Signature(index, server.stopWords, documentId);
      ScanStep(ids, k, index, server.stopWords);
      if wordFreqs in seen {
        idsToDelete := idsToDelete + [documentId];
      } else {
        seen := seen + {wordFreqs};
      }
      k := k + 1;
    }
    assert ids[..k] == ids;
  }

  /** RemoveDuplicates (remove_duplicates.cpp:9-48): the scan, then the
      removals, on the state the scan saw. */
  method RemoveDuplicates(server: SearchServer)
    requires server.Valid()
    modifies server
    ensures server.Valid()
    ensures var removed := Elements(Duplicates(old(server.documentIds), old(server.wordToDocumentFreqs), server.stopWords));
            && server.documentIds == Without(old(server.documentIds), removed)
            && server.documents == old(server.documents) - removed
            && server.wordToDocumentFreqs == PurgedAll(old(server.wordToDocumentFreqs), removed)
  {
    var idsToDelete := ScanDuplicates(server);
    ghost var ids := server.documentIds;
    ghost var index := server.wordToDocumentFreqs;
    DuplicatesAreVisited(ids, index, server.stopWords);
    var j := 0;
    assert Elements(idsToDelete[..0]) == {};
    forall w | w in index ensures PurgedAll(index, {})[w] == index[w] {
      assert index[w] - {} == index[w];
    }
    assert PurgedAll(index, {}) == index;
    WithoutNone(ids);
    while j < |idsToDelete|
      invariant 0 <= j <= |idsToDelete|
      invariant server.Valid()
      invariant server.documentIds == Without(ids, Elements(idsToDelete[..j]))
      invariant server.documents == old(server.documents) - Elements(idsToDelete[..j])
      invariant server.wordToDocumentFreqs == PurgedAll(index, Elements(idsToDelete[..j]))
    {
      RemovalStep(ids, index, old(server.documents), idsToDelete, j);
      server.RemoveDocument(idsToDelete[j]);
      j := j + 1;
    }
    assert idsToDelete[..j] == idsToDelete;
  }

  /** What one RemoveDocument call of the second loop does to the three
      containers, in terms of the ids removed so far. */
  lemma RemovalStep(ids: seq<int>, index: Index, documents: map<int, DocumentData>, dels: seq<int>, j: nat)
    requires IdsValid(ids, documents)
    requires NoDuplicates(dels) && (forall x :: x in dels ==> x in ids) && j < |dels|
    ensures var done, x := Elements(dels[..j]), dels[j];
            && x in documents - done
            && x in Without(ids, done)
            && EraseFirst(Without(ids, done), x) == Without(ids, Elements(dels[..j + 1]))
            && (documents - done) - {x} == documents - Elements(dels[..j + 1])
            && Purged(PurgedAll(index, done), x) == PurgedAll(index, Elements(dels[..j + 1]))
  {
    var done, x := Elements(dels[..j]), dels[j];
    assert x !in done by {
      assert forall i :: 0 <= i < j ==> dels[..j][i] == dels[i];
    }
    assert x in ids;
    WithoutErase(ids, done, x);
    assert dels[..j + 1] == dels[..j] + [x];
    ElementsSnoc(dels[..j], x);
    var p, q := Purged(PurgedAll(index, done), x), PurgedAll(index, done + {x});
    forall w | w in index ensures p[w] == q[w] {
      assert (index[w] - done) - {x} == index[w] - (done + {x});
    }
    assert p.Keys == q.Keys;
  }

  lemma {:induction false} WithoutNone(s: seq<int>)
    ensures Without(s, {}) == s
  {
    if s != [] {
      WithoutNone(s[1..]);
    }
  }
}

=== FILE: request_queue.dfy ===
/** RequestQueue (request_queue.cpp, request_queue.h): forwards a query to the
    search server, records the size of each response in a window holding the
    last 1440 of them, and counts the recorded responses that were empty. The
    ranking search itself is not modelled; the three `FindTopDocuments`
    overloads are functions the queue is given. */
module RequestStatistics {
  import opened Wrappers
  import opened SearchServer

  /** Document (document.h:14-23); relevance as an exact real. */
  datatype Document = Document(id: int, relevance: real, rating: int)

  /** The filter the predicate overload takes: id, status, rating. */
  type DocumentPredicate = (int, DocumentStatus, int) -> bool

  /** sec_in_day_ (request_queue.cpp:46): the window length. */
  const WindowSize: nat := 1440

  /** The window the deque holds after recording `history`: its last
      min(|history|, 1440) entries, in order. */
  function Window(history: seq<nat>): (w: seq<nat>)
    ensures |w| <= WindowSize
    ensures |w| == if |history| <= WindowSize then |history| else WindowSize
    ensures w == history[|history| - |w|..]
  {
    if |history| <= WindowSize then history else history[|history| - WindowSize..]
  }

  /** Recording one more entry moves the window as UpdateRequests does:
      append at the back, then drop the front only when it got too long. */
  lemma WindowStep(history: seq<nat>, x: nat)
    ensures Window(history + [x]) ==
      var pushed := Window(history) + [x];
      if |pushed| > WindowSize then pushed[1..] else pushed
  {
    var h := history + [x];
    if |history| >= WindowSize {
      assert h[|h| - WindowSize..] == history[|history| - WindowSize..][1..] + [x];
    } else {
      assert h == history + [x];
    }
  }

  /** The number of zero entries, counted one by one. */
  function CountZeros(s: seq<nat>): (n: nat)
    ensures n == multiset(s)[0]
    ensures n <= |s|
  {
    if s == [] then 0
    else
      assert s == s[..|s| - 1] + [s[|s| - 1]];
      CountZeros(s[..|s| - 1]) + (if s[|s| - 1] == 0 then 1 else 0)
  }

  /** The status overload is the predicate overload with a filter on the
      status alone (search_server.cpp:41-46). */
  ghost predicate FiltersByStatus(findByPredicate: (string, DocumentPredicate) -> Result<seq<Document>, SearchError>,
                                  findByStatus: (string, DocumentStatus) -> Result<seq<Document>, SearchError>)
  {
    forall query, status :: findByStatus(query, status) ==
      findByPredicate(query, (id: int, documentStatus: DocumentStatus, rating: int) => documentStatus == status)
  }

  /** The plain overload is the status overload for Actual
      (search_server.cpp:48-51). */
  ghost predicate AsksForActual(findByStatus: (string, DocumentStatus) -> Result<seq<Document>, SearchError>,
                                findActual: string -> Result<seq<Document>, SearchError>)
  {
    forall query :: findActual(query) == findByStatus(query, Actual)
  }

  class RequestQueue {
    /** The `founded` field of each QueryResult in the deque, front first. */
    var requests: seq<nat>
    /** Every size recorded so far. */
    ghost var history: seq<nat>
    const findByPredicate: (string, DocumentPredicate) -> Result<seq<Document>, SearchError>
    const findByStatus: (string, DocumentStatus) -> Result<seq<Document>, SearchError>
    const findActual: string -> Result<seq<Document>, SearchError>

    ghost predicate Valid()
      reads this
    {
      requests == Window(history)
    }

    /** RequestQueue (request_queue.cpp:8-9) over the three overloads of
        FindTopDocuments, related as search_server.cpp:41-51 defines them: the
        status overload filters by status, and the plain one asks for Actual. */
    constructor (findByPredicate: (string, DocumentPredicate) -> Result<seq<Document>, SearchError>,
                 findByStatus: (string, DocumentStatus) -> Result<seq<Document>, SearchError>,
                 findActual: string -> Result<seq<Document>, SearchError>)
      requires FiltersByStatus(findByPredicate, findByStatus)
      requires AsksForActual(findByStatus, findActual)
      ensures Valid()
      ensures requests == [] && history == []
      ensures this.findByPredicate == findByPredicate
      ensures this.findByStatus == findByStatus
      ensures this.findActual == findActual
    {
      this.findByPredicate := findByPredicate;
      this.findByStatus := findByStatus;
      this.findActual := findActual;
      requests := [];
      history := [];
    }

    /** UpdateRequests (request_queue.cpp:48-56). */
    method UpdateRequests(founded: nat)
      requires Valid()
      modifies this
      ensures Valid()
      ensures history == old(history) + [founded]
      ensures requests == if |old(requests)| + 1 > WindowSize then (old(requests) + [founded])[1..]
                          else old(requests) + [founded]
      ensures |requests| <= WindowSize
    {
      WindowStep(history, founded);
      requests := requests + [founded];
      history := history + [founded];
      if |requests| > WindowSize {
        requests := requests[1..];
      }
    }

    /** GetNoResultRequests (request_queue.cpp:39-44). */
    function GetNoResultRequests(): (n: nat)
      reads this
      ensures n == multiset(requests)[0]
    {
      CountZeros(requests)
    }

    /** AddFindRequest with a document predicate (request_queue.cpp:11-19):
        an error of the search propagates before anything is recorded. */
    method AddFindRequestWithPredicate(rawQuery: string, documentPredicate: DocumentPredicate)
      returns (r: Result<seq<Document>, SearchError>)
      requires Valid()
      modifies this
      ensures Valid()
      ensures r == findByPredicate(rawQuery, documentPredicate)
      ensures r.Ok? ==> history == old(history) + [|r.value|]
      ensures r.Err? ==> history == old(history) && requests == old(requests)
    {
      r := findByPredicate(rawQuery, documentPredicate);
      if r.Err? {
        return;
      }
      UpdateRequests(|r.value|);
    }

    /** AddFindRequest with a status (request_queue.cpp:21-28). */
    method AddFindRequestWithStatus(rawQuery: string, status: DocumentStatus)
      returns (r: Result<seq<Document>, SearchError>)
      requires Valid()
      modifies this
      ensures Valid()
      ensures r == findByStatus(rawQuery, status)
      ensures r.Ok? ==> history == old(history) + [|r.value|]
      ensures r.Err? ==> history == old(history) && requests == old(requests)
    {
      r := findByStatus(rawQuery, status);
      if r.Err? {
        return;
      }
      UpdateRequests(|r.value|);
    }

    /** AddFindRequest with the query only (request_queue.cpp:30-37). */
    method AddFindRequest(rawQuery: string) returns (r: Result<seq<Document>, SearchError>)
      requires Valid()
      modifies this
      ensures Valid()
      ensures r == findActual(rawQuery)
      ensures r.Ok? ==> history == old(history) + [|r.value|]
      ensures r.Err? ==> history == old(history) && requests == old(requests)
    {
      r := findActual(rawQuery);
      if r.Err? {
        return;
      }
      UpdateRequests(|r.value|);
    }
  }

  /** After 1440 empty responses and one non-empty one the window counts
      1439 empty ones: the oldest record has left the window. */
  lemma FullWindowDropsOldest(history: seq<nat>)
    requires |history| == WindowSize + 1
    requires forall i :: 0 <= i < WindowSize ==> history[i] == 0
    requires history[WindowSize] == 1
    ensures |Window(history)| == WindowSize
    ensures CountZeros(Window(history)) == WindowSize - 1
  {
    var w := Window(history);
    assert w == history[1..];
    var zeros := history[1..WindowSize];
    assert w == zeros + [1];
    assert forall i :: 0 <= i < |zeros| ==> zeros[i] == 0;
    ZerosCount(zeros);
  }

  lemma {:induction false} ZerosCount(s: seq<nat>)
    requires forall i :: 0 <= i < |s| ==> s[i] == 0
    ensures CountZeros(s) == |s|
  {
    if s != [] {
      ZerosCount(s[..|s| - 1]);
    }
  }
}

=== FILE: search_server.dfy ===
/** The search index of search_server.cpp: an inverted index from words to
    per-document term frequencies, a document store and the list of document
    ids in insertion order, together with the word validation, the query
    parsers and the queries that only read the index. */
module SearchServer {
  import opened Wrappers
  import opened StringProcessing
  import OrderedStrings

  datatype DocumentStatus = Actual | Irrelevant | Banned | Removed

  /** What the store keeps per document (search_server.h:38-42). */
  datatype DocumentData = DocumentData(rating: int, status: DocumentStatus)

  /** The exceptions the server throws: `invalid_argument` for a bad id, a bad
      document word and a bad query, and `out_of_range` from `map::at`. */
  datatype SearchError = InvalidDocumentId | InvalidWord | InvalidQuery | OutOfRange

  /** IsValidWord (search_server.cpp:114-119): no character in [0, ' '). */
  predicate IsValidWord(word: string)
  {
    forall i :: 0 <= i < |word| ==> !('\0' <= word[i] && word[i] < ' ')
  }

  predicate AllValid(tokens: seq<string>)
  {
    forall i :: 0 <= i < |tokens| ==> IsValidWord(tokens[i])
  }

  /** The tokens that are not stop words, in order. */
  function NonStop(tokens: seq<string>, stopWords: set<string>): (r: seq<string>)
    ensures forall w :: w in r <==> w in tokens && w !in stopWords
  {
    if tokens == [] then []
    else
      var last := tokens[|tokens| - 1];
      assert tokens == tokens[..|tokens| - 1] + [last];
      NonStop(tokens[..|tokens| - 1], stopWords) + (if last in stopWords then [] else [last])
  }

  /** SplitIntoWordsNoStop (search_server.cpp:121-136): tokenizes, throws on
      the first invalid token, and drops stop words. */
  method SplitIntoWordsNoStop(text: string, stopWords: set<string>) returns (r: Result<seq<string>, SearchError>)
    ensures r.Ok? <==> AllValid(Words(text))
    ensures r.Ok? ==> r.value == NonStop(Words(text), stopWords)
    ensures r.Err? ==> r.error == InvalidWord
  {
    var tokens := SplitIntoWords(text);
    var words: seq<string> := [];
    var k := 0;
    while k < |tokens|
      invariant 0 <= k <= |tokens|
      invariant AllValid(tokens[..k])
      invariant words == NonStop(tokens[..k], stopWords)
    {
      var word := tokens[k];
      assert tokens[..k + 1][..k] == tokens[..k];
      if !IsValidWord(word) {
        return Err(InvalidWord);
      }
      if word !in stopWords {
        words := words + [word];
      }
      k := k + 1;
    }
    assert tokens[..k] == tokens;
    return Ok(words);
  }

  function Sum(s: seq<int>): int
  {
    if s == [] then 0 else Sum(s[..|s| - 1]) + s[|s| - 1]
  }

  /** The average of the ratings as C++ `int` division computes it: truncated
      toward zero, and 0 for no ratings. */
  function AverageRating(ratings: seq<int>): (r: int)
    ensures ratings == [] ==> r == 0
    ensures ratings != [] && Sum(ratings) >= 0 ==>
      r * |ratings| <= Sum(ratings) < r * |ratings| + |ratings|
    ensures ratings != [] && Sum(ratings) < 0 ==>
      r * |ratings| - |ratings| < Sum(ratings) <= r * |ratings|
  {
    if ratings == [] then 0
    else
      var s, n := Sum(ratings), |ratings|;
      if s >= 0 then s / n else -((-s) / n)
  }

  /** ComputeAverageRating (search_server.cpp:138-150): the summing loop. */
  method ComputeAverageRating(ratings: seq<int>) returns (r: int)
    ensures r == AverageRating(ratings)
  {
    if |ratings| == 0 {
      return 0;
    }
    var ratingSum := 0;
    var k := 0;
    while k < |ratings|
      invariant 0 <= k <= |ratings|
      invariant ratingSum == Sum(ratings[..k])
    {
      assert ratings[..k + 1][..k] == ratings[..k];
      ratingSum := ratingSum + ratings[k];
      k := k + 1;
    }
    assert ratings[..k] == ratings;
    r := if ratingSum >= 0 then ratingSum / |ratings| else -((-ratingSum) / |ratings|);
  }

  /** The examples of the rating test (main.cpp:65-79), and a negative sum,
      which truncates toward zero rather than down. */
  lemma AverageRatingExamples()
    ensures AverageRating([1, 2, 3]) == 2
    ensures AverageRating([2, 3, 4]) == 3
    ensures AverageRating([-3, -4]) == -3
  {
    assert Sum([1, 2, 3]) == 6 by {
      assert [1, 2, 3][..2] == [1, 2];
      assert [1, 2][..1] == [1];
    }
    assert Sum([2, 3, 4]) == 9 by {
      assert [2, 3, 4][..2] == [2, 3];
      assert [2, 3][..1] == [2];
    }
    assert Sum([-3, -4]) == -7 by {
      assert [-3, -4][..1] == [-3];
    }
  }

  // ---------------------------------------------------------------- queries

  /** QueryWord (search_server.h:59-64). */
  datatype QueryWord = QueryWord(data: string, isMinus: bool, isStop: bool)

  /** Query (search_server.h:66-70); each field is a `std::set`, kept sorted. */
  datatype Query = Query(plusWords: seq<string>, minusWords: seq<string>)

  /** A query token the parser accepts: not empty, not "-", not starting with
      "--", and free of control characters. */
  predicate WellFormedToken(t: string)
  {
    t != [] && t != "-" && !(|t| >= 2 && t[0] == '-' && t[1] == '-') && IsValidWord(t)
  }

  predicate IsMinusToken(t: string)
  {
    t != [] && t[0] == '-'
  }

  predicate AllWellFormed(tokens: seq<string>)
  {
    forall i :: 0 <= i < |tokens| ==> WellFormedToken(tokens[i])
  }

  /** Index of the first token the parser rejects (|tokens| when none is). */
  function FirstMalformed(tokens: seq<string>): (k: nat)
    ensures k <= |tokens|
    ensures AllWellFormed(tokens[..k])
    ensures k < |tokens| ==> !WellFormedToken(tokens[k])
  {
    if tokens == [] then 0
    else if !WellFormedToken(tokens[0]) then 0
    else
      var k := 1 + FirstMalformed(tokens[1..]);
      assert forall i :: 1 <= i < k ==> tokens[..k][i] == tokens[1..][..k - 1][i - 1];
      k
  }

  lemma {:induction false} FirstMalformedAt(tokens: seq<string>, k: nat)
    requires k < |tokens| && AllWellFormed(tokens[..k]) && !WellFormedToken(tokens[k])
    ensures FirstMalformed(tokens) == k
    decreases k
  {
    if k > 0 {
      assert tokens[..k][0] == tokens[0];
      assert forall i :: 1 <= i < k ==> tokens[1..][..k - 1][i - 1] == tokens[..k][i];
      FirstMalformedAt(tokens[1..], k - 1);
    }
  }

  /** The words a list of tokens requires, collected token by token: each
      well-formed token without a leading '-' that is not a stop word. */
  function PlusWords(tokens: seq<string>, stopWords: set<string>): set<string>
  {
    if tokens == [] then {}
    else
      var t := tokens[|tokens| - 1];
      PlusWords(tokens[..|tokens| - 1], stopWords) +
        (if WellFormedToken(t) && !IsMinusToken(t) && t !in stopWords then {t} else {})
  }

  /** The words a list of tokens excludes, collected token by token: the rest
      of each well-formed token after its leading '-', unless that rest is a
      stop word. */
  function MinusWords(tokens: seq<string>, stopWords: set<string>): set<string>
  {
    if tokens == [] then {}
    else
      var t := tokens[|tokens| - 1];
      MinusWords(tokens[..|tokens| - 1], stopWords) +
        (if WellFormedToken(t) && IsMinusToken(t) && t[1..] !in stopWords then {t[1..]} else {})
  }

  lemma {:induction false} PlusWordsMembers(tokens: seq<string>, stopWords: set<string>)
    ensures forall w :: w in PlusWords(tokens, stopWords) <==>
      w in tokens && WellFormedToken(w) && !IsMinusToken(w) && w !in stopWords
  {
    if tokens != [] {
      var init := tokens[..|tokens| - 1];
      PlusWordsMembers(init, stopWords);
      assert forall x :: x in tokens <==> x in init || x == tokens[|tokens| - 1] by {
        assert tokens == init + [tokens[|tokens| - 1]];
      }
    }
  }

  lemma {:induction false} MinusWordsMembers(tokens: seq<string>, stopWords: set<string>)
    ensures forall w :: w in MinusWords(tokens, stopWords) <==>
      "-" + w in tokens && WellFormedToken("-" + w) && w !in stopWords
  {
    if tokens != [] {
      var init := tokens[..|tokens| - 1];
      var t := tokens[|tokens| - 1];
      MinusWordsMembers(init, stopWords);
      assert forall x :: x in tokens <==> x in init || x == t by {
        assert tokens == init + [t];
      }
      if IsMinusToken(t) {
        assert t == "-" + t[1..];
      }
      forall w ensures "-" + w == t ==> w == t[1..] {
        if "-" + w == t {
          assert t[1..] == ("-" + w)[1..] == w;
        }
      }
    }
  }

  /** `q` holds exactly the plus and minus words of `tokens`, each set sorted. */
  ghost predicate QueryOf(q: Query, tokens: seq<string>, stopWords: set<string>)
  {
    && OrderedStrings.Sorted(q.plusWords)
    && OrderedStrings.Sorted(q.minusWords)
    && (forall w :: w in q.plusWords <==> w in PlusWords(tokens, stopWords))
    && (forall w :: w in q.minusWords <==> w in MinusWords(tokens, stopWords))
  }

  /** ParseQueryWord, throwing variant (search_server.cpp:152-171). */
  function ParseQueryWord(text: string, stopWords: set<string>): (r: Result<QueryWord, SearchError>)
    ensures r.Ok? <==> WellFormedToken(text)
    ensures r.Err? ==> r.error == InvalidQuery
    ensures r.Ok? ==> && r.value.isMinus == IsMinusToken(text)
                      && r.value.data == (if r.value.isMinus then text[1..] else text)
                      && r.value.isStop == (r.value.data in stopWords)
  {
    if text == [] then Err(InvalidQuery)
    else
      var isMinus := text[0] == '-';
      var word := if isMinus then text[1..] else text;
      if word == [] || word[0] == '-' || !IsValidWord(word) then Err(InvalidQuery)
      else Ok(QueryWord(word, isMinus, word in stopWords))
  }

  /** ParseQueryWord, bool-returning variant (search_server.cpp:230-252): the
      out-parameter is reset to a default word and set only on success. */
  function ParseQueryWordChecked(text: string, stopWords: set<string>): (r: (bool, QueryWord))
    ensures r.0 <==> ParseQueryWord(text, stopWords).Ok?
    ensures r.0 ==> r.1 == ParseQueryWord(text, stopWords).value
    ensures !r.0 ==> r.1 == QueryWord([], false, false)
  {
    var empty := QueryWord([], false, false);
    if text == [] then (false, empty)
    else
      var isMinus := text[0] == '-';
      var word := if isMinus then text[1..] else text;
      if word == [] || word[0] == '-' || !IsValidWord(word) then (false, empty)
      else (true, QueryWord(word, isMinus, word in stopWords))
  }

  /** One token's contribution: a parsed, non-stop word goes to the minus or
      the plus set. */
  function AddQueryWord(q: Query, w: QueryWord): Query
    requires OrderedStrings.Sorted(q.plusWords) && OrderedStrings.Sorted(q.minusWords)
  {
    if w.isStop then q
    else if w.isMinus then q.(minusWords := OrderedStrings.Insert(q.minusWords, w.data))
    else q.(plusWords := OrderedStrings.Insert(q.plusWords, w.data))
  }

  /** Adding the next token's word to the query of a prefix gives the query of
      the longer prefix. */
  lemma QueryOfStep(q: Query, prefix: seq<string>, t: string, stopWords: set<string>)
    requires WellFormedToken(t)
    requires QueryOf(q, prefix, stopWords)
    ensures QueryOf(AddQueryWord(q, ParseQueryWord(t, stopWords).value), prefix + [t], stopWords)
  {
    var w := ParseQueryWord(t, stopWords).value;
    PlusWordsSnoc(prefix, t, stopWords);
    MinusWordsSnoc(prefix, t, stopWords);
    if IsMinusToken(t) {
      assert t[1..] == w.data;
    }
  }

  lemma PlusWordsSnoc(prefix: seq<string>, t: string, stopWords: set<string>)
    ensures PlusWords(prefix + [t], stopWords) ==
      PlusWords(prefix, stopWords) + (if WellFormedToken(t) && !IsMinusToken(t) && t !in stopWords then {t} else {})
  {
    assert (prefix + [t])[..|prefix|] == prefix;
  }

  lemma MinusWordsSnoc(prefix: seq<string>, t: string, stopWords: set<string>)
    ensures MinusWords(prefix + [t], stopWords) ==
      MinusWords(prefix, stopWords) + (if WellFormedToken(t) && IsMinusToken(t) && t[1..] !in stopWords then {t[1..]} else {})
  {
    assert (prefix + [t])[..|prefix|] == prefix;
  }

  lemma WellFormedSnoc(prefix: seq<string>, t: string)
    requires AllWellFormed(prefix) && WellFormedToken(t)
    ensures AllWellFormed(prefix + [t])
  {
    var longer := prefix + [t];
    forall i | 0 <= i < |longer| ensures WellFormedToken(longer[i]) {
      if i < |prefix| {
        assert longer[i] == prefix[i];
      }
    }
  }

  /** ParseQuery, throwing variant (search_server.cpp:173-192). */
  method ParseQuery(text: string, stopWords: set<string>) returns (r: Result<Query, SearchError>)
    ensures r.Ok? <==> AllWellFormed(Words(text))
    ensures r.Err? ==> r.error == InvalidQuery
    ensures r.Ok? ==> QueryOf(r.value, Words(text), stopWords)
  {
    var tokens := SplitIntoWords(text);
    var result := Query([], []);
    var k := 0;
    while k < |tokens|
      invariant 0 <= k <= |tokens|
      invariant AllWellFormed(tokens[..k])
      invariant QueryOf(result, tokens[..k], stopWords)
    {
      var queryWord := ParseQueryWord(tokens[k], stopWords);
      if queryWord.Err? {
        return Err(queryWord.error);
      }
      ghost var prefix := tokens[..k];
      ghost var longer := tokens[..k + 1];
      assert longer == prefix + [tokens[k]];
      QueryOfStep(result, prefix, tokens[k], stopWords);
      result := AddQueryWord(result, queryWord.value);
      assert QueryOf(result, longer, stopWords);
      WellFormedSnoc(prefix, tokens[k]);
      k := k + 1;
    }
    assert tokens[..k] == tokens;
    return Ok(result);
  }

  /** ParseQuery, bool-returning variant (search_server.cpp:254-278): on a
      malformed token it returns false with the words of the tokens before it
      already inserted. */
  method ParseQueryChecked(text: string, stopWords: set<string>) returns (ok: bool, result: Query)
    ensures ok <==> AllWellFormed(Words(text))
    ensures ok ==> QueryOf(result, Words(text), stopWords)
    ensures !ok ==> QueryOf(result, Words(text)[..FirstMalformed(Words(text))], stopWords)
  {
    var tokens := SplitIntoWords(text);
    result := Query([], []);
    var k := 0;
    while k < |tokens|
      invariant 0 <= k <= |tokens|
      invariant AllWellFormed(tokens[..k])
      invariant QueryOf(result, tokens[..k], stopWords)
    {
      var (parsed, queryWord) := ParseQueryWordChecked(tokens[k], stopWords);
      if !parsed {
        FirstMalformedAt(tokens, k);
        return false, result;
      }
      ghost var prefix := tokens[..k];
      ghost var longer := tokens[..k + 1];
      assert longer == prefix + [tokens[k]];
      QueryOfStep(result, prefix, tokens[k], stopWords);
      result := AddQueryWord(result, queryWord);
      assert QueryOf(result, longer, stopWords);
      WellFormedSnoc(prefix, tokens[k]);
      k := k + 1;
    }
    assert tokens[..k] == tokens;
    return true, result;
  }

  /** A word may be both required and excluded: "cat -cat" parses without an
      error (search_server.cpp:173-192). */
  lemma PlusAndMinusMayOverlap(stopWords: set<string>)
    requires "cat" !in stopWords
    ensures AllWellFormed(["cat", "-cat"])
    ensures "cat" in PlusWords(["cat", "-cat"], stopWords)
    ensures "cat" in MinusWords(["cat", "-cat"], stopWords)
  {
    assert "-cat"[1..] == "cat";
    assert "-cat" in ["cat", "-cat"];
  }

  // ----------------------------------------------------------------- index

  type Index = map<string, map<int, real>>

  function Occurrences(words: seq<string>, w: string): nat
  {
    multiset(words)[w]
  }

  /** The postings of a word, or none: what `operator[]` default-creates. */
  function Postings(index: Index, w: string): map<int, real>
  {
    if w in index then index[w] else map[]
  }

  /** The index after adding the postings of a document with the given
      (non-stop) words: each word gets its number of occurrences divided by the
      number of words. */
  function AddedPostings(index: Index, documentId: int, words: seq<string>): Index
  {
    map w | w in index.Keys + (set x | x in words) ::
      Postings(index, w) +
      (if w in words then map[documentId := Occurrences(words, w) as real / |words| as real] else map[])
  }

  /** What the index says about one document (GetWordFrequencies). */
  function WordFrequencies(index: Index, documentId: int): map<string, real>
  {
    map w | w in index && documentId in index[w] :: index[w][documentId]
  }

  /** The index with every posting of one document deleted; the word keys stay. */
  function Purged(index: Index, documentId: int): Index
  {
    map w | w in index :: index[w] - {documentId}
  }

  /** Every indexed word is non-empty, valid and not a stop word; every posting
      names a stored document and has a positive frequency. */
  ghost predicate IndexValid(index: Index, stored: set<int>, stopWords: set<string>)
  {
    && (forall w :: w in index ==> w != [] && IsValidWord(w) && w !in stopWords)
    && (forall w, id :: w in index && id in index[w] ==> id in stored && index[w][id] > 0.0)
  }

  predicate NoDuplicates(s: seq<int>)
  {
    forall i, j :: 0 <= i < j < |s| ==> s[i] != s[j]
  }

  /** The id list holds each stored id exactly once, and ids are non-negative. */
  ghost predicate IdsValid(ids: seq<int>, documents: map<int, DocumentData>)
  {
    && NoDuplicates(ids)
    && (forall i :: 0 <= i < |ids| ==> ids[i] in documents)
    && (forall id :: id in documents ==> id in ids)
    && (forall id :: id in documents ==> id >= 0)
  }

  function IndexOf(s: seq<int>, x: int): (i: nat)
    requires x in s
    ensures i < |s| && s[i] == x
  {
    if s[0] == x then 0 else 1 + IndexOf(s[1..], x)
  }

  /** IndexOf finds the first occurrence, as `std::find` does. */
  lemma {:induction false} IndexOfFirst(s: seq<int>, x: int)
    requires x in s
    ensures forall j :: 0 <= j < IndexOf(s, x) ==> s[j] != x
  {
    if s[0] != x {
      IndexOfFirst(s[1..], x);
      forall j | 0 < j < IndexOf(s, x) ensures s[j] != x {
        assert s[j] == s[1..][j - 1];
      }
    }
  }

  /** `erase(find(s, x))`: removes the first occurrence of `x`. */
  function EraseFirst(s: seq<int>, x: int): (r: seq<int>)
    requires x in s
    ensures |r| == |s| - 1
  {
    var i := IndexOf(s, x);
    s[..i] + s[i + 1..]
  }

  /** Exactly one occurrence of `x` goes; everything else stays. */
  lemma EraseFirstRemovesOne(s: seq<int>, x: int)
    requires x in s
    ensures multiset(EraseFirst(s, x)) == multiset(s) - multiset{x}
  {
    var i := IndexOf(s, x);
    assert s == s[..i] + [x] + s[i + 1..];
  }

  /** Erasing the head drops it; erasing a later value keeps the head. */
  lemma EraseFirstCons(h: int, w: seq<int>, x: int)
    requires h == x || x in w
    ensures EraseFirst([h] + w, x) == if h == x then w else [h] + EraseFirst(w, x)
  {
    var s := [h] + w;
    assert s[1..] == w;
    if h != x {
      var i := IndexOf(w, x);
      assert IndexOf(s, x) == 1 + i;
      assert s[..1 + i] == [h] + w[..i];
      assert s[1 + i + 1..] == w[i + 1..];
    }
  }

  /** A sequence without duplicates has as many elements as its set. */
  lemma {:induction false} DistinctCardinality(s: seq<int>)
    requires NoDuplicates(s)
    ensures |set x | x in s| == |s|
  {
    if s != [] {
      var init := s[..|s| - 1];
      DistinctCardinality(init);
      assert s == init + [s[|s| - 1]];
      assert (set x | x in s) == (set x | x in init) + {s[|s| - 1]};
    }
  }

  /** The store holds as many documents as the id list has entries. */
  lemma IdsCount(ids: seq<int>, documents: map<int, DocumentData>)
    requires IdsValid(ids, documents)
    ensures |documents| == |ids|
  {
    DistinctCardinality(ids);
    var elements := set x | x in ids;
    forall x | x in ids ensures x in documents {
      var i :| 0 <= i < |ids| && ids[i] == x;
    }
    assert forall x :: x in elements <==> x in documents;
    assert documents.Keys == elements;
  }

  lemma IdsValidAppend(ids: seq<int>, documents: map<int, DocumentData>, id: int, data: DocumentData)
    requires IdsValid(ids, documents) && id >= 0 && id !in documents
    ensures IdsValid(ids + [id], documents[id := data])
  {
  }

  lemma IdsValidErase(ids: seq<int>, documents: map<int, DocumentData>, id: int)
    requires IdsValid(ids, documents) && id in documents
    ensures IdsValid(EraseFirst(ids, id), documents - {id})
  {
    IdsValidSplice(ids, documents, id, IndexOf(ids, id));
  }

  lemma IdsValidSplice(ids: seq<int>, documents: map<int, DocumentData>, id: int, i: nat)
    requires IdsValid(ids, documents) && i < |ids| && ids[i] == id
    ensures IdsValid(ids[..i] + ids[i + 1..], documents - {id})
  {
    var e := ids[..i] + ids[i + 1..];
    assert |e| == |ids| - 1;
    assert forall j :: 0 <= j < i ==> e[j] == ids[j];
    assert forall j :: i <= j < |e| ==> e[j] == ids[j + 1];
    forall a, b | 0 <= a < b < |e| ensures e[a] != e[b] {
      var a' := if a < i then a else a + 1;
      var b' := if b < i then b else b + 1;
      assert e[a] == ids[a'] && e[b] == ids[b'];
    }
    forall j | 0 <= j < |e| ensures e[j] in documents - {id} {
      var j' := if j < i then j else j + 1;
      assert e[j] == ids[j'] && j' != i;
    }
    forall d | d in documents - {id} ensures d in e {
      var j :| 0 <= j < |ids| && ids[j] == d;
      assert j != i;
      assert e[if j < i then j else j - 1] == d;
    }
  }

  /** `inv` added `n` times, as the AddDocument loop accumulates it. */
  function Accumulated(n: nat, inv: real): real
  {
    if n == 0 then 0.0 else Accumulated(n - 1, inv) + inv
  }

  lemma {:induction false} AccumulatedQuotient(n: nat, count: nat)
    requires count > 0
    ensures Accumulated(n, 1.0 / count as real) == n as real / count as real
  {
    if n > 0 {
      AccumulatedQuotient(n - 1, count);
    }
  }

  /** The postings of `w` once the AddDocument loop has handled `prefix`. */
  function PartialPostings(index0: Index, documentId: int, prefix: seq<string>, inv: real, w: string): map<int, real>
  {
    Postings(index0, w) +
      (if w in prefix then map[documentId := Accumulated(Occurrences(prefix, w), inv)] else map[])
  }

  /** The state of the index after the AddDocument loop has handled `prefix`. */
  ghost predicate PartlyAdded(index: Index, index0: Index, documentId: int, prefix: seq<string>, inv: real)
  {
    && (forall w :: w in index <==> w in index0 || w in prefix)
    && (forall w :: w in index ==> index[w] == PartialPostings(index0, documentId, prefix, inv, w))
  }

  lemma PartlyAddedStart(index0: Index, documentId: int, words: seq<string>, inv: real)
    ensures PartlyAdded(index0, index0, documentId, words[..0], inv)
  {
    assert words[..0] == [];
    forall w | w in index0 ensures index0[w] == PartialPostings(index0, documentId, [], inv, w) {
      assert index0[w] + map[] == index0[w];
    }
  }

  /** `freqs[word][id] += inv`, with `operator[]` creating what is missing. */
  function Incremented(index: Index, word: string, documentId: int, inv: real): Index
  {
    var postings := Postings(index, word);
    var current := if documentId in postings then postings[documentId] else 0.0;
    index[word := postings[documentId := current + inv]]
  }

  /** One step of the AddDocument loop. */
  lemma PartlyAddedStep(index: Index, index0: Index, documentId: int, words: seq<string>, k: nat, inv: real)
    requires k < |words|
    requires PartlyAdded(index, index0, documentId, words[..k], inv)
    requires forall w :: w in index0 ==> documentId !in index0[w]
    ensures PartlyAdded(Incremented(index, words[k], documentId, inv), index0, documentId, words[..k + 1], inv)
  {
    assert words[..k + 1] == words[..k] + [words[k]];
    PartlyAddedSnoc(index, index0, documentId, words[..k], words[k], inv);
  }

  lemma PartlyAddedSnoc(index: Index, index0: Index, documentId: int, prefix: seq<string>, word: string, inv: real)
    requires PartlyAdded(index, index0, documentId, prefix, inv)
    requires forall w :: w in index0 ==> documentId !in index0[w]
    ensures PartlyAdded(Incremented(index, word, documentId, inv), index0, documentId, prefix + [word], inv)
  {
    var next := Incremented(index, word, documentId, inv);
    var prefix' := prefix + [word];
    assert forall x :: x in prefix' <==> x in prefix || x == word;
    forall w | w in next
      ensures next[w] == PartialPostings(index0, documentId, prefix', inv, w)
    {
      if w == word {
        assert Postings(index, word) == PartialPostings(index0, documentId, prefix, inv, word);
        WordStep(index, index0, documentId, prefix, word, inv);
      } else {
        OccurrencesSnoc(prefix, word, w);
      }
    }
  }

  lemma WordStep(index: Index, index0: Index, documentId: int, prefix: seq<string>, word: string, inv: real)
    requires Postings(index, word) == PartialPostings(index0, documentId, prefix, inv, word)
    requires documentId !in Postings(index0, word)
    ensures Incremented(index, word, documentId, inv)[word] == PartialPostings(index0, documentId, prefix + [word], inv, word)
  {
    var postings := Postings(index, word);
    var base := Postings(index0, word);
    var n := Occurrences(prefix, word);
    var v := Accumulated(n + 1, inv);
    OccurrencesSnoc(prefix, word, word);
    assert word in prefix + [word];
    assert v == Accumulated(n, inv) + inv;
    if word in prefix {
      assert postings == base + map[documentId := Accumulated(n, inv)];
      assert Incremented(index, word, documentId, inv)[word] == postings[documentId := v];
      UpdateOverUnion(base, documentId, Accumulated(n, inv), v);
    } else {
      OccurrencesAbsent(prefix, word);
      assert postings == base;
      assert Incremented(index, word, documentId, inv)[word] == base[documentId := v];
      assert base[documentId := v] == base + map[documentId := v];
    }
  }

  /** Appending a word counts it once more and no other word. */
  lemma OccurrencesSnoc(prefix: seq<string>, word: string, w: string)
    ensures Occurrences(prefix + [word], w) == Occurrences(prefix, w) + (if w == word then 1 else 0)
  {
    assert multiset(prefix + [word]) == multiset(prefix) + multiset{word};
  }

  lemma OccurrencesAbsent(prefix: seq<string>, word: string)
    requires word !in prefix
    ensures Occurrences(prefix, word) == 0
  {
  }

  lemma UpdateOverUnion(base: map<int, real>, id: int, a: real, v: real)
    ensures (base + map[id := a])[id := v] == base + map[id := v]
  {
  }

  /** The loop of AddDocument computes AddedPostings: adding 1/n once per
      occurrence gives occurrences/n. */
  lemma AddedPostingsFromLoop(index0: Index, documentId: int, words: seq<string>, inv: real, index: Index)
    requires inv == if |words| == 0 then 0.0 else 1.0 / (|words| as real)
    requires PartlyAdded(index, index0, documentId, words[..|words|], inv)
    ensures index == AddedPostings(index0, documentId, words)
  {
    assert words[..|words|] == words;
    var r := AddedPostings(index0, documentId, words);
    forall w | w in index
      ensures index[w] == r[w]
    {
      assert index[w] == PartialPostings(index0, documentId, words, inv, w);
      if w in words {
        AccumulatedQuotient(Occurrences(words, w), |words|);
      }
    }
    assert index.Keys == r.Keys;
  }

  lemma PositiveQuotient(x: real, n: real)
    requires x >= 1.0 && n > 0.0
    ensures x / n > 0.0
  {
  }

  /** Adding a document whose words are indexable keeps the index valid. */
  lemma AddedPostingsValid(index: Index, stored: set<int>, stopWords: set<string>, documentId: int, words: seq<string>)
    requires IndexValid(index, stored, stopWords)
    requires forall w :: w in words ==> w != [] && IsValidWord(w) && w !in stopWords
    ensures IndexValid(AddedPostings(index, documentId, words), stored + {documentId}, stopWords)
  {
    var r := AddedPostings(index, documentId, words);
    forall w, id | w in r && id in r[w]
      ensures id in stored + {documentId} && r[w][id] > 0.0
    {
      if w in words && id == documentId {
        assert Occurrences(words, w) >= 1;
        PositiveQuotient(Occurrences(words, w) as real, |words| as real);
      }
    }
  }

  /** The words kept by SplitIntoWordsNoStop are valid, non-empty and not
      stop words. */
  lemma NewWordsAreIndexable(text: string, stopWords: set<string>)
    requires AllValid(Words(text))
    ensures forall w :: w in NonStop(Words(text), stopWords) ==> w != [] && IsValidWord(w) && w !in stopWords
  {
    WordsNonEmpty(text);
    var tokens := Words(text);
    forall w | w in NonStop(tokens, stopWords)
      ensures w != [] && IsValidWord(w) && w !in stopWords
    {
      var i :| 0 <= i < |tokens| && tokens[i] == w;
    }
  }

  /** The postings AddDocument creates: every word of the document gets
      occurrences / number of words; no other word (a stop word, say) gets a
      posting for it; other documents' frequencies stay as they were. */
  lemma AddedPostingsMeaning(index: Index, documentId: int, words: seq<string>)
    ensures forall w :: w in words ==>
      && w in AddedPostings(index, documentId, words)
      && documentId in AddedPostings(index, documentId, words)[w]
      && AddedPostings(index, documentId, words)[w][documentId] == Occurrences(words, w) as real / |words| as real
    ensures forall w :: w in AddedPostings(index, documentId, words) && documentId in AddedPostings(index, documentId, words)[w] ==>
      w in words || (w in index && documentId in index[w])
    ensures forall d :: d != documentId ==>
      WordFrequencies(AddedPostings(index, documentId, words), d) == WordFrequencies(index, d)
  {
    var r := AddedPostings(index, documentId, words);
    forall d | d != documentId
      ensures WordFrequencies(r, d) == WordFrequencies(index, d)
    {
      assert forall w :: w in r && d in r[w] <==> w in index && d in index[w];
    }
  }

  /** After RemoveDocument the document has no frequencies left, every other
      document keeps exactly the ones it had, and the word keys stay. */
  lemma PurgedFrequencies(index: Index, documentId: int)
    ensures WordFrequencies(Purged(index, documentId), documentId) == map[]
    ensures forall d :: d != documentId ==> WordFrequencies(Purged(index, documentId), d) == WordFrequencies(index, d)
    ensures Purged(index, documentId).Keys == index.Keys
  {
    var p := Purged(index, documentId);
    forall d | d != documentId
      ensures WordFrequencies(p, d) == WordFrequencies(index, d)
    {
      assert forall w :: w in p && d in p[w] <==> w in index && d in index[w];
    }
  }

  lemma PurgedValid(index: Index, stored: set<int>, stopWords: set<string>, documentId: int)
    requires IndexValid(index, stored, stopWords)
    ensures IndexValid(Purged(index, documentId), stored - {documentId}, stopWords)
  {
  }

  /** The model of a SearchServer object (search_server.h:44-49). */
  class SearchServer {
    const stopWords: set<string>
    var wordToDocumentFreqs: Index
    var documents: map<int, DocumentData>
    var documentIds: seq<int>

    ghost predicate Valid()
      reads this
    {
      IdsValid(documentIds, documents) && IndexValid(wordToDocumentFreqs, documents.Keys, stopWords)
    }

    constructor (stopWords: set<string>)
      ensures Valid()
      ensures this.stopWords == stopWords
      ensures wordToDocumentFreqs == map[] && documents == map[] && documentIds == []
    {
      this.stopWords := stopWords;
      wordToDocumentFreqs := map[];
      documents := map[];
      documentIds := [];
    }

    /** GetDocumentCount (search_server.cpp:53-56). */
    function GetDocumentCount(): (n: nat)
      reads this
      requires Valid()
      ensures n == |documentIds|
    {
      IdsCount(documentIds, documents);
      |documents|
    }

    /** begin/end (search_server.cpp:58-66): the stored ids, each once, in
        insertion order. */
    function DocumentIds(): (ids: seq<int>)
      reads this
      requires Valid()
      ensures NoDuplicates(ids)
      ensures forall id :: id in ids <==> id in documents
    {
      documentIds
    }

    /** AddDocument (search_server.cpp:23-39). */
    method AddDocument(documentId: int, document: string, status: DocumentStatus, ratings: seq<int>)
      returns (r: Outcome<SearchError>)
      requires Valid()
      modifies this
      ensures Valid()
      ensures r == if documentId < 0 || documentId in old(documents) then Fail(InvalidDocumentId)
                   else if !AllValid(Words(document)) then Fail(InvalidWord)
                   else Pass
      ensures r.Fail? ==> && wordToDocumentFreqs == old(wordToDocumentFreqs)
                          && documents == old(documents)
                          && documentIds == old(documentIds)
      ensures r.Pass? ==>
        && documents == old(documents)[documentId := DocumentData(AverageRating(ratings), status)]
        && documentIds == old(documentIds) + [documentId]
        && wordToDocumentFreqs ==
             AddedPostings(old(wordToDocumentFreqs), documentId, NonStop(Words(document), stopWords))
    {
      if documentId < 0 || documentId in documents {
        return Fail(InvalidDocumentId);
      }
      var split := SplitIntoWordsNoStop(document, stopWords);
      if split.Err? {
        return Fail(split.error);
      }
      var words := split.value;
      ghost var index0 := wordToDocumentFreqs;
      AddPostings(documentId, words);
      NewWordsAreIndexable(document, stopWords);
      AddedPostingsValid(index0, documents.Keys, stopWords, documentId, words);
      var rating := ComputeAverageRating(ratings);
      IdsValidAppend(documentIds, documents, documentId, DocumentData(rating, status));
      documents := documents[documentId := DocumentData(rating, status)];
      documentIds := documentIds + [documentId];
      return Pass;
    }

    /** The loop of AddDocument (search_server.cpp:33-36): every occurrence of
        a word adds 1/n to the document's frequency for it. */
    method AddPostings(documentId: int, words: seq<string>)
      requires forall w :: w in wordToDocumentFreqs ==> documentId !in wordToDocumentFreqs[w]
      modifies this
      ensures wordToDocumentFreqs == AddedPostings(old(wordToDocumentFreqs), documentId, words)
      ensures documents == old(documents) && documentIds == old(documentIds)
    {
      ghost var index0 := wordToDocumentFreqs;
      // The source divides 1.0 by the word count even when it is 0; the
      // quotient is then never used.
      var invWordCount := if |words| == 0 then 0.0 else 1.0 / (|words| as real);
      var k := 0;
      PartlyAddedStart(index0, documentId, words, invWordCount);
      while k < |words|
        invariant 0 <= k <= |words|
        invariant documents == old(documents) && documentIds == old(documentIds)
        invariant PartlyAdded(wordToDocumentFreqs, index0, documentId, words[..k], invWordCount)
      {
        PartlyAddedStep(wordToDocumentFreqs, index0, documentId, words, k, invWordCount);
        wordToDocumentFreqs := Incremented(wordToDocumentFreqs, words[k], documentId, invWordCount);
        k := k + 1;
      }
      AddedPostingsFromLoop(index0, documentId, words, invWordCount, wordToDocumentFreqs);
    }

    /** GetWordFrequencies (search_server.cpp:199-214): a fresh map of the
        frequencies of every word that has a posting for the document. */
    method GetWordFrequencies(documentId: int) returns (r: map<string, real>)
      ensures r == WordFrequencies(wordToDocumentFreqs, documentId)
    {
      r := map[];
      var remaining := wordToDocumentFreqs.Keys;
      while remaining != {}
        invariant remaining <= wordToDocumentFreqs.Keys
        invariant r == map w | w in wordToDocumentFreqs && w !in remaining && documentId in wordToDocumentFreqs[w] ::
                         wordToDocumentFreqs[w][documentId]
        decreases remaining
      {
        var word :| word in remaining;
        var freqs := wordToDocumentFreqs[word];
        if documentId in freqs {
          r := r[word := freqs[documentId]];
        }
        remaining := remaining - {word};
      }
    }

    /** RemoveDocument (search_server.cpp:216-228), for a stored id; the source
        erases `end()` for an absent one. */
    method RemoveDocument(documentId: int)
      requires Valid() && documentId in documents
      modifies this
      ensures Valid()
      ensures documentIds == EraseFirst(old(documentIds), documentId)
      ensures documents == old(documents) - {documentId}
      ensures wordToDocumentFreqs == Purged(old(wordToDocumentFreqs), documentId)
    {
      IdsValidErase(documentIds, documents, documentId);
      PurgedValid(wordToDocumentFreqs, documents.Keys, stopWords, documentId);
      var i := IndexOf(documentIds, documentId);
      documentIds := documentIds[..i] + documentIds[i + 1..];
      documents := documents - {documentId};
      ghost var index0 := wordToDocumentFreqs;
      var remaining := wordToDocumentFreqs.Keys;
      while remaining != {}
        invariant documentIds == EraseFirst(old(documentIds), documentId)
        invariant documents == old(documents) - {documentId}
        invariant remaining <= wordToDocumentFreqs.Keys
        invariant wordToDocumentFreqs.Keys == index0.Keys
        invariant forall w :: w in wordToDocumentFreqs ==>
          wordToDocumentFreqs[w] == if w in remaining then index0[w] else index0[w] - {documentId}
        decreases remaining
      {
        var word :| word in remaining;
        var freqs := wordToDocumentFreqs[word];
        assert freqs == index0[word];
        if documentId in freqs {
          wordToDocumentFreqs := wordToDocumentFreqs[word := freqs - {documentId}];
        } else {
          assert freqs - {documentId} == freqs;
        }
        assert wordToDocumentFreqs[word] == index0[word] - {documentId};
        remaining := remaining - {word};
      }
    }

    /** The index holds a posting of `w` for the document. */
    predicate Posted(w: string, documentId: int)
      reads this
    {
      w in wordToDocumentFreqs && documentId in wordToDocumentFreqs[w]
    }

    /** MatchDocument (search_server.cpp:68-105): the query's plus words the
        document contains, in sorted order, or none when it contains a minus
        word; and the document's status. */
    method MatchDocument(rawQuery: string, documentId: int) returns (r: Result<(seq<string>, DocumentStatus), SearchError>)
      requires Valid()
      ensures !AllWellFormed(Words(rawQuery)) ==> r == Err(InvalidQuery)
      ensures AllWellFormed(Words(rawQuery)) && documentId !in documents ==> r == Err(OutOfRange)
      ensures AllWellFormed(Words(rawQuery)) && documentId in documents ==>
        && r.Ok?
        && r.value.1 == documents[documentId].status
        && (if exists m :: m in MinusWords(Words(rawQuery), stopWords) && Posted(m, documentId)
            then r.value.0 == []
            else && OrderedStrings.Sorted(r.value.0)
                 && forall w :: w in r.value.0 <==> w in PlusWords(Words(rawQuery), stopWords) && Posted(w, documentId))
    {
      var ok, query := ParseQueryChecked(rawQuery, stopWords);
      if !ok {
        return Err(InvalidQuery);
      }
      var k := 0;
      while k < |query.minusWords|
        invariant 0 <= k <= |query.minusWords|
        invariant forall j :: 0 <= j < k ==> !Posted(query.minusWords[j], documentId)
      {
        var word := query.minusWords[k];
        if word in wordToDocumentFreqs && documentId in wordToDocumentFreqs[word] {
          assert word in MinusWords(Words(rawQuery), stopWords) && Posted(word, documentId);
          if documentId !in documents {
            // A posting names a stored document, so `documents_.at` cannot throw here.
            return Err(OutOfRange);
          }
          return Ok(([], documents[documentId].status));
        }
        k := k + 1;
      }
      assert forall m :: m in MinusWords(Words(rawQuery), stopWords) ==> !Posted(m, documentId) by {
        forall m | m in MinusWords(Words(rawQuery), stopWords) ensures !Posted(m, documentId) {
          assert m in query.minusWords;
          var j :| 0 <= j < |query.minusWords| && query.minusWords[j] == m;
        }
      }
      var matchedWords: seq<string> := [];
      k := 0;
      while k < |query.plusWords|
        invariant 0 <= k <= |query.plusWords|
        invariant OrderedStrings.Sorted(matchedWords)
        invariant forall w :: w in matchedWords <==> w in query.plusWords[..k] && Posted(w, documentId)
        invariant forall x :: x in matchedWords ==> x in query.plusWords[..k]
      {
        var word := query.plusWords[k];
        assert query.plusWords[..k + 1] == query.plusWords[..k] + [word];
        if word in wordToDocumentFreqs && documentId in wordToDocumentFreqs[word] {
          forall x | x in matchedWords ensures OrderedStrings.Less(x, word) {
            var j :| 0 <= j < k && query.plusWords[j] == x;
          }
          matchedWords := matchedWords + [word];
        }
        k := k + 1;
      }
      assert query.plusWords[..k] == query.plusWords;
      if documentId !in documents {
        return Err(OutOfRange);
      }
      return Ok((matchedWords, documents[documentId].status));
    }
  }
}

=== FILE: shapes.dfy ===
/** Shape (shapes.h): a rectangle with a position, a size and an optional
    texture, painted cell by cell into a character image. The image is an
    `array2<char>`, so all its rows are equally wide. */
module Shapes {
  import opened Wrappers
  import opened Textures

  /** ShapeType (shapes.h:7-10). */
  datatype ShapeType = Rectangle | Ellipse

  /** The cell lies in the rectangle of `size` placed at `pos`. */
  predicate Covers(pos: Point, size: Size, r: int, c: int)
  {
    pos.y <= r < pos.y + size.height && pos.x <= c < pos.x + size.width
  }

  /** Draw has visited the cell by the time it reaches row `i`, column `j`
      of the shape, rows first. */
  predicate Visited(pos: Point, width: int, r: int, c: int, i: int, j: int)
  {
    || (pos.y <= r < pos.y + i && pos.x <= c < pos.x + width)
    || (r == pos.y + i && pos.x <= c < pos.x + j)
  }

  class Shape {
    var shapeType: ShapeType
    var position: Point
    var size: Size
    var texture: Option<Texture>

    /** Shape(type) (shapes.h:22-23): at the origin, of size zero, without
        a texture. */
    constructor (shapeType: ShapeType)
      ensures this.shapeType == shapeType
      ensures position == Point(0, 0) && size == Size(0, 0) && texture == None
    {
      this.shapeType := shapeType;
      position := Point(0, 0);
      size := Size(0, 0);
      texture := None;
    }

    /** SetPosition (shapes.h:25-28). */
    method SetPosition(pos: Point)
      modifies this
      ensures position == pos
      ensures shapeType == old(shapeType) && size == old(size) && texture == old(texture)
    {
      position := pos;
    }

    /** SetSize (shapes.h:30-33). */
    method SetSize(newSize: Size)
      modifies this
      ensures size == newSize
      ensures shapeType == old(shapeType) && position == old(position) && texture == old(texture)
    {
      size := newSize;
    }

    /** SetTexture (shapes.h:35-38). */
    method SetTexture(newTexture: Option<Texture>)
      modifies this
      ensures texture == newTexture
      ensures shapeType == old(shapeType) && position == old(position) && size == old(size)
    {
      texture := newTexture;
    }

    /** Draw (shapes.h:45-60): every cell of the image covered by the shape
        takes the texture's colour at the same offset, every other cell keeps
        its colour. The shape type is not consulted: an ellipse is painted as
        its bounding rectangle. The source dereferences the texture without a
        check and counts rows and columns in `size_t` up to the size, so the
        texture must be set and the size not negative. The test before each
        write is the intended one (see GuardIntended below); where the test
        as written reads a row past the last one, this method still paints
        the covered cells. */
    method Draw(image: array2<char>)
      requires texture.Some? && Rectangular(texture.value.image)
      requires size.width >= 0 && size.height >= 0
      modifies image
      ensures forall r, c :: 0 <= r < image.Length0 && 0 <= c < image.Length1 ==>
        image[r, c] == if Covers(position, size, r, c)
          then texture.value.GetPixelColor(Point(c - position.x, r - position.y))
          else old(image[r, c])
    {
      var t := texture.value;
      var i := 0;
      while i < size.height
        invariant 0 <= i <= size.height
        invariant forall r, c :: 0 <= r < image.Length0 && 0 <= c < image.Length1 ==>
          image[r, c] == if Visited(position, size.width, r, c, i, 0)
            then t.GetPixelColor(Point(c - position.x, r - position.y))
            else old(image[r, c])
      {
        var j := 0;
        while j < size.width
          invariant 0 <= j <= size.width
          invariant forall r, c :: 0 <= r < image.Length0 && 0 <= c < image.Length1 ==>
            image[r, c] == if Visited(position, size.width, r, c, i, j)
              then t.GetPixelColor(Point(c - position.x, r - position.y))
              else old(image[r, c])
        {
          var row, col := position.y + i, position.x + j;
          if 0 <= row < image.Length0 && 0 <= col < image.Length1 {
            image[row, col] := t.GetPixelColor(Point(j, i));
          }
          j := j + 1;
        }
        i := i + 1;
      }
    }
  }

  // ----- The guard of the inner loop -----

  /** What the test before each write (shapes.h:51) does for loop row `i`
      and column `j`. */
  datatype GuardOutcome =
    | Write          // both tests pass: the cell is painted
    | Skip           // a test fails: the cell is left alone
    | RowPastEnd     // the row test passes, but row `i` itself does not exist

  /** The row test lets loop row `i` through while `image[i]`, whose width
      the column test reads, lies past the last row. A negative target wraps
      around in `size_t` and fails the row test, so this needs `pos.y < 0`. */
  predicate ReadsPastLastRow(rows: int, pos: Point, i: int)
  {
    0 <= pos.y + i < rows <= i
  }

  /** The test as written (shapes.h:51): the target row is `y + i`, but the
      width compared is that of row `i`. */
  function GuardAsWritten(image: Image, pos: Point, i: nat, j: nat): (g: GuardOutcome)
    ensures g == RowPastEnd <==> ReadsPastLastRow(|image|, pos, i)
    ensures g == Write ==> 0 <= pos.y + i < |image| && i < |image| && 0 <= pos.x + j < |image[i]|
  {
    if !(0 <= pos.y + i < |image|) then Skip
    else if i >= |image| then RowPastEnd
    else if 0 <= pos.x + j < |image[i]| then Write
    else Skip
  }

  /** The test as intended: the target cell exists. */
  predicate GuardIntended(image: Image, pos: Point, i: nat, j: nat)
  {
    0 <= pos.y + i < |image| && 0 <= pos.x + j < |image[pos.y + i]|
  }

  /** In an image whose rows differ in width, the test as written lets a
      write past the end of the target row through: a shape at (1, 1) on
      the rows ".." and "." writes column 1 of the one-character row 1. */
  lemma GuardAsWrittenOverruns()
    ensures var image := ["..", "."];
      && GuardAsWritten(image, Point(1, 1), 0, 0) == Write
      && !GuardIntended(image, Point(1, 1), 0, 0)
      && !(1 < |image[1]|)
  {
  }

  /** Even with equally wide rows, a shape reaching down from above the
      image reads a row that does not exist: on the one-row image "." a
      shape at (0, -1) of height 2 reaches loop row 1, whose target is row
      0, and the column test reads `image[1]`. */
  lemma GuardAsWrittenReadsPastLastRow()
    ensures var image := ["."];
      && Rectangular(image)
      && GuardAsWritten(image, Point(0, -1), 1, 0) == RowPastEnd
      && GuardIntended(image, Point(0, -1), 1, 0)
  {
  }

  /** Draw keeps its reads of `image[i]` inside the image: the shape starts
      at a row that is not negative, or the image has no rows, or the shape
      is no taller than the image, or no taller than the gap above it. */
  predicate DrawStaysInRows(rows: nat, pos: Point, height: nat)
  {
    pos.y >= 0 || rows == 0 || height <= rows || height <= -pos.y
  }

  /** DrawStaysInRows holds exactly when no loop row of a shape of this
      height makes the test as written read past the last row. */
  lemma DrawStaysInRowsIff(rows: nat, pos: Point, height: nat)
    ensures DrawStaysInRows(rows, pos, height) <==>
      forall i :: 0 <= i < height ==> !ReadsPastLastRow(rows, pos, i)
  {
    if !DrawStaysInRows(rows, pos, height) {
      var i := if -pos.y < rows then rows else -pos.y;
      assert 0 <= i < height && ReadsPastLastRow(rows, pos, i);
    }
  }

  /** On an image with equally wide rows, wherever the test as written does
      not read past the last row it agrees with the intended one; and for
      every cell of a shape that stays in the rows, so the cells Draw above
      paints are those the source paints. */
  lemma GuardsAgreeOnRectangles(image: Image, pos: Point, i: nat, j: nat)
    requires Rectangular(image)
    ensures !ReadsPastLastRow(|image|, pos, i) ==>
      (GuardAsWritten(image, pos, i, j) == Write <==> GuardIntended(image, pos, i, j))
    ensures pos.y >= 0 ==> GuardAsWritten(image, pos, i, j) != RowPastEnd
  {
  }
}

=== FILE: simple_vector.dfy ===
/** SimpleVector (simple_vector.h) instantiated at `int`: a heap buffer with a
    size and a capacity. Slots from `size` up to the capacity hold values that
    are not part of the vector. */
module Vectors {
  import opened Wrappers

  datatype VectorError = OutOfRange

  /** The contents after inserting `value` at `pos`. */
  function Inserted(s: seq<int>, pos: nat, value: int): (r: seq<int>)
    requires pos <= |s|
    ensures |r| == |s| + 1
    ensures r[pos] == value
    ensures forall i :: 0 <= i < pos ==> r[i] == s[i]
    ensures forall i :: pos < i < |r| ==> r[i] == s[i - 1]
  {
    s[..pos] + [value] + s[pos..]
  }

  /** The contents after removing the element at `pos`. */
  function Erased(s: seq<int>, pos: nat): (r: seq<int>)
    requires pos < |s|
    ensures |r| == |s| - 1
    ensures forall i :: 0 <= i < pos ==> r[i] == s[i]
    ensures forall i :: pos <= i < |r| ==> r[i] == s[i + 1]
  {
    s[..pos] + s[pos + 1..]
  }

  /** The contents Erase leaves as written: the element at `pos` is bubbled
      to the last position, but the size is kept. */
  function BubbledToEnd(s: seq<int>, pos: nat): (r: seq<int>)
    requires pos < |s|
    ensures |r| == |s|
    ensures r[..|s| - 1] == Erased(s, pos)
    ensures r[|s| - 1] == s[pos]
  {
    s[..pos] + s[pos + 1..] + [s[pos]]
  }

  /** Erasing what was inserted gives back the old contents. */
  lemma EraseUndoesInsert(s: seq<int>, pos: nat, value: int)
    requires pos <= |s|
    ensures Erased(Inserted(s, pos, value), pos) == s
  {
    var r := Erased(Inserted(s, pos, value), pos);
    assert forall i :: 0 <= i < |s| ==> r[i] == s[i];
  }

  /** Bubbling only reorders: no element is lost or gained. */
  lemma BubblePermutes(s: seq<int>, pos: nat)
    requires pos < |s|
    ensures multiset(BubbledToEnd(s, pos)) == multiset(s)
  {
    assert s == s[..pos] + [s[pos]] + s[pos + 1..];
  }

  /** The erase defect: erasing the first of [1, 2, 3] leaves three elements,
      the erased one now last. */
  lemma EraseKeepsErasedElement()
    ensures BubbledToEnd([1, 2, 3], 0) == [2, 3, 1]
    ensures |BubbledToEnd([1, 2, 3], 0)| != |Erased([1, 2, 3], 0)|
  {
  }

  /** The capacity an insertion into a full vector moves to. */
  function GrownCapacity(capacity: nat): (c: nat)
    ensures c > capacity
    ensures capacity == 0 ==> c == 1
    ensures capacity > 0 ==> c == 2 * capacity
  {
    if capacity == 0 then 1 else capacity * 2
  }

  /** The slots the copy loop of Insert's reallocating branch writes as
      written (simple_vector.h:103-114), over loop indices below `n`: index
      `i` writes slot `i + moved`, and at the insertion index first writes the
      value to slot `i` and sets `moved` to 1. */
  function CopyLoopWrites(pos: nat, n: nat): (w: seq<nat>)
    ensures forall k: nat :: k in w <==> k < n || (k == n && pos < n)
    decreases n
  {
    if n == 0 then []
    else
      var i := n - 1;
      CopyLoopWrites(pos, i) + (if i == pos then [i, i + 1] else if pos < i then [i + 1] else [i])
  }

  /** Every slot written lies below `bound`. */
  predicate WritesWithin(w: seq<nat>, bound: nat)
  {
    forall k :: k in w ==> k < bound
  }

  /** The insert defect: the loop runs up to the new size, one more than the
      old, so it writes slot `size + 1`. That lies inside the doubled buffer
      only from size 2 on; the second PushBack onto an empty vector (size 1,
      capacity 1, new capacity 2) writes slot 2. */
  lemma ReallocCopyOverruns(size: nat, pos: nat)
    requires 0 < size && pos <= size
    ensures size + 1 in CopyLoopWrites(pos, size + 1)
    ensures WritesWithin(CopyLoopWrites(pos, size + 1), GrownCapacity(size)) <==> size >= 2
  {
  }

  class SimpleVector {
    var items: array<int>
    var size: nat
    var capacity: nat

    ghost predicate Valid()
      reads this
    {
      capacity == items.Length && size <= capacity
    }

    /** The elements of the vector, front first. */
    function Contents(): (s: seq<int>)
      reads this, items
      requires Valid()
      ensures |s| == size
    {
      items[..size]
    }

    /** SimpleVector() (simple_vector.h:23). */
    constructor ()
      ensures Valid() && fresh(items)
      ensures size == 0 && capacity == 0
    {
      items := new int[0];
      size := 0;
      capacity := 0;
    }

    /** SimpleVector(size, value) (simple_vector.h:29-40). SimpleVector(size)
        (simple_vector.h:25-27) is this with value 0. */
    constructor Filled(n: nat, value: int)
      ensures Valid() && fresh(items)
      ensures size == n && capacity == n
      ensures forall i :: 0 <= i < n ==> items[i] == value
    {
      size := n;
      capacity := n;
      var a := new int[n];
      var i := 0;
      while i != n
        invariant 0 <= i <= n
        invariant forall j :: 0 <= j < i ==> a[j] == value
      {
        a[i] := value;
        i := i + 1;
      }
      items := a;
    }

    /** SimpleVector(initializer_list) (simple_vector.h:42-52); the copy
        constructor (simple_vector.h:54-56) is this with the other vector's
        contents. */
    constructor FromSeq(init: seq<int>)
      ensures Valid() && fresh(items)
      ensures size == |init| && capacity == |init|
      ensures Contents() == init
    {
      size := |init|;
      capacity := |init|;
      var a := new int[|init|];
      var index := 0;
      while index != |init|
        invariant 0 <= index <= |init|
        invariant a[..index] == init[..index]
      {
        a[index] := init[index];
        index := index + 1;
      }
      items := a;
    }

    /** GetSize (simple_vector.h:155-160): the number of elements. */
    function GetSize(): (n: nat)
      reads this, items
      requires Valid()
      ensures n == |Contents()| && n <= items.Length
    {
      size
    }

    /** GetCapacity (simple_vector.h:162-167): the length of the buffer,
        never less than the number of elements. */
    function GetCapacity(): (n: nat)
      reads this, items
      requires Valid()
      ensures n == items.Length && |Contents()| <= n
    {
      capacity
    }

    /** IsEmpty (simple_vector.h:169-173). */
    function IsEmpty(): (b: bool)
      reads this, items
      requires Valid()
      ensures b <==> Contents() == []
    {
      size == 0
    }

    /** operator[] (simple_vector.h:175-187): no bounds check beyond the
        buffer itself. */
    function Get(index: nat): (v: int)
      reads this, items
      requires Valid() && index < capacity
      ensures index < size ==> v == Contents()[index]
    {
      items[index]
    }

    method Set(index: nat, value: int)
      requires Valid() && index < capacity
      modifies items
      ensures Valid()
      ensures items[..] == old(items[..])[index := value]
    {
      items[index] := value;
    }

    /** At (simple_vector.h:189-213): out_of_range exactly when the index is
        not below the size. */
    function At(index: nat): (r: Result<int, VectorError>)
      reads this, items
      requires Valid()
      ensures r.Err? <==> index >= size
      ensures r.Err? ==> r.error == OutOfRange
      ensures r.Ok? ==> r.value == Contents()[index]
    {
      if index >= size then Err(OutOfRange) else Ok(items[index])
    }

    /** Insert (simple_vector.h:78-125). With room left the tail is shifted
        right by adjacent swaps; a full vector moves to a buffer of twice the
        capacity (1 for capacity 0). Returns the index of the new element. */
    method Insert(pos: nat, value: int) returns (inserted: nat)
      requires Valid() && pos <= size
      modifies this, items
      ensures Valid()
      ensures inserted == pos
      ensures Contents() == Inserted(old(Contents()), pos, value)
      ensures old(size) < old(capacity) ==> capacity == old(capacity) && items == old(items)
      ensures old(size) == old(capacity) ==> capacity == GrownCapacity(old(capacity)) && fresh(items)
    {
      if size + 1 <= capacity {
        ShiftIn(pos, value);
        size := size + 1;
      } else {
        var newCapacity := GrownCapacity(capacity);
        var copy := new int[newCapacity](_ => 0);
        if size != 0 {
          CopyAround(copy, pos, value);
        } else {
          copy[0] := value;
        }
        items := copy;
        size := size + 1;
        capacity := newCapacity;
      }
      inserted := pos;
    }

    /** The in-place branch of Insert (simple_vector.h:82-93): the value is
        written behind the last element and swapped down to `pos`. */
    method ShiftIn(pos: nat, value: int)
      requires Valid() && pos <= size < capacity
      modifies items
      ensures items[..size + 1] == Inserted(old(items[..size]), pos, value)
    {
      ghost var s0 := items[..size];
      items[size] := value;
      var i := size;
      while i != pos
        invariant pos <= i <= size
        invariant items[i] == value
        invariant forall j :: 0 <= j < i ==> items[j] == s0[j]
        invariant forall j :: i < j <= size ==> items[j] == s0[j - 1]
        decreases i
      {
        items[i], items[i - 1] := items[i - 1], items[i];
        i := i - 1;
      }
      ghost var r := Inserted(s0, pos, value);
      assert forall j :: 0 <= j < size + 1 ==> items[..size + 1][j] == r[j];
    }

    /** The copy loop of the reallocating branch of Insert
        (simple_vector.h:103-114), over the source indices that lie inside
        the old buffer. */
    method CopyAround(copy: array<int>, pos: nat, value: int)
      requires Valid() && pos <= size && size < copy.Length && copy != items
      modifies copy
      ensures copy[..size + 1] == Inserted(items[..size], pos, value)
    {
      var moved := 0;
      var i := 0;
      while i != size
        invariant 0 <= i <= size
        invariant moved == if pos < i then 1 else 0
        invariant forall j :: 0 <= j < i + moved ==> copy[j] == Inserted(items[..size], pos, value)[j]
      {
        if i == pos {
          copy[i] := value;
          moved := moved + 1;
        }
        copy[i + moved] := items[i];
        i := i + 1;
      }
      if pos == size {
        copy[size] := value;
      }
      assert forall j :: 0 <= j < size + 1 ==> copy[j] == Inserted(items[..size], pos, value)[j];
    }

    /** PushBack (simple_vector.h:72-76). */
    method PushBack(item: int)
      requires Valid()
      modifies this, items
      ensures Valid()
      ensures Contents() == old(Contents()) + [item]
      ensures old(size) < old(capacity) ==> capacity == old(capacity)
      ensures old(size) == old(capacity) ==> capacity == GrownCapacity(old(capacity))
    {
      var _ := Insert(size, item);
    }

    /** PopBack (simple_vector.h:127-134): a no-op on an empty vector. */
    method PopBack()
      requires Valid()
      modifies this
      ensures Valid()
      ensures items == old(items) && capacity == old(capacity)
      ensures old(size) == 0 ==> size == 0
      ensures old(size) > 0 ==> Contents() == old(Contents())[..old(size) - 1]
    {
      if size != 0 {
        size := size - 1;
      }
    }

    /** Erase as written (simple_vector.h:136-146): the erased element is
        swapped step by step to the last position and the size is kept. */
    method Erase(pos: nat) returns (next: nat)
      requires Valid() && pos < size
      modifies items
      ensures Valid()
      ensures next == pos
      ensures Contents() == BubbledToEnd(old(Contents()), pos)
    {
      ghost var s0 := items[..size];
      var erasedIndex := pos;
      while erasedIndex != size - 1
        invariant pos <= erasedIndex <= size - 1
        invariant items[erasedIndex] == s0[pos]
        invariant items[..erasedIndex] == s0[..pos] + s0[pos + 1..erasedIndex + 1]
        invariant items[erasedIndex + 1..size] == s0[erasedIndex + 1..]
        decreases size - erasedIndex
      {
        items[erasedIndex], items[erasedIndex + 1] := items[erasedIndex + 1], items[erasedIndex];
        erasedIndex := erasedIndex + 1;
        assert items[..erasedIndex] == items[..erasedIndex - 1] + [items[erasedIndex - 1]];
      }
      assert items[..size] == items[..size - 1] + [items[size - 1]];
      next := pos;
    }

    /** Erase as its comment promises: the bubbling of Erase followed by the
        size decrement the source omits. */
    method EraseAndShrink(pos: nat) returns (next: nat)
      requires Valid() && pos < size
      modifies this, items
      ensures Valid()
      ensures next == pos && capacity == old(capacity) && items == old(items)
      ensures Contents() == Erased(old(Contents()), pos)
    {
      next := Erase(pos);
      size := size - 1;
    }

    /** swap (simple_vector.h:148-153). */
    method Swap(other: SimpleVector)
      requires Valid() && other.Valid()
      modifies this, other
      ensures Valid() && other.Valid()
      ensures items == old(other.items) && other.items == old(items)
      ensures size == old(other.size) && other.size == old(size)
      ensures capacity == old(other.capacity) && other.capacity == old(capacity)
    {
      items, other.items := other.items, items;
      size, other.size := other.size, size;
      capacity, other.capacity := other.capacity, capacity;
    }

    /** Copy assignment (simple_vector.h:58-70): self-assignment changes
        nothing; otherwise this takes a fresh copy whose capacity is the
        other vector's size. */
    method Assign(rhs: SimpleVector)
      requires Valid() && rhs.Valid()
      modifies this
      ensures Valid()
      ensures rhs == this ==> items == old(items) && size == old(size) && capacity == old(capacity)
      ensures rhs != this ==> Contents() == old(rhs.Contents()) && capacity == old(rhs.size) && fresh(items)
    {
      if rhs == this {
        return;
      }
      var copy := new SimpleVector.FromSeq(rhs.items[..rhs.size]);
      items, size, capacity := copy.items, copy.size, copy.capacity;
    }

    /** Resize (simple_vector.h:221-243): growing moves to a buffer of exactly
        the new size with the new slots zero; shrinking only lowers the size. */
    method Resize(newSize: nat)
      requires Valid()
      modifies this
      ensures Valid()
      ensures newSize <= old(size) ==> items == old(items) && capacity == old(capacity)
      ensures newSize > old(size) ==> capacity == newSize && fresh(items)
      ensures Contents() == if newSize <= old(size) then old(Contents())[..newSize]
                            else old(Contents()) + Zeros(newSize - old(size))
    {
      if size < newSize {
        var copy := new int[newSize](_ => 0);
        var i := 0;
        while i != size
          modifies copy
          invariant 0 <= i <= size
          invariant copy[..i] == items[..i]
          invariant forall j :: i <= j < newSize ==> copy[j] == 0
        {
          copy[i] := items[i];
          i := i + 1;
        }
        assert copy[..newSize] == items[..size] + Zeros(newSize - size) by {
          assert copy[..newSize] == copy[..size] + copy[size..newSize];
        }
        items := copy;
        size := newSize;
        capacity := newSize;
      } else if size > newSize {
        size := newSize;
      }
    }

    /** Clear (simple_vector.h:215-219). */
    method Clear()
      requires Valid()
      modifies this
      ensures Valid()
      ensures Contents() == [] && capacity == old(capacity) && items == old(items)
    {
      Resize(0);
    }
  }

  /** `n` default-constructed elements. */
  function Zeros(n: nat): (z: seq<int>)
    ensures |z| == n && forall i :: 0 <= i < n ==> z[i] == 0
  {
    seq(n, _ => 0)
  }

  /** operator== (simple_vector.h:295-298): std::equal over both ranges,
      element by element. */
  function Equal(lhs: seq<int>, rhs: seq<int>): (b: bool)
    ensures b <==> lhs == rhs
  {
    if lhs == [] || rhs == [] then lhs == [] && rhs == []
    else lhs[0] == rhs[0] && Equal(lhs[1..], rhs[1..])
  }

  /** operator< (simple_vector.h:305-308): std::lexicographical_compare. */
  predicate Less(lhs: seq<int>, rhs: seq<int>)
  {
    if rhs == [] then false
    else if lhs == [] then true
    else if lhs[0] != rhs[0] then lhs[0] < rhs[0]
    else Less(lhs[1..], rhs[1..])
  }

  /** The same fact as OrderedStrings.LessIrreflexive, for the elements of
      this vector. */
  lemma {:induction false} LessIrreflexive(a: seq<int>)
    ensures !Less(a, a)
  {
    if a != [] {
      LessIrreflexive(a[1..]);
    }
  }

  /** Exactly one of `<`, `==` and `>` holds. */
  lemma {:induction false} LessTrichotomy(a: seq<int>, b: seq<int>)
    ensures Less(a, b) || a == b || Less(b, a)
    ensures !(Less(a, b) && Less(b, a))
    ensures a == b ==> !Less(a, b)
  {
    LessIrreflexive(a);
    if a != [] && b != [] && a[0] == b[0] {
      LessTrichotomy(a[1..], b[1..]);
      if a[1..] == b[1..] {
        assert a == [a[0]] + a[1..] && b == [b[0]] + b[1..];
      }
    }
  }

  lemma {:induction false} LessTransitive(a: seq<int>, b: seq<int>, c: seq<int>)
    requires Less(a, b) && Less(b, c)
    ensures Less(a, c)
  {
    if a != [] && a[0] == b[0] && b[0] == c[0] {
      LessTransitive(a[1..], b[1..], c[1..]);
    }
  }

  /** operator!= (simple_vector.h:300-303). */
  function NotEqual(lhs: seq<int>, rhs: seq<int>): (b: bool)
    ensures b <==> lhs != rhs
  {
    !Equal(lhs, rhs)
  }

  /** operator<= as written (simple_vector.h:310-313): its second disjunct
      compares the left operand with itself. */
  function LessEqAsWritten(lhs: seq<int>, rhs: seq<int>): (b: bool)
  {
    Less(lhs, rhs) || Equal(lhs, lhs)
  }

  /** The defect: `<=` as written holds for every pair, e.g. [2] <= [1]. */
  lemma LessEqAsWrittenAlwaysHolds(lhs: seq<int>, rhs: seq<int>)
    ensures LessEqAsWritten(lhs, rhs)
    ensures LessEqAsWritten([2], [1]) && Less([1], [2])
  {
  }

  /** operator<= as intended: less or equal. */
  function LessEq(lhs: seq<int>, rhs: seq<int>): (b: bool)
  {
    Less(lhs, rhs) || Equal(lhs, rhs)
  }

  /** `<=` is the complement of `>`. */
  lemma LessEqIsNotGreater(lhs: seq<int>, rhs: seq<int>)
    ensures LessEq(lhs, rhs) <==> !Greater(lhs, rhs)
  {
    LessTrichotomy(lhs, rhs);
  }

  /** operator> (simple_vector.h:315-318). */
  function Greater(lhs: seq<int>, rhs: seq<int>): (b: bool)
    ensures b <==> !Less(lhs, rhs) && lhs != rhs
  {
    LessTrichotomy(lhs, rhs);
    Less(rhs, lhs)
  }

  /** operator>= (simple_vector.h:320-323). */
  function GreaterEq(lhs: seq<int>, rhs: seq<int>): (b: bool)
    ensures b <==> !Less(lhs, rhs)
  {
    LessTrichotomy(lhs, rhs);
    Less(rhs, lhs) || Equal(rhs, lhs)
  }
}

=== FILE: stack_vector.dfy ===
/** StackVector<int, N> (stack_vector.h): a fixed array of N slots used as a
    stack, with the number of occupied slots in `size`. The slots of a new
    stack keep whatever the array held; here that is 0. */
module Stacks {
  import opened Wrappers

  datatype StackError = InvalidArgument | Overflow | Underflow

  class StackVector {
    const capacity: nat
    const items: array<int>
    var size: nat

    ghost predicate Valid()
      reads this
    {
      items.Length == capacity && size <= capacity
    }

    /** The occupied slots, bottom first; the same view as
        Vectors.SimpleVector.Contents, over this fixed array. */
    function Contents(): (s: seq<int>)
      reads this, items
      requires Valid()
      ensures |s| == size
    {
      items[..size]
    }

    /** The constructor once its size is known to fit (stack_vector.h:104). */
    constructor (capacity: nat, aSize: nat)
      requires aSize <= capacity
      ensures Valid() && fresh(items)
      ensures this.capacity == capacity && size == aSize
    {
      this.capacity := capacity;
      items := new int[capacity](_ => 0);
      size := aSize;
    }

    /** Size (stack_vector.h:140-143). */
    function Size(): (n: nat)
      reads this, items
      requires Valid()
      ensures n == |Contents()| && n <= capacity
    {
      size
    }

    /** Capacity (stack_vector.h:145-148): always N. */
    function Capacity(): (n: nat)
      reads this
      requires Valid()
      ensures n == items.Length
    {
      capacity
    }

    /** operator[] (stack_vector.h:112-120): any slot below N, occupied or
        not; the same unchecked read as Vectors.SimpleVector.Get. */
    function Get(index: nat): (v: int)
      reads this, items
      requires Valid() && index < capacity
      ensures index < size ==> v == Contents()[index]
    {
      items[index]
    }

    method Set(index: nat, value: int)
      requires Valid() && index < capacity
      modifies items
      ensures Valid() && size == old(size)
      ensures items[..] == old(items[..])[index := value]
    {
      items[index] := value;
    }

    /** PushBack (stack_vector.h:150-158): overflow_error on a full stack,
        which then stays as it was. */
    method PushBack(value: int) returns (r: Outcome<StackError>)
      requires Valid()
      modifies this, items
      ensures Valid()
      ensures r == if old(size) == capacity then Fail(Overflow) else Pass
      ensures r.Fail? ==> size == old(size) && items[..] == old(items[..])
      ensures r.Pass? ==> size == old(size) + 1 && items[..] == old(items[..])[old(size) := value]
    {
      if size == capacity {
        return Fail(Overflow);
      }
      items[size] := value;
      size := size + 1;
      return Pass;
    }

    /** PopBack (stack_vector.h:160-168): underflow_error on an empty stack;
        otherwise the top value, which leaves the stack. */
    method PopBack() returns (r: Result<int, StackError>)
      requires Valid()
      modifies this
      ensures Valid()
      ensures r.Err? <==> old(size) == 0
      ensures r.Err? ==> r.error == Underflow && size == old(size)
      ensures r.Ok? ==> size == old(size) - 1 && r.value == items[size]
      ensures r.Ok? ==> old(Contents()) == Contents() + [r.value]
    {
      if size == 0 {
        return Err(Underflow);
      }
      size := size - 1;
      assert items[..size + 1] == items[..size] + [items[size]];
      return Ok(items[size]);
    }
  }

  /** StackVector(a_size) (stack_vector.h:104-110): invalid_argument when the
      requested size exceeds the capacity. */
  method Create(capacity: nat, aSize: nat) returns (r: Result<StackVector, StackError>)
    ensures r.Err? <==> aSize > capacity
    ensures r.Err? ==> r.error == InvalidArgument
    ensures r.Ok? ==> fresh(r.value) && fresh(r.value.items) && r.value.Valid()
    ensures r.Ok? ==> r.value.capacity == capacity && r.value.size == aSize
  {
    if aSize > capacity {
      return Err(InvalidArgument);
    }
    var v := new StackVector(capacity, aSize);
    return Ok(v);
  }

  /** Pushing and then popping gives back the pushed value and the old
      contents, whenever the push did not overflow. */
  method PushThenPop(stack: StackVector, value: int) returns (popped: Result<int, StackError>)
    requires stack.Valid() && stack.size < stack.capacity
    modifies stack, stack.items
    ensures stack.Valid()
    ensures popped == Ok(value)
    ensures stack.size == old(stack.size) && stack.Contents() == old(stack.Contents())
  {
    var pushed := stack.PushBack(value);
    popped := stack.PopBack();
  }
}

=== FILE: string_processing.dfy ===
/** The tokenizer of the search server (string_processing.cpp) and the
    set-building helper declared beside it (string_processing.h). */
module StringProcessing {

  /** Length of the longest prefix of `s` that holds no space. */
  function NonSpaceRun(s: string): (n: nat)
    ensures n <= |s|
    ensures forall i :: 0 <= i < n ==> s[i] != ' '
    ensures n < |s| ==> s[n] == ' '
  {
    if s == [] || s[0] == ' ' then 0 else 1 + NonSpaceRun(s[1..])
  }

  /** Reference definition of tokenization: skip a space, or cut off a maximal
      run of non-space characters as the next word. */
  function Words(s: string): seq<string>
    decreases |s|
  {
    if s == [] then []
    else if s[0] == ' ' then Words(s[1..])
    else
      var n := NonSpaceRun(s);
      [s[..n]] + Words(s[n..])
  }

  /** `s` with every space removed, the rest in order. */
  function RemoveSpaces(s: string): string
  {
    if s == [] then [] else (if s[0] == ' ' then [] else [s[0]]) + RemoveSpaces(s[1..])
  }

  /** Concatenation of a list of words. */
  function Concat(ws: seq<string>): string
  {
    if ws == [] then [] else ws[0] + Concat(ws[1..])
  }

  /** A non-empty space-free word followed by a space (or by nothing) is cut
      off as one word. */
  lemma WordsGlue(w: string, rest: string)
    requires w != [] && forall i :: 0 <= i < |w| ==> w[i] != ' '
    requires rest == [] || rest[0] == ' '
    ensures Words(w + rest) == [w] + Words(rest)
  {
    var s := w + rest;
    var n := NonSpaceRun(s);
    assert forall i :: 0 <= i < |w| ==> s[i] == w[i];
    assert rest != [] ==> s[|w|] == rest[0];
    assert n == |w|;
    assert s[..n] == w && s[n..] == rest;
  }

  /** One step of the tokenizer loop: a space flushes a pending word, any other
      character extends it. */
  lemma SplitStep(word: string, rest: string)
    requires rest != []
    requires forall i :: 0 <= i < |word| ==> word[i] != ' '
    ensures rest[0] == ' ' && word != [] ==> Words(word + rest) == [word] + Words(rest[1..])
    ensures rest[0] == ' ' && word == [] ==> Words(word + rest) == Words(rest[1..])
    ensures rest[0] != ' ' ==> word + rest == (word + [rest[0]]) + rest[1..]
  {
    if rest[0] == ' ' {
      if word != [] {
        WordsGlue(word, rest);
      } else {
        assert word + rest == rest;
      }
    }
  }

  /** What is left in the buffer at the end is one more word, if any. */
  lemma SplitEnd(word: string)
    requires forall i :: 0 <= i < |word| ==> word[i] != ' '
    ensures Words(word) == if word == [] then [] else [word]
  {
    if word != [] {
      WordsGlue(word, []);
      assert word + [] == word;
    }
  }

  /** SplitIntoWords (string_processing.cpp:7-32): the character loop that
      fills a `word` buffer and flushes it at every space and at the end. */
  method SplitIntoWords(text: string) returns (words: seq<string>)
    ensures words == Words(text)
  {
    words := [];
    var word: string := [];
    var k := 0;
    assert word + text[k..] == text;
    while k < |text|
      invariant 0 <= k <= |text|
      invariant forall i :: 0 <= i < |word| ==> word[i] != ' '
      invariant Words(text) == words + Words(word + text[k..])
    {
      var c := text[k];
      ghost var rest := text[k..];
      ghost var next := text[k + 1..];
      assert rest[0] == c && rest[1..] == next;
      if c == ' ' {
        if word != [] {
          assert Words(word + rest) == [word] + Words(next) by {
            SplitStep(word, rest);
          }
          words := words + [word];
          word := [];
        } else {
          assert Words(word + rest) == Words(next) by {
            SplitStep(word, rest);
          }
        }
        assert word + next == next;
      } else {
        assert word + rest == (word + [c]) + next by {
          SplitStep(word, rest);
        }
        word := word + [c];
      }
      assert Words(text) == words + Words(word + next);
      k := k + 1;
    }
    assert word + text[k..] == word;
    SplitEnd(word);
    if word != [] {
      words := words + [word];
    }
  }

  /** Every produced word is non-empty (string_processing.cpp:15-18, 26-29). */
  lemma {:induction false} WordsNonEmpty(s: string)
    ensures forall i :: 0 <= i < |Words(s)| ==> Words(s)[i] != []
    decreases |s|
  {
    if s == [] {
    } else if s[0] == ' ' {
      WordsNonEmpty(s[1..]);
    } else {
      WordsNonEmpty(s[NonSpaceRun(s)..]);
    }
  }

  /** No produced word holds a space (string_processing.cpp:13-24). */
  lemma {:induction false} WordsHaveNoSpace(s: string)
    ensures forall i, j :: 0 <= i < |Words(s)| && 0 <= j < |Words(s)[i]| ==> Words(s)[i][j] != ' '
    decreases |s|
  {
    if s == [] {
    } else if s[0] == ' ' {
      WordsHaveNoSpace(s[1..]);
    } else {
      var n := NonSpaceRun(s);
      WordsHaveNoSpace(s[n..]);
      var ws := Words(s);
      forall i, j | 0 <= i < |ws| && 0 <= j < |ws[i]| ensures ws[i][j] != ' ' {
        if i > 0 {
          assert ws[i] == Words(s[n..])[i - 1];
        }
      }
    }
  }

  lemma {:induction false} RemoveSpacesAppend(a: string, b: string)
    ensures RemoveSpaces(a + b) == RemoveSpaces(a) + RemoveSpaces(b)
    decreases |a|
  {
    if a == [] {
      assert a + b == b;
    } else {
      assert (a + b)[1..] == a[1..] + b;
      RemoveSpacesAppend(a[1..], b);
    }
  }

  lemma {:induction false} RemoveSpacesOfSpaceFree(a: string)
    requires forall i :: 0 <= i < |a| ==> a[i] != ' '
    ensures RemoveSpaces(a) == a
    decreases |a|
  {
    if a != [] {
      RemoveSpacesOfSpaceFree(a[1..]);
    }
  }

  /** The words, concatenated, are the input with its spaces removed, in the
      original order (string_processing.cpp:11-31). */
  lemma {:induction false} WordsConcat(s: string)
    ensures Concat(Words(s)) == RemoveSpaces(s)
    decreases |s|
  {
    if s == [] {
    } else if s[0] == ' ' {
      WordsConcat(s[1..]);
    } else {
      var n := NonSpaceRun(s);
      WordsConcat(s[n..]);
      assert s == s[..n] + s[n..];
      RemoveSpacesAppend(s[..n], s[n..]);
      RemoveSpacesOfSpaceFree(s[..n]);
      assert Words(s)[1..] == Words(s[n..]);
    }
  }

  /** Empty input, or input made only of spaces, yields no word
      (string_processing.cpp:7-32). */
  lemma {:induction false} WordsOfBlank(s: string)
    requires forall i :: 0 <= i < |s| ==> s[i] == ' '
    ensures Words(s) == []
    decreases |s|
  {
    if s != [] {
      WordsOfBlank(s[1..]);
    }
  }

  /** Non-empty input without a space is its own single word. */
  lemma WordsOfSingle(s: string)
    requires s != [] && forall i :: 0 <= i < |s| ==> s[i] != ' '
    ensures Words(s) == [s]
  {
    WordsGlue(s, []);
    assert s + [] == s;
  }

  /** MakeUniqueNonEmptyStrings (string_processing.h:9-22): the set of the
      non-empty strings of the container; duplicates collapse, "" is dropped. */
  method MakeUniqueNonEmptyStrings(strings: seq<string>) returns (r: set<string>)
    ensures r == set s | s in strings && s != []
    ensures "" !in r
    ensures strings == [] ==> r == {}
  {
    r := {};
    var k := 0;
    while k < |strings|
      invariant 0 <= k <= |strings|
      invariant r == set s | s in strings[..k] && s != []
    {
      assert strings[..k + 1] == strings[..k] + [strings[k]];
      if strings[k] != [] {
        r := r + {strings[k]};
      }
      k := k + 1;
    }
    assert strings[..k] == strings;
  }
}

=== FILE: texture.dfy ===
/** Texture (texture.h): an immutable character image read through
    bounds-checked lookups; anything outside it has the colour '.'. The
    `Point`, `Size` and `Image` types come from common.h, which is not part of
    this model: points and sizes are pairs of `int`, an image is its rows. */
module Textures {

  datatype Point = Point(x: int, y: int)

  datatype Size = Size(width: int, height: int)

  type Image = seq<string>

  /** The colour of a pixel outside the texture (texture.h:8). */
  const DefaultColor: char := '.'

  /** All rows as wide as the first. */
  predicate Rectangular(image: Image)
  {
    forall i :: 0 <= i < |image| ==> |image[i]| == |image[0]|
  }

  /** The point lies inside a rectangle of this size at the origin. */
  predicate Inside(size: Size, p: Point)
  {
    0 <= p.x < size.width && 0 <= p.y < size.height
  }

  /** Texture (texture.h:5-45): built from an image and never changed. */
  datatype Texture = Texture(image: Image) {

    /** GetSize (texture.h:15-18): the width of the first row, 0 for an
        empty image, and the number of rows. */
    function GetSize(): (s: Size)
      ensures s.width >= 0 && s.height == |image|
      ensures image == [] ==> s == Size(0, 0)
      ensures image != [] ==> s.width == |image[0]|
    {
      Size(if |image| > 0 then |image[0]| else 0, |image|)
    }

    /** GetPixelColor (texture.h:20-41). The source checks `x` against the
        first row only, so the rows must be equally wide for the lookup to
        stay inside the row it reads. */
    function GetPixelColor(p: Point): (c: char)
      requires Rectangular(image)
      ensures c != DefaultColor ==> 0 <= p.y < |image| && 0 <= p.x < |image[p.y]| && c == image[p.y][p.x]
    {
      if image == [] || p.x >= |image[0]| || p.y >= |image| || p.x < 0 || p.y < 0 then
        DefaultColor
      else
        image[p.y][p.x]
    }
  }

  /** A point inside the size the texture reports has the image's colour,
      and every other point the default colour. */
  lemma PixelInSize(t: Texture, p: Point)
    requires Rectangular(t.image)
    ensures Inside(t.GetSize(), p) ==> t.GetPixelColor(p) == t.image[p.y][p.x]
    ensures !Inside(t.GetSize(), p) ==> t.GetPixelColor(p) == DefaultColor
  {
  }

  /** A texture built from an empty image is blank everywhere. */
  lemma EmptyTextureBlank(p: Point)
    ensures Texture([]).GetSize() == Size(0, 0)
    ensures Texture([]).GetPixelColor(p) == DefaultColor
  {
  }
}

=== FILE: transport_catalogue.dfy ===
/** The command front end and the containers of the transport catalogue
    (transport_catalogue.cpp): a command line is split at its first space
    into a keyword and its metadata, the keyword selects a database or an
    output command, and the catalogue keeps stops, buses and routes with the
    maps that link them. */
module Transport {
  import opened Wrappers

  /** The database commands (transport_catalogue.h:12-17). */
  datatype DBCommand = AddBus | AddStop | AddRoute

  /** The output commands the parser produces (transport_catalogue.cpp:95-101). */
  datatype OutputCommand = PrintBus | PrintStop

  /** The exceptions of TransportCatalogue that the modelled operations throw,
      plus `std::out_of_range` from `vector::at` and `map::at`. */
  datatype CatalogueError = EmptyCommandMetadata | InvalidCommandMetadata | OutOfRange

  /** Geographic coordinates; geo.h is not part of this model. */
  datatype Coordinates = Coordinates(lat: real, lng: real)

  datatype Stop = Stop(id: nat, name: string, coordinates: Option<Coordinates>)

  datatype Bus = Bus(id: nat)

  /** A route as transport_catalogue.cpp uses it: the stop indices in order. */
  type Route = seq<nat>

  // ----- Splitting a command -----

  /** The position of the first space, or |s| when there is none. */
  function SpaceIndex(s: string): (k: nat)
    ensures k <= |s|
    ensures k < |s| ==> s[k] == ' '
    ensures forall i :: 0 <= i < k ==> s[i] != ' '
  {
    if s == [] then 0
    else if s[0] == ' ' then 0
    else 1 + SpaceIndex(s[1..])
  }

  /** The first space is the first position holding a space. */
  lemma {:induction false} SpaceIndexAt(s: string, k: nat)
    requires k <= |s| && (k < |s| ==> s[k] == ' ')
    requires forall i :: 0 <= i < k ==> s[i] != ' '
    ensures SpaceIndex(s) == k
  {
    if s != [] && s[0] != ' ' {
      assert k > 0;
      assert forall i :: 0 <= i < k - 1 ==> s[1..][i] == s[i + 1];
      SpaceIndexAt(s[1..], k - 1);
    }
  }

  /** The result of DivideCommandByCodeAndValue (transport_catalogue.cpp:131-147):
      the text before the first space and the text after it; two empty
      strings when there is no space. */
  function Divide(src: string): (r: (string, string))
    ensures |r.0| + |r.1| < |src| || r == ([], [])
  {
    var k := SpaceIndex(src);
    if k < |src| then (src[..k], src[k + 1..]) else ([], [])
  }

  /** Either the keyword, a space and the metadata make up the command, the
      keyword holding no space, or the command holds no space and both parts
      are empty. */
  lemma DivideSplits(src: string)
    ensures var (code, meta) := Divide(src);
      || (' ' !in code && src == code + [' '] + meta)
      || (' ' !in src && code == [] && meta == [])
  {
    var k := SpaceIndex(src);
    if k < |src| {
      assert src == src[..k] + [' '] + src[k + 1..];
      assert forall i :: 0 <= i < k ==> src[..k][i] == src[i];
    } else {
      assert forall i :: 0 <= i < |src| ==> src[i] != ' ';
    }
  }

  /** Joining a space-free keyword and any metadata with a space and
      dividing again gives both back. */
  lemma DivideJoined(code: string, meta: string)
    requires ' ' !in code
    ensures Divide(code + [' '] + meta) == (code, meta)
  {
    var s := code + [' '] + meta;
    assert forall i :: 0 <= i < |code| ==> s[i] == code[i];
    SpaceIndexAt(s, |code|);
    assert s[..|code|] == code && s[|code| + 1..] == meta;
  }

  /** DivideCommandByCodeAndValue (transport_catalogue.cpp:131-147): scans
      for the first space and stops there. */
  method DivideCommandByCodeAndValue(src: string) returns (code: string, meta: string)
    ensures (code, meta) == Divide(src)
  {
    code, meta := [], [];
    var k := 0;
    while k < |src|
      invariant 0 <= k <= |src|
      invariant forall i :: 0 <= i < k ==> src[i] != ' '
    {
      if src[k] == ' ' {
        code, meta := src[..k], src[k + 1..];
        SpaceIndexAt(src, k);
        return;
      }
      k := k + 1;
    }
    SpaceIndexAt(src, k);
  }

  // ----- Recognising a command -----

  /** The keyword that selects a parsed command. */
  function DBKeyword(c: DBCommand): (w: string)
    requires c != AddRoute
    ensures ' ' !in w
  {
    if c == AddBus then "Bus" else "Stop"
  }

  function OutputKeyword(c: OutputCommand): (w: string)
    ensures ' ' !in w
  {
    if c == PrintBus then "Bus" else "Stop"
  }

  /** GetDBCommandCodeAndQuery (transport_catalogue.cpp:59-83). */
  function GetDBCommandCodeAndQuery(from: string): (r: Result<(DBCommand, string), CatalogueError>)
    ensures from == [] ==> r == Err(EmptyCommandMetadata)
    ensures r.Ok? ==> r.value.0 != AddRoute && from == DBKeyword(r.value.0) + [' '] + r.value.1
  {
    if from == [] then Err(EmptyCommandMetadata)
    else
      var (code, meta) := Divide(from);
      DivideSplits(from);
      if code == "Bus" then Ok((AddBus, meta))
      else if code == "Stop" then Ok((AddStop, meta))
      else Err(InvalidCommandMetadata)
  }

  /** GetOutputCommandCodeAndQuery (transport_catalogue.cpp:85-109). */
  function GetOutputCommandCodeAndQuery(from: string): (r: Result<(OutputCommand, string), CatalogueError>)
    ensures from == [] ==> r == Err(EmptyCommandMetadata)
    ensures r.Ok? ==> from == OutputKeyword(r.value.0) + [' '] + r.value.1
  {
    if from == [] then Err(EmptyCommandMetadata)
    else
      var (code, meta) := Divide(from);
      DivideSplits(from);
      if code == "Bus" then Ok((PrintBus, meta))
      else if code == "Stop" then Ok((PrintStop, meta))
      else Err(InvalidCommandMetadata)
  }

  /** A keyword, a space and any metadata parse back to that command and that
      metadata. */
  lemma DBCommandRoundTrip(c: DBCommand, meta: string)
    requires c != AddRoute
    ensures GetDBCommandCodeAndQuery(DBKeyword(c) + [' '] + meta) == Ok((c, meta))
  {
    DivideJoined(DBKeyword(c), meta);
  }

  lemma OutputCommandRoundTrip(c: OutputCommand, meta: string)
    ensures GetOutputCommandCodeAndQuery(OutputKeyword(c) + [' '] + meta) == Ok((c, meta))
  {
    DivideJoined(OutputKeyword(c), meta);
  }

  /** A non-empty command is rejected as invalid metadata iff its first word,
      up to a space, is neither `Bus` nor `Stop`; a command without a space
      (even a bare `Bus`) is always rejected. */
  lemma CommandRejected(from: string)
    requires from != []
    ensures GetDBCommandCodeAndQuery(from) == Err(InvalidCommandMetadata) <==> Divide(from).0 !in {"Bus", "Stop"}
    ensures GetOutputCommandCodeAndQuery(from) == Err(InvalidCommandMetadata) <==> Divide(from).0 !in {"Bus", "Stop"}
    ensures ' ' !in from ==> GetDBCommandCodeAndQuery(from) == Err(InvalidCommandMetadata)
  {
    DivideSplits(from);
  }

  // ----- Routes -----

  /** IsClosedRoute (transport_catalogue.cpp:54-57): the first stop is also
      the last. The source dereferences the first element, so the route must
      not be empty. */
  predicate IsClosedRoute(route: Route)
    requires route != []
  {
    route[0] == route[|route| - 1]
  }

  /** Returning to the first stop closes any route, a route of one stop is
      closed, and a closed route stays closed when it is travelled back. */
  lemma ClosedRoutes(route: Route)
    requires route != []
    ensures IsClosedRoute(route + [route[0]])
    ensures |route| == 1 ==> IsClosedRoute(route)
    ensures IsClosedRoute(route) <==> IsClosedRoute(Reversed(route))
  {
    ReversedEnds(route);
  }

  function Reversed(s: Route): (r: Route)
    ensures |r| == |s|
  {
    if s == [] then [] else Reversed(s[1..]) + [s[0]]
  }

  lemma {:induction false} ReversedEnds(s: Route)
    requires s != []
    ensures Reversed(s)[0] == s[|s| - 1] && Reversed(s)[|s| - 1] == s[0]
  {
    if |s| > 1 {
      ReversedEnds(s[1..]);
    }
  }

  // ----- The catalogue -----

  /** The containers of TransportCatalogue (transport_catalogue.h:62-94).
      transport_catalogue.cpp appends to `stops_to_buses_` and treats a route
      as a vector of stop indices, so both are sequences here. */
  class TransportCatalogue {
    var lastStopId: nat
    var routes: seq<Route>
    var stops: seq<Stop>
    var buses: seq<Bus>
    var namesToStops: map<string, nat>
    var stopsToBuses: map<nat, seq<nat>>
    var busesToStops: map<nat, seq<nat>>
    var stopsToRoutes: map<nat, seq<nat>>
    var idsToBuses: map<nat, nat>

    /** Every registered bus id leads to a bus with that id. */
    ghost predicate Valid()
      reads this
    {
      forall id :: id in idsToBuses ==> idsToBuses[id] < |buses| && buses[idsToBuses[id]].id == id
    }

    constructor ()
      ensures Valid() && lastStopId == 1
      ensures routes == [] && stops == [] && buses == []
      ensures namesToStops == map[] && stopsToBuses == map[] && busesToStops == map[]
      ensures stopsToRoutes == map[] && idsToBuses == map[]
    {
      lastStopId := 1;
      routes, stops, buses := [], [], [];
      namesToStops := map[];
      stopsToBuses, busesToStops, stopsToRoutes := map[], map[], map[];
      idsToBuses := map[];
    }

    /** The bus registered under `id`. */
    function BusWithId(id: nat): (b: Bus)
      reads this
      requires Valid() && id in idsToBuses
      ensures b.id == id && b in buses
    {
      buses[idsToBuses[id]]
    }

    /** The list a map holds under a key, empty when the key is absent, as
        `operator[]` creates it. */
    static function ListAt(m: map<nat, seq<nat>>, key: nat): (s: seq<nat>)
      ensures key in m ==> s == m[key]
      ensures key !in m ==> s == []
    {
      if key in m then m[key] else []
    }

    /** add_stop (transport_catalogue.cpp:149-152). */
    method AddStop(stop: Stop)
      modifies this
      ensures stops == old(stops) + [stop]
      ensures routes == old(routes) && buses == old(buses) && idsToBuses == old(idsToBuses)
      ensures namesToStops == old(namesToStops) && stopsToBuses == old(stopsToBuses)
      ensures busesToStops == old(busesToStops) && stopsToRoutes == old(stopsToRoutes)
      ensures lastStopId == old(lastStopId)
    {
      stops := stops + [stop];
    }

    /** add_bus (transport_catalogue.cpp:154-158): appends the bus and points
        its id at the new last position; an id seen before now leads to the
        new bus. */
    method AddBus(bus: Bus)
      requires Valid()
      modifies this
      ensures Valid()
      ensures buses == old(buses) + [bus]
      ensures idsToBuses == old(idsToBuses)[bus.id := |old(buses)|]
      ensures BusWithId(bus.id) == bus
      ensures forall id :: id in old(idsToBuses) && id != bus.id ==> BusWithId(id) == old(BusWithId(id))
      ensures routes == old(routes) && stops == old(stops) && namesToStops == old(namesToStops)
      ensures stopsToBuses == old(stopsToBuses) && busesToStops == old(busesToStops)
      ensures stopsToRoutes == old(stopsToRoutes) && lastStopId == old(lastStopId)
    {
      buses := buses + [bus];
      idsToBuses := idsToBuses[bus.id := |buses| - 1];
    }

    /** add_route (transport_catalogue.cpp:160-163). */
    method AddRoute(route: Route)
      modifies this
      ensures routes == old(routes) + [route]
      ensures stops == old(stops) && buses == old(buses) && idsToBuses == old(idsToBuses)
      ensures namesToStops == old(namesToStops) && stopsToBuses == old(stopsToBuses)
      ensures busesToStops == old(busesToStops) && stopsToRoutes == old(stopsToRoutes)
      ensures lastStopId == old(lastStopId)
    {
      routes := routes + [route];
    }

    /** connect_bus_and_stop (transport_catalogue.cpp:165-169): each side's
        list gains the other index, created empty when missing. */
    method ConnectBusAndStop(busIndex: nat, stopIndex: nat)
      modifies this
      ensures busesToStops == old(busesToStops)[busIndex := ListAt(old(busesToStops), busIndex) + [stopIndex]]
      ensures stopsToBuses == old(stopsToBuses)[stopIndex := ListAt(old(stopsToBuses), stopIndex) + [busIndex]]
      ensures routes == old(routes) && stops == old(stops) && buses == old(buses)
      ensures idsToBuses == old(idsToBuses) && namesToStops == old(namesToStops)
      ensures stopsToRoutes == old(stopsToRoutes) && lastStopId == old(lastStopId)
    {
      busesToStops := busesToStops[busIndex := ListAt(busesToStops, busIndex) + [stopIndex]];
      stopsToBuses := stopsToBuses[stopIndex := ListAt(stopsToBuses, stopIndex) + [busIndex]];
    }

    /** connect_stop_and_route (transport_catalogue.cpp:171-175): both sides
        are reached with `at`, which throws on a missing route or stop; the
        route has already gained the stop when the stop turns out missing. */
    method ConnectStopAndRoute(stopIndex: nat, routeIndex: nat) returns (r: Outcome<CatalogueError>)
      modifies this
      ensures r.Fail? ==> r.error == OutOfRange
      ensures routeIndex >= |old(routes)| ==> r.Fail? && routes == old(routes) && stopsToRoutes == old(stopsToRoutes)
      ensures routeIndex < |old(routes)| ==> routes == old(routes)[routeIndex := old(routes)[routeIndex] + [stopIndex]]
      ensures routeIndex < |old(routes)| ==> (r.Pass? <==> stopIndex in old(stopsToRoutes))
      ensures r.Pass? ==> stopsToRoutes == old(stopsToRoutes)[stopIndex := old(stopsToRoutes)[stopIndex] + [routeIndex]]
      ensures r.Fail? ==> stopsToRoutes == old(stopsToRoutes)
      ensures stops == old(stops) && buses == old(buses) && idsToBuses == old(idsToBuses)
      ensures namesToStops == old(namesToStops) && stopsToBuses == old(stopsToBuses)
      ensures busesToStops == old(busesToStops) && lastStopId == old(lastStopId)
    {
      if routeIndex >= |routes| {
        return Fail(OutOfRange);
      }
      routes := routes[routeIndex := routes[routeIndex] + [stopIndex]];
      if stopIndex !in stopsToRoutes {
        return Fail(OutOfRange);
      }
      stopsToRoutes := stopsToRoutes[stopIndex := stopsToRoutes[stopIndex] + [routeIndex]];
      return Pass;
    }

    /** clear (transport_catalogue.cpp:210-220): all eight containers are
        emptied; the stop id counter is not reset. */
    method Clear()
      modifies this
      ensures Valid()
      ensures routes == [] && stops == [] && buses == []
      ensures namesToStops == map[] && stopsToBuses == map[] && busesToStops == map[]
      ensures stopsToRoutes == map[] && idsToBuses == map[]
      ensures lastStopId == old(lastStopId)
    {
      routes, stops, buses := [], [], [];
      namesToStops := map[];
      stopsToBuses, busesToStops, stopsToRoutes := map[], map[], map[];
      idsToBuses := map[];
    }
  }
}

=== FILE: wrappers.dfy ===
/** Failure-carrying results shared by the modules of this project: the C++
    exceptions of the repository become `Err` values. */
module Wrappers {

  datatype Result<+T, +E> = Ok(value: T) | Err(error: E) {
    predicate IsFailure() {
      Err?
    }

    function PropagateFailure<U>(): Result<U, E>
      requires Err?
    {
      Err(error)
    }

    function Extract(): T
      requires Ok?
    {
      value
    }
  }

  datatype Option<+T> = None | Some(value: T)

  /** The result of an operation that returns nothing but may fail. */
  datatype Outcome<+E> = Pass | Fail(error: E)
}
